=== FILE: README.md ===
# TRUST dataset editor: widget bookkeeping, modelled in Dafny

This project models the core of the TRUST GUI (`triogui`). The GUI keeps in-memory lists behind its editor widgets in step with a TRUST dataset:

- named problems, schemes and coupled problems;
- associations, discretize pairs and solve requests;
- the "ecriture lecture special" switch;
- the tab bar of the main application and each object editor's undo history.

It also picks an editor for every attribute of a dataset object from the attribute's declared type.

The dataset is reached only through the `trioapi` library. The model never guesses that library's internals. Every operation returns the list or state it leaves behind, together with the `trioapi` calls it issued (`Dataset.Call`). Python exceptions become `Failure` values:

- `IndexError` on the tab lists;
- `KeyError` on dict lookups;
- `ValueError` from `list.remove`;
- `AttributeError` from `.items()` on a non-dict.

Two small interpretations of the call log are used to state what the calls do to the dataset:

- `Dataset.Replay`: a multiset of entries, where an overwrite that does not find its entry fails;
- `Dataset.DeclareAll`: the set of declared identifiers.

They are assumptions about `trioapi`, stated once and used only in lemmas.

Modules follow the source files:

| module | file |
|---|---|
| `Wrappers` | `Option`, `Result` and the Python exceptions |
| `Dataset` | the objects, entries and `trioapi` calls |
| `EntityWidget` | the shared state machine for problems and schemes |
| `ProblemWidget`, `SchemeWidget` | `problem_widget.py`, `scheme_widget.py` |
| `MainApp` | `main_app.py` |
| `CoupledProblemWidget` | `coupled_problem_widget.py` |
| `PairList` | the shared code of `associate_widget.py` and `discretize_widget.py` |
| `AssociateWidget`, `DiscretizeWidget` | those two files |
| `SolveWidget` | `solve_widget.py` |
| `EcritureLectureSpecialWidget` | `ecriture_lecture_special_widget.py` |
| `Schema` | type descriptors and values |
| `ObjectWidget` | `object.py` |
| `ListWidget` | `list_widget.py` |
| `SelectWidget` | `select_widget.py` |
| `WidgetDict` | `widget_dict2.py` |

`object.py`, `list_widget.py` and `select_widget.py` have no path get/set, no commit primitive and no list actions; the model has none either. The call sites also disagree with the definitions:

- `main_app.py` builds `ObjectWidget` with two arguments;
- `list_widget.py` and `select_widget.py` call `show_widget` with five;
- `object.py:123` builds `SelectWidget` with one argument, the class, where `select_widget.py:7-9` takes five;
- `object.py:154` builds `ListWidget` with two arguments, the element type and then the value, where `list_widget.py:6-8` takes five, starting with the value.

Each function is modelled as its own file defines it. Calls across that mismatch are recorded by their arguments.

## Model

| member | source | states |
|---|---|---|
| EntityWidget.UpdateMenu | src/triogui/ui/widgets/object_management/problem_widget.py:81-94 | A null event changes nothing and reports nothing. Otherwise only pair `index` changes: a name event replaces its identifier and keeps its object; a type event keeps the identifier and converts the old object to the chosen class, or builds a default one when there was none. The report carries the index, the kind, `already_created` (exactly when the old pair had no `None`) and the old identifier |
| EntityWidget.AddEntity | src/triogui/ui/widgets/object_management/problem_widget.py:96-121 | Appends one blank pair at index = old length; earlier pairs are unchanged |
| EntityWidget.Retype | src/triogui/ui/widgets/object_management/problem_widget.py:88-93 | The new object has the chosen class; it is the old object converted when there was one, otherwise a default instance |
| EntityWidget.CompletesUpdate | src/triogui/ui/widgets/main_app.py:96-118 | How editing pair `i` changes the list of complete pairs: in place when it stays complete, an insertion at the count of complete pairs before `i` when it becomes complete, nothing when it stays incomplete |
| EntityWidget.EventMoves | src/triogui/ui/widgets/object_management/problem_widget.py:81-94 | A widget event on element `index` leaves the number of complete pairs before it unchanged and moves the list of complete pairs in one of three ways at that count: replaced in place (a rename keeps the object, a retype keeps the identifier) when it was already created, inserted when it just became complete, untouched when it stays incomplete |
| EntityWidget.UpdateCountsDeclarations | src/triogui/ui/widgets/main_app.py:111-118 | A pair becomes complete exactly when its event is reported as not already created and the new pair has no `None` side, so the number of complete pairs rises by one exactly then |
| EntityWidget.UpdateKeepsComplete | src/triogui/ui/widgets/object_management/problem_widget.py:85-94 | No event ever makes a complete pair incomplete |
| ProblemWidget.UpdateMenu | src/triogui/ui/widgets/object_management/problem_widget.py:81-94 | On `pb_list`: a null event is a no-op; an event changes only element `index`: a name event gives `[name, old object]`, a type event keeps the name and installs the old object converted to the chosen class (or a default one when there was none). It reports kind 0 for a name and 1 for a type, `already_created` and the old identifier |
| ProblemWidget.AddPb | src/triogui/ui/widgets/object_management/problem_widget.py:96-121 | `add_pb` appends exactly one `[None, None]` |
| SchemeWidget.UpdateMenu | src/triogui/ui/widgets/object_management/scheme_widget.py:80-93 | The same event contract on `sch_list`, new element included: `[name, old object]` for a name event, the old name with the converted or default object for a type event |
| SchemeWidget.AddSch | src/triogui/ui/widgets/object_management/scheme_widget.py:95-120 | `add_sch` appends exactly one `[None, None]` |
| MainApp.Insert | src/triogui/ui/widgets/main_app.py:113-117 | Python `list.insert`: the element lands at the index, or at the end when the index is past it |
| MainApp.UpdateTabs | src/triogui/ui/widgets/main_app.py:96-118 | At a given tab slot, for one report: a rename of a created pair sets that slot's title to the new identifier and issues one `change_read_object(old, "identifier", new)`, or raises `IndexError` when the slot does not exist; a retype sets that slot's editor to a new editor on the pair's new object and issues one `change_read_object(old, "obj", obj)`, or raises `IndexError`; a newly complete pair inserts its identifier and an editor on its object at the slot and issues one `add_object(obj, name)`; otherwise nothing happens. No other title or editor changes |
| MainApp.PairEditors | src/triogui/ui/widgets/main_app.py:105-117 | One editor per complete pair, in order, each on that pair's object |
| MainApp.GetNbrPb | src/triogui/ui/widgets/main_app.py:180-188 | The loop counts exactly the pairs with no `None`: between 0 and the list length, equal to the length exactly when every pair is complete |
| MainApp.UpdateMenuPb | src/triogui/ui/widgets/main_app.py:73-125 | As written, with the problem's tab taken to be `index + 1`: the lists are untouched, at most one call is issued, and the effect on titles, editors and calls is exactly that of one report at slot `index + 1` with problem `index`: a retitle, a new editor on its new object, an insertion of title and editor, or nothing, with `IndexError` when that slot is missing |
| MainApp.UpdateMenuSch | src/triogui/ui/widgets/main_app.py:127-178 | As written, with the scheme's tab taken to be `index + get_nbr_pb() + 1`: the same effect, with scheme `index`, at that slot |
| MainApp.UpdateMenuPbCorrected | src/triogui/ui/widgets/main_app.py:96-118 | The problem callback with the tab counted among complete problems only: the same effect, at the slot after "Home" and the complete problems before `index`; lists untouched, at most one call |
| MainApp.UpdateMenuSchCorrected | src/triogui/ui/widgets/main_app.py:153-173 | The scheme callback with the tab counted after all complete problems and among complete schemes only: the same effect at that slot |
| MainApp.UpdateTabsInSync | src/triogui/ui/widgets/main_app.py:96-118 | When a run of titles and a run of editors mirror a list of complete pairs (identifiers, and editors on their objects) between fixed prefixes and suffixes, the callback for an edit that moves that list as the widget does keeps both runs mirroring the new list, leaves the prefixes and suffixes alone, and never raises |
| MainApp.PbEvent | src/triogui/ui/widgets/main_app.py:73-125 | A problem widget event delivered to the corrected shell callback keeps the number of problems, leaves the schemes alone and issues at most one dataset call |
| MainApp.SchEvent | src/triogui/ui/widgets/main_app.py:127-178 | The same for a scheme event: the problems are untouched and the number of schemes is kept |
| MainApp.ShellStep | src/triogui/ui/widgets/main_app.py:73-178 | One user action on the shell: an edit keeps both list lengths, pressing "Add" grows exactly that list by one; at most one call |
| MainApp.RunShell | src/triogui/ui/widgets/main_app.py:73-178 | A run of actions, stopped at the first exception, issues at most one call per action |
| MainApp.ShellStepKeepsSync | src/triogui/ui/widgets/main_app.py:96-173 | Any single edit or addition on a shell in step never raises and keeps it in step: titles are "Home", the complete problems' names, the complete schemes' names, and tab `k`'s editor holds the object of the pair titled at `k` |
| MainApp.RunShellKeepsSync | src/triogui/ui/widgets/main_app.py:96-173 | Any run of edits and additions, each on an element that exists at that point, never raises and leaves the titles equal to "Home", then the complete problems, then the complete schemes, with each tab's editor on the object of the pair it is titled after |
| MainApp.PbEventKeepsSync | src/triogui/ui/widgets/main_app.py:96-118 | A problem event followed by the corrected callback never raises and keeps the titles equal to "Home", then the names of the complete problems, then those of the complete schemes, and each editor on the object of the pair under its title |
| MainApp.SchEventKeepsSync | src/triogui/ui/widgets/main_app.py:153-173 | The same for a scheme event: titles and editors still mirror the complete pairs in order |
| MainApp.AddKeepsSync | src/triogui/ui/widgets/object_management/problem_widget.py:96-121 | Adding a blank problem or scheme (the widget then fires a null event) changes no tab |
| MainApp.InitialInSync | src/triogui/ui/widgets/main_app.py:20-47 | The empty shell with only the home tab is in step |
| MainApp.PbEventCalls | src/triogui/ui/widgets/main_app.py:96-118 | A problem event issues exactly one call, chosen by the pair before and after: a rename, a retype, an `add_object` when it first becomes complete, nothing while incomplete |
| MainApp.EventOnLast | src/triogui/ui/widgets/main_app.py:96-118 | An event on the last problem never raises and keeps the shell in step. It replaces that problem only. It issues a rename, an `add_object` on completion, or nothing while incomplete |
| MainApp.ProblemLifecycle | src/triogui/ui/widgets/main_app.py:96-118 | Blank, then name, then type, then rename issues exactly `add_object(obj, n1)` and then `change_read_object(n1, "identifier", n2)`, and nothing else |
| MainApp.TitleSlotCounterexample | src/triogui/ui/widgets/main_app.py:99 | As written, renaming a problem that has an incomplete problem before it raises `IndexError`; the corrected callback retitles the right tab |
| MainApp.RetypeSlotCounterexample | src/triogui/ui/widgets/main_app.py:104-107 | As written, retyping a problem that has an incomplete problem before it replaces the editor of the next problem's tab: that tab keeps its title but now edits the retyped object, so the shell falls out of step; the corrected callback replaces the right editor and stays in step |
| MainApp.Cancel | src/triogui/ui/widgets/main_app.py:233-241 | Undo pops exactly one snapshot and restores the live object from the new last one when more than one remains; otherwise it changes nothing, so the history never empties |
| MainApp.CancelAfterRecord | src/triogui/ui/widgets/main_app.py:233-241 | Undo inverts recording a snapshot: it returns to the previous checkpoint |
| MainApp.CancelTimesFloor | src/triogui/ui/widgets/main_app.py:235-237 | After `n` undos, the first `max(1, len - n)` snapshots remain: the first checkpoint is never popped |
| MainApp.Editors | src/triogui/ui/widgets/main_app.py:205-207 | One editor per read name, on the object the dataset holds under that name, with its history seeded with that object |
| MainApp.UpdateMenuDataset | src/triogui/ui/widgets/main_app.py:199-208 | Keeps the first title and tab, then the read problem names followed by the read scheme names, with one editor for each |
| MainApp.LoadRestoresSync | src/triogui/ui/widgets/main_app.py:199-208 | Loading a dataset whose read problems and schemes are complete, and which holds each read object under its read name, puts the shell back in step: titles and editors mirror the read pairs |
| CoupledProblemWidget.UpdateDataset | src/triogui/ui/widgets/object_management/coupled_problem_widget.py:109-135 | A null event is a no-op. An edit stores the new name at `index` and nowhere else, and issues exactly one call: a rename of the old declaration if there was a name, otherwise a declaration of a fresh `Coupled_problem` |
| CoupledProblemWidget.AddCoupledProblem | src/triogui/ui/widgets/object_management/coupled_problem_widget.py:137-141 | Appends one `None` and issues no call |
| CoupledProblemWidget.DeleteCoupledProblem | src/triogui/ui/widgets/object_management/coupled_problem_widget.py:144-155 | Out of range is a no-op. In range, the element is always removed and the rest keep their order; a declaration delete is issued only when the name is a declarations key |
| CoupledProblemWidget.UpdateKeepsRegistered | src/triogui/ui/widgets/object_management/coupled_problem_widget.py:115-135 | When every named element is declared and the edited name is not shared, the edit keeps every named element declared |
| CoupledProblemWidget.DeleteKeepsRegistered | src/triogui/ui/widgets/object_management/coupled_problem_widget.py:148-155 | Deleting keeps every remaining named element declared when names are unshared |
| CoupledProblemWidget.CoupledLifecycle | src/triogui/ui/widgets/object_management/coupled_problem_widget.py:109-155 | Add, name, rename, delete issues exactly declare, rename, undeclare; the list returns to where it started and the name is no longer declared |
| PairList.Input | src/triogui/ui/widgets/object_management/associate_widget.py:123 | The empty string means no name; any other text is kept as is |
| PairList.Edit | src/triogui/ui/widgets/object_management/associate_widget.py:126-129 | Field 1 changes only the first name; any other field type changes only the second |
| PairList.Change | src/triogui/ui/widgets/object_management/associate_widget.py:118-149 | Only element `index` changes. A pair that was complete has its entry overwritten with the new pair, even an incomplete one. A pair completed for the first time gets one entry added. No call when neither is complete |
| PairList.ChangeCorrected | src/triogui/ui/widgets/object_management/associate_widget.py:132-149 | The same edit, except that a complete pair that loses a name has its entry deleted |
| PairList.ChangeCorrectedKeepsEntries | src/triogui/ui/widgets/object_management/associate_widget.py:132-149 | With the correction, the dataset holds exactly one entry per complete pair after every edit, and every overwrite finds its entry |
| PairList.AddKeepsEntries | src/triogui/ui/widgets/object_management/associate_widget.py:151-156 | Adding a blank pair leaves the entries exact |
| PairList.DeleteKeepsEntries | src/triogui/ui/widgets/object_management/associate_widget.py:158-171 | Deleting keeps the entries exact: a complete pair's entry goes, and an incomplete pair had none |
| PairList.Act | src/triogui/ui/widgets/object_management/associate_widget.py:118-171 | One user action on the corrected widget issues at most one call; adding and deleting behave exactly as in the source |
| PairList.RunActions | src/triogui/ui/widgets/object_management/associate_widget.py:118-171 | A run of actions issues at most one call per action |
| PairList.RunKeepsEntries | src/triogui/ui/widgets/object_management/associate_widget.py:118-171 | With the correction, after any run of edits, additions and deletions, the dataset holds exactly one entry per complete pair of the list, and no overwrite misses its entry |
| PairList.ClearThenRefillCounterexample | src/triogui/ui/widgets/object_management/associate_widget.py:132-140 | As written, clearing one name of `[a, b]` and typing `c` leaves two entries, `(None, b)` and `(c, b)`, for one pair |
| PairList.ClearThenRefillCorrected | src/triogui/ui/widgets/object_management/associate_widget.py:132-149 | The corrected edit leaves exactly the entry `(c, b)` |
| PairList.Panels | src/triogui/ui/widgets/object_management/associate_widget.py:56-69 | One panel per pair, in order; each text field shows the name, or "" for none |
| PairList.PanelsRoundTrip | src/triogui/ui/widgets/object_management/associate_widget.py:58-69 | Reading the panels' fields back gives the list, and retyping a field's own text leaves its pair unchanged |
| PairList.ChangeKeepsNoEmptyNames | src/triogui/ui/widgets/object_management/associate_widget.py:123-129 | No edit stores an empty name, so the panels stay faithful |
| AssociateWidget.ChangeAssociateDataset | src/triogui/ui/widgets/object_management/associate_widget.py:118-149 | The edit contract with `Associate(objet_1, objet_2)` entries |
| AssociateWidget.AddAssociate | src/triogui/ui/widgets/object_management/associate_widget.py:151-156 | Appends `[None, None]` with no call |
| AssociateWidget.DeleteAssociate | src/triogui/ui/widgets/object_management/associate_widget.py:158-171 | Out of range is a no-op. In range, one `delete_read_object(Associate(..))` is issued and exactly that element is removed |
| DiscretizeWidget.ChangeDiscretizeDataset | src/triogui/ui/widgets/object_management/discretize_widget.py:117-154 | The edit contract with `Discretize(problem_name, dis)` entries |
| DiscretizeWidget.AddDiscretize | src/triogui/ui/widgets/object_management/discretize_widget.py:156-161 | Appends `[None, None]` with no call |
| DiscretizeWidget.DeleteDiscretize | src/triogui/ui/widgets/object_management/discretize_widget.py:163-176 | Out of range is a no-op. In range, one `delete_read_object(Discretize(..))` is issued and exactly that element is removed |
| SolveWidget.SwitchFor | src/triogui/ui/widgets/object_management/solve_widget.py:27-31 | A switch is named after the problem and starts on exactly when the name is in `solve_list` |
| SolveWidget.RebuildPanels | src/triogui/ui/widgets/object_management/solve_widget.py:23-41 | Exactly one switch per problem with no `None` side, in order, and incomplete problems are skipped |
| SolveWidget.RemoveFirst | src/triogui/ui/widgets/object_management/solve_widget.py:52 | `list.remove` drops the first occurrence only and keeps the order of the rest |
| SolveWidget.RemoveFirstDistinct | src/triogui/ui/widgets/object_management/solve_widget.py:52 | On a list without duplicates, `list.remove` takes the name out altogether, keeps the list free of duplicates and leaves every other name's membership alone |
| SolveWidget.ChangeSolve | src/triogui/ui/widgets/object_management/solve_widget.py:43-52 | Turning on issues one `solve_problem(id)` and leaves `solve_list` alone. Turning off issues one `delete_read_object(Solve(pb=id))`, then removes `id`, raising `ValueError` exactly when it is absent |
| SolveWidget.OnThenOffCounterexample | src/triogui/ui/widgets/object_management/solve_widget.py:46-52 | A switch that starts off, turned on then off, raises `ValueError` |
| SolveWidget.ChangeSolveCorrected | src/triogui/ui/widgets/object_management/solve_widget.py:46-47 | Turning on also records the name once |
| SolveWidget.CorrectedKeepsAgreement | src/triogui/ui/widgets/object_management/solve_widget.py:43-52 | With the correction, and no duplicate names, every event keeps the switch on exactly when its name is listed, leaves other names alone, and raises nothing |
| SolveWidget.RunCorrected | src/triogui/ui/widgets/object_management/solve_widget.py:43-52 | The corrected callback over a run of events, up to the first that raises: one call per event, the first being that event's call |
| SolveWidget.CorrectedRunAgrees | src/triogui/ui/widgets/object_management/solve_widget.py:23-52 | With the correction, any run of switch flips from a duplicate-free list that agrees with the switches raises nothing, and leaves the list duplicate-free and holding exactly the problems whose switch is on |
| SolveWidget.OnThenOffCorrected | src/triogui/ui/widgets/object_management/solve_widget.py:46-52 | The corrected on-then-off raises nothing and restores the list |
| EcritureLectureSpecialWidget.InitialType | src/triogui/ui/widgets/object_management/ecriture_lecture_special_widget.py:21-26 | The tracked type is that of the last keyword entry; `None` without one |
| EcritureLectureSpecialWidget.SwitchOn | src/triogui/ui/widgets/object_management/ecriture_lecture_special_widget.py:29-31 | The switch starts off exactly when the tracked type is `"0"` |
| EcritureLectureSpecialWidget.ChangeSwitch | src/triogui/ui/widgets/object_management/ecriture_lecture_special_widget.py:36-61 | Turning off adds the `"0"` keyword when none is tracked, and otherwise overwrites the tracked one; `"0"` is tracked afterwards. Turning on deletes the tracked keyword and keeps its type |
| EcritureLectureSpecialWidget.OffOnOffCounterexample | src/triogui/ui/widgets/object_management/ecriture_lecture_special_widget.py:48-61 | Off, on, off on a dataset without the keyword: the second turn-off overwrites a keyword the turn-on deleted, so the lookup fails |
| EcritureLectureSpecialWidget.ChangeSwitchCorrected | src/triogui/ui/widgets/object_management/ecriture_lecture_special_widget.py:58-61 | Turning on also forgets the deleted type |
| EcritureLectureSpecialWidget.CorrectedKeepsKeyword | src/triogui/ui/widgets/object_management/ecriture_lecture_special_widget.py:36-61 | With the correction, the dataset's keyword entries stay exactly the tracked one, or none, in any order of events |
| EcritureLectureSpecialWidget.RunCorrected | src/triogui/ui/widgets/object_management/ecriture_lecture_special_widget.py:36-61 | A run of switch events on the corrected widget issues one call per event, and tracks `"0"` after a final turn-off |
| EcritureLectureSpecialWidget.CorrectedRunKeepsKeyword | src/triogui/ui/widgets/object_management/ecriture_lecture_special_widget.py:36-61 | With the correction, after any run of switch events the dataset holds exactly the tracked keyword, or none, and no overwrite misses it |
| EcritureLectureSpecialWidget.OffOnOffCorrected | src/triogui/ui/widgets/object_management/ecriture_lecture_special_widget.py:36-61 | The corrected off, on, off ends with exactly the `"0"` keyword |
| ObjectWidget.ShowWidget | src/triogui/ui/widgets/object.py:66-157 | First match wins. An attribute map gives one panel per attribute, in key order, panel `j` being that attribute's own panel on the value. It succeeds on an object value only when every key is one of the object's attributes; a value that is not an object raises `TypeError`. A class gives the subclass selector without a value, and with a value exactly what the runtime class's attribute map gives on that value. `str`, `float`, `bool` and `int` give their field on the value. `Literal` gives a drop-down of its arguments in order. A list of types with a value gives a list editor over its first type, or `IndexError` when that list is empty. Everything else is "not defined" |
| ObjectWidget.FieldPanel | src/triogui/ui/widgets/object.py:83-113 | One attribute's panel is headed by its name. Without a value its content is the attribute type's widget without a value, and it fails exactly when that does. With an object value, a name the object lacks raises `KeyError`; otherwise the content is the attribute type's widget on the object's value for that name, failing exactly when that does |
| ObjectWidget.ShowFields | src/triogui/ui/widgets/object.py:81-114 | When built, one panel per attribute of the map, in key order: panel `j` is attribute `j`'s own panel, headed by its name. With an object value, every name is one of the object's attributes |
| ObjectWidget.ShowFieldsSucceeds | src/triogui/ui/widgets/object.py:97-114 | The panel loop succeeds exactly when every remaining attribute's panel does |
| ObjectWidget.ShowDictSucceeds | src/triogui/ui/widgets/object.py:81-114 | An attribute map's editor is built exactly when every attribute's panel is. With no value, that is when every attribute type's own editor builds with no value. With an object, it is when the object has every key of the map and every attribute's editor builds on the object's value for that key |
| ObjectWidget.ShowClassSucceeds | src/triogui/ui/widgets/object.py:125-132 | A class with an object value is built exactly when the object has every key of its runtime class's attribute map and every such attribute's editor builds |
| ObjectWidget.FreshIsSkeleton | src/triogui/ui/widgets/object.py:81-123 | For an absent value the editor never fails and mirrors the declared type alone, whatever the schema library says about classes; a class leaf records the one-argument `SelectWidget` call, which the source's constructor rejects (see "## Left out") |
| ObjectWidget.AttrPanel | src/triogui/ui/widgets/object.py:42-60 | An attribute the class's map lacks raises `KeyError`. Otherwise the panel is headed by the attribute's name and holds `show_widget` of its declared type and its value |
| ObjectWidget.ObjectPanels | src/triogui/ui/widgets/object.py:42-60 | When built, one panel per attribute of the object, in order: panel `j` is attribute `j`'s own panel |
| ObjectWidget.ObjectPanelsSucceeds | src/triogui/ui/widgets/object.py:42-60 | The panel loop of `ObjectWidget.__init__` succeeds exactly when every attribute's panel does |
| ObjectWidget.ObjectPanelsBuild | src/triogui/ui/widgets/object.py:42-60 | The same loop succeeds exactly when every attribute of the object is declared by the class and its editor builds on its value |
| ObjectWidget.AttrPanelSucceeds | src/triogui/ui/widgets/object.py:46-60 | One attribute's panel is built exactly when the class declares it and its editor builds |
| ObjectWidget.ObjectPanelsFaithful | src/triogui/ui/widgets/object.py:42-60 | When the loop succeeds, the headers are the object's attribute names in order, every name is declared by the class, and each content is the editor for that name's declared type and its value |
| ObjectWidget.FreshAttrPanel | src/triogui/ui/widgets/object.py:44-48 | An unset attribute that the class declares gets the skeleton editor of its declared type |
| ObjectWidget.FreshObjectPanels | src/triogui/ui/widgets/object.py:42-60 | An object whose attributes are all unset gets, for each, the skeleton editor of its declared type, and never fails in the model (class leaves as in ObjectWidget.FreshIsSkeleton) |
| ListWidget.BuildPanels | src/triogui/ui/widgets/list_widget.py:59-125 | Starting empty, one panel per item in order, numbered `i + 1`; delete and duplicate buttons both carry `i`, one per item; each item is edited at `key_path + [i]` with its type marked non-list |
| ListWidget.PathsAddressItems | src/triogui/ui/widgets/list_widget.py:83-116 | An item's path extends the list's path by exactly its index, so distinct items have distinct paths, and the buttons carry that index |
| SelectWidget.SelectInit | src/triogui/ui/widgets/select_widget.py:41-85 | The selector shows the runtime class, or nothing without a value. A child editor exists exactly when there is a value whose class differs from the declared one. The initial skip pass keeps it |
| SelectWidget.ChangeClass | src/triogui/ui/widgets/select_widget.py:89-108 | With `skip` nothing changes. Otherwise the container becomes exactly one editor for a fresh instance of the selected class, with the same root, path and history, or `KeyError` when the name is not a schema class |
| SelectWidget.Choose | src/triogui/ui/widgets/select_widget.py:85-108 | Picking a class fails exactly when it is unknown; on success it is selected, with one editor |
| SelectWidget.ChooseForgetsContent | src/triogui/ui/widgets/select_widget.py:99-108 | Choosing is idempotent and discards the previous content |
| SelectWidget.ChoiceRoundTrip | src/triogui/ui/widgets/select_widget.py:41-108 | The new editor's object has the chosen runtime class, and a selector reopened on it shows the same choice with no nested editor |
| WidgetDict.CreateWidgets | src/triogui/widget_dict2.py:12-33 | A text input for `str` and `float`, a checkbox, a number input, a drop-down of the literal's options or of a class's subclasses. A list of types gives `IndexError` when empty and `AttributeError` when its first element is not an attribute map; otherwise it gives a list whose entry `j` is `create_widgets` of that element's attribute `j`, in order. `None` otherwise |
| WidgetDict.CreateWidgetsListSucceeds | src/triogui/widget_dict2.py:23-27 | A list whose first type is an attribute map gets its widgets exactly when every attribute of that map gets its own |
| WidgetDict.CreateElementWidgetsSucceeds | src/triogui/widget_dict2.py:23-27 | The element loop succeeds exactly when every remaining attribute's `create_widgets` does |
| WidgetDict.FieldSlot | src/triogui/widget_dict2.py:40-43 | A built slot is a nested dict exactly where the type is an attribute map; any other type becomes exactly its `create_widgets` result |
| WidgetDict.FieldSlotNested | src/triogui/widget_dict2.py:40-41 | A nested attribute map is processed in place: its slot is exactly the dict `show_widgets` gives on it, or that pass's exception |
| WidgetDict.ShowWidgets | src/triogui/widget_dict2.py:35-46 | Keys and order are kept, and slot `j` is what attribute `j` becomes. So a slot is a nested dict exactly where the type was an attribute map |
| WidgetDict.ShowWidgetsSucceeds | src/triogui/widget_dict2.py:35-46 | The type pass succeeds exactly when every remaining attribute's slot does |
| WidgetDict.CreateWidgetsExisting | src/triogui/widget_dict2.py:64-91 | Each scalar gives the widget holding that value; a float shows its printed form. An empty list raises `IndexError`; a non-empty list gives one entry per item, entry `j` being item `j` as `ItemNode` treats it, with the list's first item deciding the branch. `None` or an object gives `None` |
| WidgetDict.CreateWidgetsExistingListSucceeds | src/triogui/widget_dict2.py:77-85 | A non-empty list value gets its entries exactly when every item gets its own |
| WidgetDict.CreateItemsSucceeds | src/triogui/widget_dict2.py:77-85 | The item loop succeeds exactly when every remaining item's entry does |
| WidgetDict.ItemNode | src/triogui/widget_dict2.py:77-85 | When the list's first item is an object, an item that is not an object raises `AttributeError`, and a built item is the dict of slots `show_widgets_existing` gives for it. Otherwise an item becomes exactly `create_widgets_existing(key, item)` |
| WidgetDict.ItemNodeRecord | src/triogui/widget_dict2.py:79-80 | In a list of objects, an object item is exactly the dict `show_widgets_existing` gives on it, or that pass's exception |
| WidgetDict.AttrSlot | src/triogui/widget_dict2.py:53-58 | An unset value stays `None`. A built slot is a nested dict exactly where the value is an object. Any other value becomes exactly its `create_widgets_existing` result |
| WidgetDict.AttrSlotNested | src/triogui/widget_dict2.py:55-56 | A nested object is processed in place: its slot is exactly the dict `show_widgets_existing` gives on it, or that pass's exception |
| WidgetDict.ShowWidgetsExisting | src/triogui/widget_dict2.py:48-62 | Keys and order are kept, and slot `j` is what attribute `j` becomes |
| WidgetDict.ShowWidgetsExistingSucceeds | src/triogui/widget_dict2.py:48-62 | The value pass succeeds exactly when every remaining attribute's slot does |
| WidgetDict.MergeSlot | src/triogui/widget_dict2.py:95-102 | An unset slot takes the type side's slot of the same key. A nested dict whose key the type side lacks raises `KeyError`, as does an unset slot; a successful nested merge is again a nested dict. Any other slot is untouched |
| WidgetDict.MergeSlotNested | src/triogui/widget_dict2.py:101-102 | A nested slot whose key the type side has becomes exactly the dict that `final_widget` gives when merging it with the type side's slot of that key, or raises that merge's error |
| WidgetDict.FinalWidget | src/triogui/widget_dict2.py:93-103 | Keys and order are kept. When the type side is a dict, slot `j` of the result is slot `j` merged. Nothing changes when the type side is not a dict |
| WidgetDict.FinalWidgetSucceeds | src/triogui/widget_dict2.py:93-103 | The merge succeeds exactly when every slot's merge does: the first `KeyError` stops it |
| WidgetDict.WidgetsObj | src/triogui/widget_dict2.py:106-112 | A built form has the object's keys, in order |
| WidgetDict.WidgetsObjSucceeds | src/triogui/widget_dict2.py:106-112 | The form is built exactly when the type pass and the value pass both succeed and every slot of the value side merges. Each pass succeeds exactly when all its slots do |
| WidgetDict.WidgetsObjShowsValues | src/triogui/widget_dict2.py:106-112 | In the merged form a string, boolean or integer attribute shows its value in the matching widget, and an unset attribute is one the class declares |
| WidgetDict.SelfMerge | src/triogui/widget_dict2.py:93-103 | Merging a dict of slots into itself changes nothing, provided every dict in it has distinct keys |
| WidgetDict.MergeIdempotent | src/triogui/widget_dict2.py:93-103 | For a type side whose dicts have distinct keys, merging twice gives the result of merging once |

## Left out

- Rendering is not modelled: ipyvuetify components, `tab_change`, the rebuilding of tab bars (`main_app.py:121`, `175`, `211`) and the hooking of cancel buttons (`setup_cancel_buttons` apart from `cancel`). Only the data behind them is modelled.
- The internals of `trioapi` are not modelled; its calls are recorded as `Dataset.Call` values. `Replay` (entries as a multiset, where an overwrite must find its entry) and `DeclareAll` are stated assumptions about that library. `solve_problem` is not interpreted by `Replay`. `Replay` takes deleting an entry the dataset does not hold to change nothing. `delete_associate` and `delete_discretize` issue such a delete for an incomplete pair; what `trioapi` does then is not part of this model.
- `get_successive_attributes` and `obj_to_dict_type` become the `attrsOf` parameter, and `get_subclass` the `subclasses` parameter (with `known` for the classes `trustify_gen_pyd` defines). The items of the type selectors in `ObjectWidget.__init__` and `SelectWidget.__init__` are not modelled.
- The text typed into the widgets is a parameter (`text`, `change`); events carry one field each, as the source's observers do.
- Floats are kept as the text Python prints for them; no arithmetic is done on them.
- `ecriture_lecture_special_widget.py:53` writes `self.dataset[index]` rather than `self.dataset.entries[index]`; it is modelled as an overwrite of the entry, like the other widgets do it.
- ObjectWidget.ShowWidget: a present value that is not an object, under an attribute-map or class type, is modelled as `TypeError`. Depending on the value, Python raises `TypeError` or `IndexError`, or reads a character.
- WidgetDict.CreateWidgetsExisting: the branches testing `typing.get_origin(type(value))`, `typing.get_origin(type)` and `inspect.isclass(type)` are taken never to match, because a runtime value's type is never a `Literal` and `trioapi` is taken not to export a name `type`. `final_widget`'s `Literal` test likewise never matches a slot.
- The button handlers of `ListWidget` (add, duplicate, delete) are not in `list_widget.py` and are not modelled; only the indices the buttons carry are.
- Coupled-problem names are stored as typed, the empty string included, as the source does.
- MainApp.Cancel: snapshots are immutable values. In the source the live object and the snapshots are Python objects, and the history is seeded with the live object itself (`main_app.py:106`, `116`, `206`). Restoring runs `original.__dict__.clear()` and then `update(restored.__dict__)` (`main_app.py:240-241`). When the restored snapshot is the live object, `clear()` empties it too, so the object ends up empty rather than restored. That aliasing is not modelled.

- ObjectWidget.ShowWidget: a list of types with a value gives `ListEditor(first type, value)`, the arguments of the call at `object.py:154`. Against the five-parameter constructor of `list_widget.py:6-8` that call raises `TypeError`; the model records the call and does not raise.
- ObjectWidget.ShowWidget: an exported class with no value gives `Selector(class name)`, the argument of the call at `object.py:123`. Against the five-parameter constructor of `select_widget.py:7-9` that call raises `TypeError`; the model records the call and does not raise. So the "never fails" of ObjectWidget.FreshIsSkeleton and ObjectWidget.FreshObjectPanels holds for the model; in the source, any unset attribute whose declared type contains an exported class raises.
- PairList.Change: `Associate(objet_1=None, …)` and `Discretize(problem_name=None, …)` are taken to build without error (`associate_widget.py:135-140`, `discretize_widget.py:136-144`); the schema classes of `trustify_gen_pyd` are not part of this model. If they reject `None`, clearing a name of a complete pair raises after `associate_list[index]` has changed, and the old entry stays in the dataset.
- PairList.Delete: deleting an incomplete pair builds an entry holding `None` (`associate_widget.py:165-168`, `discretize_widget.py:170`) and is taken to build without error. If the schema rejects it, the call raises before `del`, and the element stays in the list.
- ObjectWidget.ShowWidget: the contract describes a built editor for an attribute map or a class with a value; when it is built is stated in ObjectWidget.ShowDictSucceeds and ObjectWidget.ShowClassSucceeds, because stated as a postcondition, it would make the mutually recursive functions instantiate each other's contracts without end.
- ObjectWidget.ShowFields: the contract describes a built panel list; when it is built is stated in ObjectWidget.ShowFieldsSucceeds, because stated as a postcondition, it would make the mutually recursive functions instantiate each other's contracts without end.
- ObjectWidget.ObjectPanels: the contract describes a built panel list; when it is built is stated in ObjectWidget.ObjectPanelsSucceeds and ObjectWidget.ObjectPanelsBuild, because stated as a postcondition, it would make the mutually recursive functions instantiate each other's contracts without end.
- WidgetDict.ShowWidgets: the contract describes a successful pass; when it succeeds is stated in WidgetDict.ShowWidgetsSucceeds, because stated as a postcondition, it would make the mutually recursive functions instantiate each other's contracts without end.
- WidgetDict.ShowWidgetsExisting: the contract describes a successful pass; when it succeeds is stated in WidgetDict.ShowWidgetsExistingSucceeds, because stated as a postcondition, it would make the mutually recursive functions instantiate each other's contracts without end.
- WidgetDict.CreateElementWidgets: the contract describes a successful loop; when it succeeds is stated in WidgetDict.CreateElementWidgetsSucceeds, because stated as a postcondition, it would make the mutually recursive functions instantiate each other's contracts without end.
- WidgetDict.CreateItems: the contract describes a successful loop; when it succeeds is stated in WidgetDict.CreateItemsSucceeds, because stated as a postcondition, it would make the mutually recursive functions instantiate each other's contracts without end.
- WidgetDict.CreateWidgets: for a list of attribute maps, the contract describes the built list; when it is built is stated in WidgetDict.CreateWidgetsListSucceeds, because stated as a postcondition, it would make the mutually recursive functions instantiate each other's contracts without end.
- WidgetDict.CreateWidgetsExisting: for a non-empty list, the contract describes the built list; when it is built is stated in WidgetDict.CreateWidgetsExistingListSucceeds, because stated as a postcondition, it would make the mutually recursive functions instantiate each other's contracts without end.
- WidgetDict.WidgetsObj: the contract gives the keys of a built form; when it is built is stated in WidgetDict.WidgetsObjSucceeds, because stated as a postcondition, it would make the mutually recursive functions instantiate each other's contracts without end.
- WidgetDict.FieldSlot: the content of a nested slot is stated in WidgetDict.FieldSlotNested, because stated as a postcondition, it would make the mutually recursive functions instantiate each other's contracts without end.
- WidgetDict.AttrSlot: the content of a nested slot is stated in WidgetDict.AttrSlotNested, because stated as a postcondition, it would make the mutually recursive functions instantiate each other's contracts without end.
- WidgetDict.ItemNode: that an object item is built exactly when the value pass on it succeeds is stated in WidgetDict.ItemNodeRecord, because stated as a postcondition, it would make the mutually recursive functions instantiate each other's contracts without end.

## Findings

| source | as written | input that shows it | evidently intended | confidence | as-written member | corrected member |
|---|---|---|---|---|---|---|
| src/triogui/ui/widgets/main_app.py:99 | The problem tab is taken to be at `index + 1` (for schemes, `index + get_nbr_pb() + 1`), counting incomplete pairs that own no tab | Problems `[a complete, blank, blank]`, then name and type the third, then rename it: `tab_titles[3]` raises `IndexError` | The tab after "Home" and the complete problems before it | not executed | MainApp.TitleSlotCounterexample | MainApp.RunShellKeepsSync |
| src/triogui/ui/widgets/main_app.py:105 | A retype replaces the editor at `index + 1`, which with an incomplete problem before the edited one is the editor of another problem's tab | Problems `[blank, a, b]` with tabs "Home", `a`, `b`; retype `a`: tab `b` now edits the retyped `a` object | The editor of the edited problem's own tab | not executed | MainApp.RetypeSlotCounterexample | MainApp.RunShellKeepsSync |
| src/triogui/ui/widgets/object_management/solve_widget.py:46-52 | Turning a switch on does not add the problem to `solve_list`, but turning it off removes it | A switch that starts off, turned on then off: `solve_list.remove` raises `ValueError` | Turning on records the name | not executed | SolveWidget.OnThenOffCounterexample | SolveWidget.CorrectedRunAgrees |
| src/triogui/ui/widgets/object_management/ecriture_lecture_special_widget.py:58-61 | Turning on deletes the keyword but keeps tracking its type | No keyword; off, on, off: the last off looks up the deleted `"0"` keyword | Turning on forgets the type, so the next off adds the keyword again | not executed | EcritureLectureSpecialWidget.OffOnOffCounterexample | EcritureLectureSpecialWidget.CorrectedRunKeepsKeyword |
| src/triogui/ui/widgets/object_management/associate_widget.py:132-140 | A complete pair that loses a name has its entry overwritten with the incomplete pair; completing it again adds a second entry (same in `discretize_widget.py:133-144`) | `[a, b]`, clear the first name, type `c`: entries `(None, b)` and `(c, b)`, provided `Associate(objet_1=None, …)` builds (see "Left out"); otherwise the clear raises and `(a, b)` stays next to `(c, b)` | The entry is deleted when the pair becomes incomplete | not executed | PairList.ClearThenRefillCounterexample | PairList.RunKeepsEntries |

=== FILE: associate_widget.dfy ===
/**
 * The association widget: a `PairList` whose entries are
 * `Associate(objet_1, objet_2)`.
 */
module AssociateWidget {
  import opened Wrappers
  import opened Dataset
  import opened PairList

  /** `change_associate_dataset(change, index, field_type)`, with `text` the field's new value. */
  function ChangeAssociateDataset(associateList: seq<Link>, index: nat, fieldType: int, text: string): (r: Step)
    requires index < |associateList|
    ensures |r.list| == |associateList|
    ensures forall j :: 0 <= j < |associateList| && j != index ==> r.list[j] == associateList[j]
    ensures r.list[index] == Edit(associateList[index], fieldType, text)
    ensures var prior, next := associateList[index], r.list[index];
      && (Complete(prior) ==>
            r.calls == [ReplaceEntry(Associate(prior.first, prior.second), Associate(next.first, next.second))])
      && (!Complete(prior) && Complete(next) ==> r.calls == [AddReadObject(Associate(next.first, next.second))])
      && (!Complete(prior) && !Complete(next) ==> r.calls == [])
  {
    Change(Association, associateList, index, fieldType, text)
  }

  /** `add_associate`: a blank association at the end, the dataset untouched. */
  function AddAssociate(associateList: seq<Link>): (r: Step)
    ensures r.list == associateList + [Link(None, None)]
    ensures r.calls == []
  {
    Add(associateList)
  }

  /** `delete_associate(index)`: ignored out of range; otherwise the association's entry is deleted and the pair removed. */
  function DeleteAssociate(associateList: seq<Link>, index: int): (r: Step)
    ensures !(0 <= index < |associateList|) ==> r.list == associateList && r.calls == []
    ensures 0 <= index < |associateList| ==>
      && r.calls == [DeleteReadObject(Associate(associateList[index].first, associateList[index].second))]
      && r.list == associateList[..index] + associateList[index + 1..]
  {
    Delete(Association, associateList, index)
  }
}

=== FILE: coupled_problem_widget.dfy ===
/**
 * `CoupledProblemWidget`: a list of coupled-problem names, each a
 * declaration of a fresh `Coupled_problem` object in the dataset.
 */
module CoupledProblemWidget {
  import opened Wrappers
  import opened Dataset

  /** The list after an action, and the dataset calls the action issued. */
  datatype Step = Step(list: seq<Option<string>>, calls: seq<Call>)

  /**
   * `update_dataset`: store the edited name; rename the declaration if the
   * element had a name before, otherwise declare a new coupled problem.
   */
  function UpdateDataset(list: seq<Option<string>>, change: Option<string>, index: nat): (r: Step)
    requires change.Some? ==> index < |list|
    ensures change.None? ==> r == Step(list, [])
    ensures change.Some? ==>
      && |r.list| == |list|
      && r.list[index] == Some(change.value)
      && (forall j :: 0 <= j < |list| && j != index ==> r.list[j] == list[j])
      && |r.calls| == 1
    ensures change.Some? && list[index].Some? ==>
      r.calls == [ChangeDeclaration(list[index].value, change.value)]
    ensures change.Some? && list[index].None? ==>
      r.calls == [AddDeclaration(CoupledProblem, change.value)]
  {
    match change
    case None => Step(list, [])
    case Some(name) =>
      var previous := list[index];
      var list2 := list[index := Some(name)];
      if previous.Some? then Step(list2, [ChangeDeclaration(previous.value, name)])
      else Step(list2, [AddDeclaration(CoupledProblem, name)])
  }

  /** `add_coupled_problem`: append an unnamed element; the dataset is not told. */
  function AddCoupledProblem(list: seq<Option<string>>): (r: Step)
    ensures r.list == list + [None]
    ensures r.calls == []
  {
    Step(list + [None], [])
  }

  /**
   * `delete_coupled_problem`: out-of-range indices are ignored; otherwise the
   * element is removed, and its declaration too when its name is a key of the
   * dataset's declarations.
   */
  function DeleteCoupledProblem(list: seq<Option<string>>, declared: set<string>, index: int): (r: Step)
    ensures !(0 <= index < |list|) ==> r == Step(list, [])
    ensures 0 <= index < |list| ==>
      && |r.list| == |list| - 1
      && (forall j :: 0 <= j < index ==> r.list[j] == list[j])
      && (forall j :: index <= j < |r.list| ==> r.list[j] == list[j + 1])
    ensures 0 <= index < |list| && list[index].Some? && list[index].value in declared ==>
      r.calls == [DeleteDeclaration(list[index].value)]
    ensures 0 <= index < |list| && !(list[index].Some? && list[index].value in declared) ==>
      r.calls == []
  {
    if 0 <= index < |list| then
      var calls := if list[index].Some? && list[index].value in declared
                   then [DeleteDeclaration(list[index].value)] else [];
      Step(list[..index] + list[index + 1..], calls)
    else Step(list, [])
  }

  /** Every named element is a declared identifier. */
  predicate Registered(list: seq<Option<string>>, keys: set<string>)
  {
    forall j :: 0 <= j < |list| && list[j].Some? ==> list[j].value in keys
  }

  /** No element other than `index` carries the name that element `index` has. */
  predicate NameUnshared(list: seq<Option<string>>, index: nat)
    requires index < |list|
  {
    forall j :: 0 <= j < |list| && j != index ==> list[j] != list[index] || list[j].None?
  }

  /**
   * Editing a name keeps every named element declared, as long as the old
   * name was not shared with another element (a rename moves the key, so a
   * second element with the same name would lose its declaration).
   */
  lemma UpdateKeepsRegistered(list: seq<Option<string>>, keys: set<string>, name: string, index: nat)
    requires index < |list|
    requires Registered(list, keys)
    requires NameUnshared(list, index)
    ensures var r := UpdateDataset(list, Some(name), index);
      Registered(r.list, DeclareAll(keys, r.calls))
  {
    var r := UpdateDataset(list, Some(name), index);
    assert r.calls[1..] == [];
    assert DeclareAll(keys, r.calls) == Declare(keys, r.calls[0]);
  }

  /** Deleting keeps every remaining named element declared, under the same proviso. */
  lemma DeleteKeepsRegistered(list: seq<Option<string>>, keys: set<string>, index: int)
    requires 0 <= index < |list|
    requires Registered(list, keys)
    requires NameUnshared(list, index)
    ensures var r := DeleteCoupledProblem(list, keys, index);
      Registered(r.list, DeclareAll(keys, r.calls))
  {
    var r := DeleteCoupledProblem(list, keys, index);
    if r.calls != [] {
      assert r.calls[1..] == [];
      assert DeclareAll(keys, r.calls) == keys - {list[index].value};
    }
    forall j | 0 <= j < |r.list| && r.list[j].Some?
      ensures r.list[j].value in DeclareAll(keys, r.calls)
    {
      var src := if j < index then j else j + 1;
      assert r.list[j] == list[src];
    }
  }

  /**
   * The lifecycle of one coupled problem: added blank, named `n`, renamed
   * `m`, deleted. The dataset sees exactly one declaration, one rename and
   * one deletion, in that order, and the identifier is gone at the end.
   */
  lemma {:induction false} CoupledLifecycle(list: seq<Option<string>>, keys: set<string>, n: string, m: string)
    ensures var i := |list|;
      var s1 := AddCoupledProblem(list);
      var s2 := UpdateDataset(s1.list, Some(n), i);
      var s3 := UpdateDataset(s2.list, Some(m), i);
      var k3 := DeclareAll(keys, s1.calls + s2.calls + s3.calls);
      var s4 := DeleteCoupledProblem(s3.list, k3, i);
      && s1.calls + s2.calls + s3.calls + s4.calls ==
           [AddDeclaration(CoupledProblem, n), ChangeDeclaration(n, m), DeleteDeclaration(m)]
      && s4.list == list
      && m !in DeclareAll(k3, s4.calls)
  {
    var i := |list|;
    var s1 := AddCoupledProblem(list);
    var s2 := UpdateDataset(s1.list, Some(n), i);
    var s3 := UpdateDataset(s2.list, Some(m), i);
    var log := s1.calls + s2.calls + s3.calls;
    assert log == [AddDeclaration(CoupledProblem, n), ChangeDeclaration(n, m)];
    var k3 := DeclareAll(keys, log);
    assert k3 == keys + {n} - {n} + {m} by {
      var rest := [ChangeDeclaration(n, m)];
      assert log[1..] == rest;
      assert rest[1..] == [];
      assert DeclareAll(keys, log) == DeclareAll(keys + {n}, rest);
      assert DeclareAll(keys + {n}, rest) == DeclareAll(keys + {n} - {n} + {m}, []);
    }
    var s4 := DeleteCoupledProblem(s3.list, k3, i);
    assert s3.list == list + [Some(m)];
    assert s4.list == (list + [Some(m)])[..i];
    assert s4.calls[1..] == [];
  }
}

=== FILE: dataset.dfy ===
/**
 * The dataset, seen only through the calls the widgets make on it.
 *
 * The editor reaches the simulation dataset exclusively through `trioapi`
 * functions and one direct entry overwrite. Their internals are not part of
 * this model: every widget operation returns the list of calls it issues, in
 * order, and the lemmas are stated about that list.
 */
module Dataset {
  import opened Wrappers

  /**
   * A schema object, as an uninterpreted term. `Default(t)` is the
   * zero-argument construction of class `t`, `Retyped(o, t)` the result of
   * `change_type_object(o, t)`, and `Stored(t, tag)` an object that was read
   * from a file (its field contents are not modelled; `tag` tells objects apart).
   */
  datatype Obj =
    | Default(typeName: string)
    | Retyped(source: Obj, typeName: string)
    | Stored(typeName: string, tag: nat)

  /** `type(o).__name__`: every term records the class it belongs to. */
  function TypeName(o: Obj): string
  {
    o.typeName
  }

  /** The dataset entries the widgets build by value and compare by equality. */
  datatype Entry =
    | Associate(objet1: Option<string>, objet2: Option<string>)
    | Discretize(problemName: Option<string>, dis: Option<string>)
    | Solve(pb: string)
    | EcritureLectureSpecial(kind: Option<string>)

  /** The field argument of `change_read_object`, with the new value. */
  datatype FieldValue =
    | NewIdentifier(ident: Option<string>)   // field "identifier"
    | NewObject(obj: Option<Obj>)           // field "obj"

  /** One call from a widget into the dataset. */
  datatype Call =
    | AddObject(obj: Obj, ident: string)                          // ta.add_object
    | ChangeReadObject(target: Option<string>, change: FieldValue) // ta.change_read_object
    | AddReadObject(entry: Entry)                                 // ta.add_read_object
    | DeleteReadObject(entry: Entry)                              // ta.delete_read_object
    | ReplaceEntry(found: Entry, replacement: Entry)                      // get_entry_index, then overwrite in place
    | AddDeclaration(obj: Obj, ident: string)                     // ta.add_declaration_object
    | ChangeDeclaration(previous: string, ident: string)             // ta.change_declaration_object(.., "identifier", ..)
    | DeleteDeclaration(ident: string)                            // ta.delete_declaration_object
    | SolveProblem(ident: string)                                 // ta.solve_problem

  /** The object every new coupled problem is declared with. */
  const CoupledProblem: Obj := Default("Coupled_problem")

  /** True when the call reads or writes the entry list. */
  predicate TouchesEntries(c: Call)
  {
    c.AddReadObject? || c.DeleteReadObject? || c.ReplaceEntry?
  }

  /**
   * A minimal reading of the entry-level calls on a multiset of entries:
   * adding inserts one occurrence, deleting removes one occurrence when there
   * is one, and an in-place overwrite needs the entry it looks up to be there
   * (`None` when `get_entry_index` has nothing to find). Every other call
   * leaves the entries alone. This is an interpretation, used only to compare
   * the widgets' bookkeeping with the dataset.
   */
  function Apply(entries: multiset<Entry>, c: Call): Option<multiset<Entry>>
  {
    match c
    case AddReadObject(e) => Some(entries + multiset{e})
    case DeleteReadObject(e) => Some(entries - multiset{e})
    case ReplaceEntry(found, replacement) =>
      if found in entries then Some(entries - multiset{found} + multiset{replacement}) else None
    case _ => Some(entries)
  }

  /** `Apply` over a whole call log; `None` as soon as one overwrite misses. */
  function Replay(entries: multiset<Entry>, calls: seq<Call>): Option<multiset<Entry>>
    decreases |calls|
  {
    if |calls| == 0 then Some(entries)
    else match Apply(entries, calls[0])
      case None => None
      case Some(next) => Replay(next, calls[1..])
  }

  /** Replaying two logs one after the other is replaying their concatenation. */
  lemma {:induction false} ReplayAppend(entries: multiset<Entry>, a: seq<Call>, b: seq<Call>)
    ensures Replay(entries, a + b) ==
      match Replay(entries, a)
      case None => None
      case Some(mid) => Replay(mid, b)
    decreases |a|
  {
    if |a| == 0 {
      assert a + b == b;
    } else {
      assert (a + b)[0] == a[0];
      assert (a + b)[1..] == a[1..] + b;
      match Apply(entries, a[0])
      case None =>
      case Some(next) => ReplayAppend(next, a[1..], b);
    }
  }

  /** Replaying a one-call log is applying that call. */
  lemma ReplayOne(entries: multiset<Entry>, c: Call)
    ensures Replay(entries, [c]) == Apply(entries, c)
  {
    assert [c][1..] == [];
  }

  /**
   * A minimal reading of the declaration-level calls on the set of declared
   * identifiers (the keys of `dataset._declarations`): declaring adds a key,
   * renaming moves one, deleting drops one. Every other call leaves the keys
   * alone. Like `Apply`, an interpretation used only to state the lifecycle.
   */
  function Declare(keys: set<string>, c: Call): set<string>
  {
    match c
    case AddDeclaration(_, id) => keys + {id}
    case ChangeDeclaration(prev, id) => keys - {prev} + {id}
    case DeleteDeclaration(id) => keys - {id}
    case _ => keys
  }

  /** `Declare` over a whole call log. */
  function DeclareAll(keys: set<string>, calls: seq<Call>): set<string>
    decreases |calls|
  {
    if |calls| == 0 then keys else DeclareAll(Declare(keys, calls[0]), calls[1..])
  }
}

=== FILE: discretize_widget.dfy ===
/**
 * The discretization widget: a `PairList` whose entries are
 * `Discretize(problem_name, dis)`.
 */
module DiscretizeWidget {
  import opened Wrappers
  import opened Dataset
  import opened PairList

  /** `change_discretize_dataset(change, index, field_type)`, with `text` the field's new value. */
  function ChangeDiscretizeDataset(discretizeList: seq<Link>, index: nat, fieldType: int, text: string): (r: Step)
    requires index < |discretizeList|
    ensures |r.list| == |discretizeList|
    ensures forall j :: 0 <= j < |discretizeList| && j != index ==> r.list[j] == discretizeList[j]
    ensures r.list[index] == Edit(discretizeList[index], fieldType, text)
    ensures var prior, next := discretizeList[index], r.list[index];
      && (Complete(prior) ==>
            r.calls == [ReplaceEntry(Discretize(prior.first, prior.second), Discretize(next.first, next.second))])
      && (!Complete(prior) && Complete(next) ==> r.calls == [AddReadObject(Discretize(next.first, next.second))])
      && (!Complete(prior) && !Complete(next) ==> r.calls == [])
  {
    Change(Discretization, discretizeList, index, fieldType, text)
  }

  /** `add_discretize`: a blank discretization at the end, the dataset untouched. */
  function AddDiscretize(discretizeList: seq<Link>): (r: Step)
    ensures r.list == discretizeList + [Link(None, None)]
    ensures r.calls == []
  {
    Add(discretizeList)
  }

  /** `delete_discretize(index)`: ignored out of range; otherwise the discretization's entry is deleted and the pair removed. */
  function DeleteDiscretize(discretizeList: seq<Link>, index: int): (r: Step)
    ensures !(0 <= index < |discretizeList|) ==> r.list == discretizeList && r.calls == []
    ensures 0 <= index < |discretizeList| ==>
      && r.calls == [DeleteReadObject(Discretize(discretizeList[index].first, discretizeList[index].second))]
      && r.list == discretizeList[..index] + discretizeList[index + 1..]
  {
    Delete(Discretization, discretizeList, index)
  }
}

=== FILE: ecriture_lecture_special_widget.dfy ===
/**
 * The "ecriture lecture special" switch. The dataset holds at most one
 * `Ecriturelecturespecial(type)` keyword; with type `"0"` it stops the xyz
 * file from being written. The widget tracks the type it last saw or wrote.
 */
module EcritureLectureSpecialWidget {
  import opened Wrappers
  import opened Dataset

  /** Reference definition: the type of the last keyword entry, or `None` without one. */
  function LastKind(entries: seq<Entry>): Option<string>
  {
    if |entries| == 0 then None
    else if entries[|entries| - 1].EcritureLectureSpecial? then entries[|entries| - 1].kind
    else LastKind(entries[..|entries| - 1])
  }

  /** `__init__`'s scan: every keyword entry overwrites the tracked type, so the last one wins. */
  method InitialType(entries: seq<Entry>) returns (tracked: Option<string>)
    ensures tracked == LastKind(entries)
    ensures (forall j :: 0 <= j < |entries| ==> !entries[j].EcritureLectureSpecial?) ==> tracked.None?
    ensures tracked.Some? ==> exists j :: 0 <= j < |entries| && entries[j] == EcritureLectureSpecial(tracked)
  {
    tracked := None;
    var i := 0;
    while i < |entries|
      invariant 0 <= i <= |entries|
      invariant tracked == LastKind(entries[..i])
      invariant tracked.Some? ==> exists j :: 0 <= j < i && entries[j] == EcritureLectureSpecial(tracked)
      invariant (forall j :: 0 <= j < i ==> !entries[j].EcritureLectureSpecial?) ==> tracked.None?
    {
      assert entries[..i + 1][..i] == entries[..i];
      if entries[i].EcritureLectureSpecial? {
        tracked := entries[i].kind;
      }
      i := i + 1;
    }
    assert entries[..i] == entries;
  }

  /** The switch ("write the xyz file") starts off exactly when the tracked type is `"0"`. */
  function SwitchOn(tracked: Option<string>): (on: bool)
    ensures !on <==> tracked == Some("0")
  {
    tracked != Some("0")
  }

  /** After a switch event: the tracked type and the calls issued. */
  datatype Flip = Flip(tracked: Option<string>, calls: seq<Call>)

  /** The keyword with type `"0"`. */
  const NoXyz: Entry := EcritureLectureSpecial(Some("0"))

  /**
   * `change_switch`, the switch now `on`. Turning off adds the `"0"` keyword
   * when none is tracked and otherwise overwrites the tracked keyword with
   * it; either way `"0"` is tracked afterwards. Turning on deletes the
   * tracked keyword and keeps tracking its type.
   */
  function ChangeSwitch(tracked: Option<string>, on: bool): (r: Flip)
    ensures !on ==> r.tracked == Some("0")
    ensures !on && tracked.None? ==> r.calls == [AddReadObject(NoXyz)]
    ensures !on && tracked.Some? ==> r.calls == [ReplaceEntry(EcritureLectureSpecial(tracked), NoXyz)]
    ensures on ==> r == Flip(tracked, [DeleteReadObject(EcritureLectureSpecial(tracked))])
  {
    if !on then
      if tracked.None? then Flip(Some("0"), [AddReadObject(NoXyz)])
      else Flip(Some("0"), [ReplaceEntry(EcritureLectureSpecial(tracked), NoXyz)])
    else Flip(tracked, [DeleteReadObject(EcritureLectureSpecial(tracked))])
  }

  /** The keyword entries the widget believes the dataset holds. */
  function Owned(tracked: Option<string>): multiset<Entry>
  {
    if tracked.Some? then multiset{EcritureLectureSpecial(tracked)} else multiset{}
  }

  /** The rest of the dataset holds no keyword entry. */
  predicate NoKeyword(base: multiset<Entry>)
  {
    forall e :: e in base ==> !e.EcritureLectureSpecial?
  }

  /** The three flips of off, on, off starting from no keyword. */
  lemma OffOnOffFlips()
    ensures ChangeSwitch(None, false) == Flip(Some("0"), [AddReadObject(NoXyz)])
    ensures ChangeSwitch(Some("0"), true) == Flip(Some("0"), [DeleteReadObject(NoXyz)])
    ensures ChangeSwitch(Some("0"), false) == Flip(Some("0"), [ReplaceEntry(NoXyz, NoXyz)])
  {
  }

  /**
   * Off, on, off from a dataset without the keyword: the second turn-off
   * still tracks `"0"` and tries to overwrite the keyword the turn-on
   * deleted, so the lookup fails.
   */
  lemma OffOnOffCounterexample(base: multiset<Entry>)
    requires NoKeyword(base)
    ensures var f1 := ChangeSwitch(None, false);
      var f2 := ChangeSwitch(f1.tracked, true);
      var f3 := ChangeSwitch(f2.tracked, false);
      && Replay(base, f1.calls + f2.calls) == Some(base)
      && Replay(base, f1.calls + f2.calls + f3.calls) == None
  {
    OffOnOffFlips();
    var c1, c2, c3 := [AddReadObject(NoXyz)], [DeleteReadObject(NoXyz)], [ReplaceEntry(NoXyz, NoXyz)];
    var added := base + multiset{NoXyz};
    ReplayOne(base, c1[0]);
    assert Replay(base, c1) == Some(added);
    ReplayOne(added, c2[0]);
    assert added - multiset{NoXyz} == base;
    assert Replay(added, c2) == Some(base);
    ReplayAppend(base, c1, c2);
    assert NoXyz !in base;
    ReplayOne(base, c3[0]);
    assert Replay(base, c3) == None;
    ReplayAppend(base, c1 + c2, c3);
  }

  /** Turning the switch on also forgets the deleted keyword's type. */
  function ChangeSwitchCorrected(tracked: Option<string>, on: bool): (r: Flip)
    ensures r.calls == ChangeSwitch(tracked, on).calls
    ensures on ==> r.tracked.None?
    ensures !on ==> r == ChangeSwitch(tracked, on)
  {
    if on then Flip(None, ChangeSwitch(tracked, on).calls) else ChangeSwitch(tracked, on)
  }

  /** Deleting the tracked keyword leaves the rest of the dataset. */
  lemma DeleteOwned(base: multiset<Entry>, tracked: Option<string>)
    requires NoKeyword(base)
    ensures base + Owned(tracked) - multiset{EcritureLectureSpecial(tracked)} == base
  {
    var k := EcritureLectureSpecial(tracked);
    assert base[k] == 0;
    forall x ensures (base + Owned(tracked) - multiset{k})[x] == base[x] {
    }
  }

  /** Adding the `"0"` keyword to a dataset that tracks none makes it the tracked one. */
  lemma AddOwned(base: multiset<Entry>)
    ensures base + Owned(None) + multiset{NoXyz} == base + Owned(Some("0"))
  {
  }

  /** Turning on deletes the tracked keyword and tracks none. */
  lemma CorrectedOn(base: multiset<Entry>, tracked: Option<string>)
    requires NoKeyword(base)
    ensures Replay(base + Owned(tracked), ChangeSwitchCorrected(tracked, true).calls) == Some(base + Owned(None))
  {
    var k := EcritureLectureSpecial(tracked);
    DeleteOwned(base, tracked);
    ReplayOne(base + Owned(tracked), DeleteReadObject(k));
    assert base + Owned(None) == base;
  }

  /** Turning off with a tracked keyword overwrites it with the `"0"` one. */
  lemma CorrectedOffReplace(base: multiset<Entry>, tracked: Option<string>)
    requires NoKeyword(base) && tracked.Some?
    ensures Replay(base + Owned(tracked), ChangeSwitchCorrected(tracked, false).calls) == Some(base + Owned(Some("0")))
  {
    var k := EcritureLectureSpecial(tracked);
    var m := base + Owned(tracked);
    DeleteOwned(base, tracked);
    assert k in m;
    ReplayOne(m, ReplaceEntry(k, NoXyz));
    assert Apply(m, ReplaceEntry(k, NoXyz)) == Some(base + multiset{NoXyz});
  }

  /** Turning off with no tracked keyword adds the `"0"` one. */
  lemma CorrectedOffAdd(base: multiset<Entry>)
    ensures Replay(base + Owned(None), ChangeSwitchCorrected(None, false).calls) == Some(base + Owned(Some("0")))
  {
    AddOwned(base);
    ReplayOne(base + Owned(None), AddReadObject(NoXyz));
  }

  /**
   * With the correction the dataset's keyword entries stay exactly the one
   * the widget tracks (or none), whatever the order of events, and every
   * overwrite finds its keyword.
   */
  lemma CorrectedKeepsKeyword(base: multiset<Entry>, tracked: Option<string>, on: bool)
    requires NoKeyword(base)
    ensures var r := ChangeSwitchCorrected(tracked, on);
      Replay(base + Owned(tracked), r.calls) == Some(base + Owned(r.tracked))
  {
    if on {
      CorrectedOn(base, tracked);
    } else if tracked.Some? {
      CorrectedOffReplace(base, tracked);
    } else {
      CorrectedOffAdd(base);
    }
  }

  /** A run of switch events on the corrected widget: the final tracked type and all the calls, in order. */
  function RunCorrected(tracked: Option<string>, events: seq<bool>): (r: Flip)
    decreases |events|
    ensures |r.calls| == |events|
    ensures |events| > 0 && !events[|events| - 1] ==> r.tracked == Some("0")
  {
    if |events| == 0 then Flip(tracked, [])
    else
      var f := ChangeSwitchCorrected(tracked, events[0]);
      var rest := RunCorrected(f.tracked, events[1..]);
      assert |events| > 1 ==> events[1..][|events[1..]| - 1] == events[|events| - 1];
      Flip(rest.tracked, f.calls + rest.calls)
  }

  /**
   * With the correction, after any run of switch events the dataset holds
   * exactly the keyword the widget tracks (or none), and no overwrite
   * misses its keyword along the way.
   */
  lemma {:induction false} CorrectedRunKeepsKeyword(base: multiset<Entry>, tracked: Option<string>, events: seq<bool>)
    requires NoKeyword(base)
    ensures var r := RunCorrected(tracked, events);
      Replay(base + Owned(tracked), r.calls) == Some(base + Owned(r.tracked))
    decreases |events|
  {
    if |events| > 0 {
      var f := ChangeSwitchCorrected(tracked, events[0]);
      CorrectedKeepsKeyword(base, tracked, events[0]);
      CorrectedRunKeepsKeyword(base, f.tracked, events[1..]);
      ReplayAppend(base + Owned(tracked), f.calls, RunCorrected(f.tracked, events[1..]).calls);
    }
  }

  /** On the same off, on, off events the corrected widget ends with exactly the `"0"` keyword. */
  lemma OffOnOffCorrected(base: multiset<Entry>)
    requires NoKeyword(base)
    ensures var f1 := ChangeSwitchCorrected(None, false);
      var f2 := ChangeSwitchCorrected(f1.tracked, true);
      var f3 := ChangeSwitchCorrected(f2.tracked, false);
      Replay(base, f1.calls + f2.calls + f3.calls) == Some(base + multiset{NoXyz})
  {
    var f1 := ChangeSwitchCorrected(None, false);
    var f2 := ChangeSwitchCorrected(f1.tracked, true);
    var f3 := ChangeSwitchCorrected(f2.tracked, false);
    assert base + Owned(None) == base;
    CorrectedKeepsKeyword(base, None, false);
    CorrectedKeepsKeyword(base, f1.tracked, true);
    CorrectedKeepsKeyword(base, f2.tracked, false);
    ReplayAppend(base, f1.calls, f2.calls);
    ReplayAppend(base, f1.calls + f2.calls, f3.calls);
    AddOwned(base);
  }
}

=== FILE: entity_widget.dfy ===
/**
 * The named-entity list shared by the problem and scheme widgets.
 *
 * Each element is an `[identifier, object]` pair, either side possibly
 * absent. One UI event edits either the name field or the type selector of
 * one element; the widget rewrites that element and reports the edit to a
 * callback as `(index, kind, already_created, old_identifier)`.
 */
module EntityWidget {
  import opened Wrappers
  import opened Dataset

  /** One element of `pb_list` / `sch_list`. */
  datatype Pair = Pair(ident: Option<string>, obj: Option<Obj>)

  /** `None not in pair`: both sides present. */
  predicate Complete(p: Pair)
  {
    p.ident.Some? && p.obj.Some?
  }

  /** The freshly added element `[None, None]`. */
  const Blank: Pair := Pair(None, None)

  /** Which field fired: the name text field or the type selector. */
  datatype Event = NameEdit(name: string) | TypeEdit(typeName: string)

  /** The callback's `modified_object` argument: 0 for the name, 1 for the type. */
  datatype Modified = Identifier | Object

  /** The arguments the widget passes to its callback. */
  datatype Report = Report(index: nat, kind: Modified, alreadyCreated: bool, oldIdent: Option<string>)

  /** The list after an event, and the callback report if one was fired. */
  datatype Step = Step(list: seq<Pair>, report: Option<Report>)

  /** The object a type event installs: converted from the prior one, or built fresh. */
  function Retype(prior: Option<Obj>, typeName: string): (o: Obj)
    ensures TypeName(o) == typeName
    ensures prior.Some? ==> o == Retyped(prior.value, typeName)
    ensures prior.None? ==> o == Default(typeName)
  {
    match prior
    case Some(x) => Retyped(x, typeName)
    case None => Default(typeName)
  }

  /**
   * `update_menu`: a null change does nothing; otherwise element `index` is
   * rewritten on the side that fired and exactly one report is produced.
   */
  function UpdateMenu(list: seq<Pair>, change: Option<Event>, index: nat): (r: Step)
    requires change.Some? ==> index < |list|
    ensures change.None? ==> r == Step(list, None)
    ensures change.Some? ==>
      && |r.list| == |list|
      && (forall j :: 0 <= j < |list| && j != index ==> r.list[j] == list[j])
      && r.report.Some?
      && r.report.value.index == index
      && (r.report.value.alreadyCreated <==> Complete(list[index]))
      && r.report.value.oldIdent == list[index].ident
    ensures change.Some? && change.value.NameEdit? ==>
      && r.list[index] == Pair(Some(change.value.name), list[index].obj)
      && r.report.value.kind == Identifier
    ensures change.Some? && change.value.TypeEdit? ==>
      && r.list[index].ident == list[index].ident
      && r.list[index].obj.Some?
      && TypeName(r.list[index].obj.value) == change.value.typeName
      && r.list[index].obj == Some(Retype(list[index].obj, change.value.typeName))
      && r.report.value.kind == Object
  {
    match change
    case None => Step(list, None)
    case Some(ev) =>
      var prior := list[index];
      var created := Complete(prior);
      match ev
      case NameEdit(n) =>
        Step(list[index := Pair(Some(n), prior.obj)], Some(Report(index, Identifier, created, prior.ident)))
      case TypeEdit(t) =>
        Step(list[index := Pair(prior.ident, Some(Retype(prior.obj, t)))], Some(Report(index, Object, created, prior.ident)))
  }

  /**
   * `add_pb` / `add_sch`: append a blank element, then call `update_menu`
   * with a null change, which does nothing.
   */
  function AddEntity(list: seq<Pair>): (r: seq<Pair>)
    ensures |r| == |list| + 1
    ensures r[..|list|] == list
    ensures r[|list|] == Blank
  {
    UpdateMenu(list + [Blank], None, |list|).list
  }

  /** The complete elements, in list order: the ones that own a tab. */
  function Completes(s: seq<Pair>): (r: seq<Pair>)
    ensures |r| <= |s|
    ensures forall k :: 0 <= k < |r| ==> Complete(r[k])
  {
    if |s| == 0 then []
    else (if Complete(s[0]) then [s[0]] else []) + Completes(s[1..])
  }

  /** The number of complete elements. */
  function CountComplete(s: seq<Pair>): nat
  {
    |Completes(s)|
  }

  /** Filtering distributes over concatenation. */
  lemma {:induction false} CompletesAppend(a: seq<Pair>, b: seq<Pair>)
    ensures Completes(a + b) == Completes(a) + Completes(b)
    decreases |a|
  {
    if |a| == 0 {
      assert a + b == b;
    } else {
      assert (a + b)[0] == a[0];
      assert (a + b)[1..] == a[1..] + b;
      CompletesAppend(a[1..], b);
    }
  }

  /** Filtering a one-element sequence. */
  lemma CompletesSingle(p: Pair)
    ensures Completes([p]) == if Complete(p) then [p] else []
  {
    assert [p][1..] == [];
  }

  /** An element can be split out of the middle of the filtered list. */
  lemma {:induction false} CompletesSplit(s: seq<Pair>, i: nat)
    requires i < |s|
    ensures Completes(s) == Completes(s[..i]) + Completes([s[i]]) + Completes(s[i+1..])
  {
    var a, b, c := s[..i], [s[i]], s[i+1..];
    assert s == a + b + c;
    CompletesAppend(a + b, c);
    CompletesAppend(a, b);
  }

  /**
   * How replacing element `i` moves the filtered list: `j` is the number of
   * complete elements before `i`, i.e. the position element `i` holds (or
   * would hold) among the complete ones.
   */
  lemma {:induction false} CompletesUpdate(s: seq<Pair>, i: nat, x: Pair)
    requires i < |s|
    ensures var j := CountComplete(s[..i]);
      && j <= CountComplete(s)
      && Completes(s[..i]) == Completes(s)[..j]
      && (Complete(s[i]) ==> j < CountComplete(s) && Completes(s)[j] == s[i])
      && (Complete(s[i]) && Complete(x) ==> Completes(s[i := x]) == Completes(s)[j := x])
      && (!Complete(s[i]) && Complete(x) ==> Completes(s[i := x]) == Completes(s)[..j] + [x] + Completes(s)[j..])
      && (!Complete(s[i]) && !Complete(x) ==> Completes(s[i := x]) == Completes(s))
  {
    var t := s[i := x];
    assert t[..i] == s[..i];
    assert t[i+1..] == s[i+1..];
    CompletesSplit(s, i);
    CompletesSplit(t, i);
    CompletesSingle(s[i]);
    CompletesSingle(x);
    Splice(Completes(s[..i]), Completes([s[i]]), Completes([x]), Completes(s[i+1..]));
  }

  /** Swapping the middle part `m` of `a + m + c` (at most one element) for `n`. */
  lemma Splice<T>(a: seq<T>, m: seq<T>, n: seq<T>, c: seq<T>)
    requires |m| <= 1 && |n| <= 1
    ensures var s := a + m + c;
      && (s[..|a|] == a)
      && (|m| == 1 ==> |a| < |s| && s[|a|] == m[0])
      && (|m| == 1 && |n| == 1 ==> a + n + c == s[|a| := n[0]])
      && (|m| == 0 ==> a + n + c == s[..|a|] + n + s[|a|..])
  {
    var s := a + m + c;
    assert s[..|a|] == a;
    if |m| == 1 && |n| == 1 {
      assert a + n + c == s[|a| := n[0]];
    }
    if |m| == 0 {
      assert s[|a|..] == c;
    }
  }

  /**
   * How one reported edit moves the complete elements from `x` to `x2`, where
   * `pair` is the edited element and `j` its position among the complete
   * ones. A declared element is replaced in place, keeping its object on a
   * rename and its name on a retype. An element that has just become complete
   * is inserted at `j`. One that is still incomplete moves nothing.
   */
  predicate Moves(x: seq<Pair>, x2: seq<Pair>, j: nat, pair: Pair, r: Report)
  {
    && j <= |x|
    && (r.alreadyCreated ==>
          && j < |x| && x2 == x[j := pair]
          && (r.kind == Object ==> pair.ident == x[j].ident)
          && (r.kind == Identifier ==> pair.obj == x[j].obj))
    && (!r.alreadyCreated && Complete(pair) ==> x2 == x[..j] + [pair] + x[j..])
    && (!r.alreadyCreated && !Complete(pair) ==> x2 == x)
  }

  /** Every event moves the complete elements as `Moves` says, at the edited element's position. */
  lemma EventMoves(list: seq<Pair>, change: Event, index: nat)
    requires index < |list|
    ensures var st := UpdateMenu(list, Some(change), index);
      && CountComplete(st.list[..index]) == CountComplete(list[..index])
      && Moves(Completes(list), Completes(st.list), CountComplete(list[..index]), st.list[index], st.report.value)
  {
    var st := UpdateMenu(list, Some(change), index);
    assert st.list == list[index := st.list[index]];
    assert st.list[..index] == list[..index];
    CompletesUpdate(list, index, st.list[index]);
  }

  /** A complete element stays complete under any event: names and objects are never cleared. */
  lemma UpdateKeepsComplete(list: seq<Pair>, change: Option<Event>, index: nat)
    requires change.Some? ==> index < |list|
    ensures forall j :: 0 <= j < |list| && Complete(list[j]) ==> Complete(UpdateMenu(list, change, index).list[j])
  {
  }

  /**
   * The lifecycle in counts: an event completes at most one element, and it
   * does so exactly when the report says "not yet created" while the element
   * is now complete — the situation in which the callback declares it.
   */
  lemma {:induction false} UpdateCountsDeclarations(list: seq<Pair>, change: Event, index: nat)
    requires index < |list|
    ensures var r := UpdateMenu(list, Some(change), index);
      CountComplete(r.list) ==
        CountComplete(list) + (if !r.report.value.alreadyCreated && Complete(r.list[index]) then 1 else 0)
  {
    var r := UpdateMenu(list, Some(change), index);
    assert r.list == list[index := r.list[index]];
    CompletesUpdate(list, index, r.list[index]);
  }
}

=== FILE: list_widget.dfy ===
/**
 * The list editor's `build_panels`: one panel per item, each addressing
 * its item by the list's own path followed by the item's index.
 */
module ListWidget {
  import opened Schema

  /**
   * The arguments the item's editor is built from: the item, its declared
   * type marked as not a list (`(expected_type, False)`) and its path.
   */
  datatype ItemEditor = ItemEditor(item: Value, declared: TypeDesc, isList: bool, path: seq<PathStep>)

  /**
   * One item panel: the number shown in its header (`Item {i + 1}`), the
   * index its duplicate and delete buttons carry, and its editor.
   */
  datatype ItemPanel = ItemPanel(itemNumber: nat, duplicateIndex: nat, deleteIndex: nat, editor: ItemEditor)

  /** What `build_panels` leaves: the panels and the two button lists (as the indices they carry). */
  datatype View = View(panels: seq<ItemPanel>, deleteButtons: seq<nat>, duplicateButtons: seq<nat>)

  /** Reference definition of panel `i` for `item`. */
  function PanelFor(i: nat, item: Value, expectedType: TypeDesc, keyPath: seq<PathStep>): ItemPanel
  {
    ItemPanel(i + 1, i, i, ItemEditor(item, expectedType, false, keyPath + [Index(i)]))
  }

  /**
   * `build_panels(object_to_display)`: starts from empty panels and empty
   * button lists (nothing from a previous build survives) and adds, for
   * each item in order, a delete button and a duplicate button carrying
   * the item's index and a panel editing it at `key_path + [i]`.
   */
  method BuildPanels(items: seq<Value>, expectedType: TypeDesc, keyPath: seq<PathStep>) returns (view: View)
    ensures |view.panels| == |items| && |view.deleteButtons| == |items| && |view.duplicateButtons| == |items|
    ensures forall i :: 0 <= i < |items| ==> view.panels[i] == PanelFor(i, items[i], expectedType, keyPath)
    ensures forall i :: 0 <= i < |items| ==> view.deleteButtons[i] == i && view.duplicateButtons[i] == i
  {
    var panels: seq<ItemPanel> := [];
    var deletes: seq<nat> := [];
    var duplicates: seq<nat> := [];
    var i := 0;
    while i < |items|
      invariant 0 <= i <= |items|
      invariant |panels| == i && |deletes| == i && |duplicates| == i
      invariant forall j :: 0 <= j < i ==> panels[j] == PanelFor(j, items[j], expectedType, keyPath)
      invariant forall j :: 0 <= j < i ==> deletes[j] == j && duplicates[j] == j
    {
      deletes := deletes + [i];
      duplicates := duplicates + [i];
      panels := panels + [ItemPanel(i + 1, i, i, ItemEditor(items[i], expectedType, false, keyPath + [Index(i)]))];
      i := i + 1;
    }
    view := View(panels, deletes, duplicates);
  }

  /**
   * Each item is reachable from its panel alone: the path extends the
   * list's path by exactly the item's index, so different items have
   * different paths, and the item's index is one less than its header number and
   * equal to what its buttons carry.
   */
  lemma PathsAddressItems(items: seq<Value>, expectedType: TypeDesc, keyPath: seq<PathStep>, i: nat, j: nat)
    requires i < |items| && j < |items|
    ensures var p, q := PanelFor(i, items[i], expectedType, keyPath), PanelFor(j, items[j], expectedType, keyPath);
      && p.editor.path[..|keyPath|] == keyPath
      && p.editor.path[|keyPath|] == Index(p.deleteIndex)
      && p.itemNumber == p.duplicateIndex + 1
      && p.editor.item == items[p.deleteIndex]
      && (p.editor.path == q.editor.path <==> i == j)
  {
    var p, q := PanelFor(i, items[i], expectedType, keyPath), PanelFor(j, items[j], expectedType, keyPath);
    if p.editor.path == q.editor.path {
      assert p.editor.path[|keyPath|] == q.editor.path[|keyPath|];
    }
  }
}

=== FILE: main_app.dfy ===
/**
 * The application shell's bookkeeping: the tab titles and tab editors that
 * mirror the complete problems and schemes, the callbacks that turn a widget
 * report into one dataset call, and the per-editor undo.
 */
module MainApp {
  import opened Wrappers
  import opened Dataset
  import opened EntityWidget

  /** What a tab shows: the home page, or an object editor with its undo history. */
  datatype TabWidget = HomeTab | ObjectTab(obj: Option<Obj>, changeList: seq<Option<Obj>>)

  /** The shell state the callbacks read and write. */
  datatype App = App(titles: seq<Option<string>>, widgets: seq<TabWidget>, pbList: seq<Pair>, schList: seq<Pair>)

  /** A successful callback: the new state and the dataset calls it issued. */
  datatype Outcome = Outcome(app: App, calls: seq<Call>)

  const Home: Option<string> := Some("Home")

  /** The state right after construction: only the home tab, empty lists. */
  const Initial: App := App([Home], [HomeTab], [], [])

  /** `ObjectWidget(obj, [obj])`: an editor whose history is seeded with the object. */
  function EditorFor(o: Option<Obj>): (w: TabWidget)
    ensures w.ObjectTab? && w.obj == o && w.changeList == [o]
  {
    ObjectTab(o, [o])
  }

  /** The names of a list of pairs, in order. */
  function Idents(s: seq<Pair>): (r: seq<Option<string>>)
    ensures |r| == |s|
    ensures forall k :: 0 <= k < |s| ==> r[k] == s[k].ident
  {
    seq(|s|, k requires 0 <= k < |s| => s[k].ident)
  }

  /** One editor per pair, in order, each on that pair's object with a fresh history. */
  function PairEditors(s: seq<Pair>): (r: seq<TabWidget>)
    ensures |r| == |s|
    ensures forall k :: 0 <= k < |s| ==> r[k] == EditorFor(s[k].obj)
  {
    seq(|s|, k requires 0 <= k < |s| => EditorFor(s[k].obj))
  }

  /** Python's `list.insert(i, x)`: an index past the end appends. */
  function Insert<T>(s: seq<T>, i: nat, x: T): (r: seq<T>)
    ensures |r| == |s| + 1
    ensures i <= |s| ==> r[..i] == s[..i] && r[i] == x && r[i+1..] == s[i..]
    ensures i > |s| ==> r == s + [x]
  {
    if i <= |s| then s[..i] + [x] + s[i..] else s + [x]
  }

  /**
   * The tab-side effect of one report about element `pair`, whose tab is
   * expected at position `slot`. A rename of a declared element retitles that
   * tab and a retype replaces its editor, each with its one dataset call; when
   * the slot does not exist the write raises `IndexError` before any call. An
   * element that has just become complete gets a title and an editor inserted
   * at the slot and is declared. An element that is still incomplete changes
   * nothing. The problem and scheme lists are never touched.
   */
  predicate TabEffect(app: App, slot: nat, pair: Pair, r: Report, res: Result<Outcome, PyError>)
  {
    && (r.alreadyCreated && r.kind == Identifier ==>
          if slot < |app.titles| then
            res == Success(Outcome(app.(titles := app.titles[slot := pair.ident]),
                                   [ChangeReadObject(r.oldIdent, NewIdentifier(pair.ident))]))
          else res == Failure(IndexError))
    && (r.alreadyCreated && r.kind == Object ==>
          if slot < |app.widgets| then
            res == Success(Outcome(app.(widgets := app.widgets[slot := EditorFor(pair.obj)]),
                                   [ChangeReadObject(r.oldIdent, NewObject(pair.obj))]))
          else res == Failure(IndexError))
    && (!r.alreadyCreated && Complete(pair) ==>
          res == Success(Outcome(app.(titles := Insert(app.titles, slot, pair.ident),
                                      widgets := Insert(app.widgets, slot, EditorFor(pair.obj))),
                                 [AddObject(pair.obj.value, pair.ident.value)])))
    && (!r.alreadyCreated && !Complete(pair) ==> res == Success(Outcome(app, [])))
  }

  /** The shared body of both shell callbacks, given the slot each one computes. */
  function UpdateTabs(app: App, slot: nat, pair: Pair, r: Report): (res: Result<Outcome, PyError>)
    ensures TabEffect(app, slot, pair, r, res)
  {
    if r.alreadyCreated then
      if r.kind == Identifier then
        if slot < |app.titles| then
          Success(Outcome(app.(titles := app.titles[slot := pair.ident]),
                          [ChangeReadObject(r.oldIdent, NewIdentifier(pair.ident))]))
        else Failure(IndexError)
      else
        if slot < |app.widgets| then
          Success(Outcome(app.(widgets := app.widgets[slot := EditorFor(pair.obj)]),
                          [ChangeReadObject(r.oldIdent, NewObject(pair.obj))]))
        else Failure(IndexError)
    else if Complete(pair) then
      Success(Outcome(app.(titles := Insert(app.titles, slot, pair.ident),
                           widgets := Insert(app.widgets, slot, EditorFor(pair.obj))),
                      [AddObject(pair.obj.value, pair.ident.value)]))
    else
      Success(Outcome(app, []))
  }

  /** `get_nbr_pb`: count the problems with no absent side. */
  method GetNbrPb(pbList: seq<Pair>) returns (nbr: nat)
    ensures nbr == CountComplete(pbList)
    ensures nbr <= |pbList|
    ensures nbr == |pbList| <==> forall k :: 0 <= k < |pbList| ==> Complete(pbList[k])
  {
    nbr := 0;
    var i := 0;
    while i < |pbList|
      invariant 0 <= i <= |pbList|
      invariant nbr == CountComplete(pbList[..i])
      invariant nbr == i <==> forall k :: 0 <= k < i ==> Complete(pbList[k])
      invariant nbr <= i
    {
      assert pbList[..i+1] == pbList[..i] + [pbList[i]];
      CompletesAppend(pbList[..i], [pbList[i]]);
      CompletesSingle(pbList[i]);
      if pbList[i].ident.Some? && pbList[i].obj.Some? {
        nbr := nbr + 1;
      }
      i := i + 1;
    }
    assert pbList[..i] == pbList;
  }

  /**
   * `update_menu_pb` as written: the problem at `index` is assumed to own
   * tab `index + 1`.
   */
  function UpdateMenuPb(app: App, r: Report): (res: Result<Outcome, PyError>)
    requires r.index < |app.pbList|
    ensures TabEffect(app, r.index + 1, app.pbList[r.index], r, res)
    ensures res.Success? ==> res.value.app.pbList == app.pbList && res.value.app.schList == app.schList
    ensures res.Success? ==> |res.value.calls| <= 1
  {
    UpdateTabs(app, r.index + 1, app.pbList[r.index], r)
  }

  /**
   * `update_menu_sch` as written: scheme tabs follow the problem tabs, so the
   * scheme at `index` is assumed to own tab `index + get_nbr_pb() + 1`.
   */
  function UpdateMenuSch(app: App, r: Report): (res: Result<Outcome, PyError>)
    requires r.index < |app.schList|
    ensures TabEffect(app, r.index + CountComplete(app.pbList) + 1, app.schList[r.index], r, res)
    ensures res.Success? ==> res.value.app.pbList == app.pbList && res.value.app.schList == app.schList
    ensures res.Success? ==> |res.value.calls| <= 1
  {
    UpdateTabs(app, r.index + CountComplete(app.pbList) + 1, app.schList[r.index], r)
  }

  /** The tab a problem owns once complete: after the home tab and the complete problems before it. */
  function PbSlot(app: App, index: nat): nat
    requires index <= |app.pbList|
  {
    1 + CountComplete(app.pbList[..index])
  }

  /** The tab a scheme owns once complete: after every complete problem and the complete schemes before it. */
  function SchSlot(app: App, index: nat): nat
    requires index <= |app.schList|
  {
    1 + CountComplete(app.pbList) + CountComplete(app.schList[..index])
  }

  /** `update_menu_pb` with the tab position counted among complete problems only. */
  function UpdateMenuPbCorrected(app: App, r: Report): (res: Result<Outcome, PyError>)
    requires r.index < |app.pbList|
    ensures TabEffect(app, PbSlot(app, r.index), app.pbList[r.index], r, res)
    ensures res.Success? ==> res.value.app.pbList == app.pbList && res.value.app.schList == app.schList
    ensures res.Success? ==> |res.value.calls| <= 1
  {
    UpdateTabs(app, PbSlot(app, r.index), app.pbList[r.index], r)
  }

  /** `update_menu_sch` with the tab position counted among complete schemes only. */
  function UpdateMenuSchCorrected(app: App, r: Report): (res: Result<Outcome, PyError>)
    requires r.index < |app.schList|
    ensures TabEffect(app, SchSlot(app, r.index), app.schList[r.index], r, res)
    ensures res.Success? ==> res.value.app.pbList == app.pbList && res.value.app.schList == app.schList
    ensures res.Success? ==> |res.value.calls| <= 1
  {
    UpdateTabs(app, SchSlot(app, r.index), app.schList[r.index], r)
  }

  /**
   * The shell is in step with the lists: after the home tab come the names of
   * the complete problems, then those of the complete schemes, in list order,
   * and the tab under each title edits the object of the pair with that title.
   */
  predicate InSync(app: App)
  {
    && app.titles == [Home] + Idents(Completes(app.pbList)) + Idents(Completes(app.schList))
    && app.widgets == [HomeTab] + PairEditors(Completes(app.pbList)) + PairEditors(Completes(app.schList))
  }

  /** A problem widget event followed by the (corrected) shell callback. */
  function PbEvent(app: App, change: Option<Event>, index: nat): (res: Result<Outcome, PyError>)
    requires change.Some? ==> index < |app.pbList|
    ensures res.Success? ==> |res.value.app.pbList| == |app.pbList| && res.value.app.schList == app.schList
    ensures res.Success? ==> |res.value.calls| <= 1
  {
    var step := UpdateMenu(app.pbList, change, index);
    var app1 := app.(pbList := step.list);
    match step.report
    case None => Success(Outcome(app1, []))
    case Some(r) => UpdateMenuPbCorrected(app1, r)
  }

  /** The same event, with the shell callback as written. */
  function PbEventAsWritten(app: App, change: Option<Event>, index: nat): Result<Outcome, PyError>
    requires change.Some? ==> index < |app.pbList|
  {
    var step := UpdateMenu(app.pbList, change, index);
    var app1 := app.(pbList := step.list);
    match step.report
    case None => Success(Outcome(app1, []))
    case Some(r) => UpdateMenuPb(app1, r)
  }

  /** A scheme widget event followed by the (corrected) shell callback. */
  function SchEvent(app: App, change: Option<Event>, index: nat): (res: Result<Outcome, PyError>)
    requires change.Some? ==> index < |app.schList|
    ensures res.Success? ==> res.value.app.pbList == app.pbList && |res.value.app.schList| == |app.schList|
    ensures res.Success? ==> |res.value.calls| <= 1
  {
    var step := UpdateMenu(app.schList, change, index);
    var app1 := app.(schList := step.list);
    match step.report
    case None => Success(Outcome(app1, []))
    case Some(r) => UpdateMenuSchCorrected(app1, r)
  }

  /** The "Add a problem" button. */
  function AddPbEvent(app: App): App
  {
    app.(pbList := AddEntity(app.pbList))
  }

  /** The "Add a scheme" button. */
  function AddSchEvent(app: App): App
  {
    app.(schList := AddEntity(app.schList))
  }

  lemma AppendNothing<T>(s: seq<T>)
    ensures s + [] == s
  {
  }

  lemma UpdateInMiddle<T>(p: seq<T>, q: seq<T>, s: seq<T>, j: nat, v: T)
    requires j < |q|
    ensures (p + q + s)[|p| + j := v] == p + q[j := v] + s
  {
    assert (p + q + s)[|p| + j := v] == p + q[j := v] + s;
  }

  lemma InsertInMiddle<T>(p: seq<T>, q: seq<T>, s: seq<T>, j: nat, v: T)
    requires j <= |q|
    ensures Insert(p + q + s, |p| + j, v) == p + (q[..j] + [v] + q[j..]) + s
  {
    var t := p + q + s;
    assert t[..|p| + j] == p + q[..j];
    assert t[|p| + j..] == q[j..] + s;
  }

  /**
   * The tab bookkeeping of one report, in general form: the edited list's
   * complete elements `x` sit after the titles `pt` and editors `pw` and
   * before `st` and `sw`, and the report moves them to `x2`. Afterwards the
   * titles and editors show `x2` in the same place.
   */
  lemma {:induction false} UpdateTabsInSync(app: App, pt: seq<Option<string>>, pw: seq<TabWidget>, st: seq<Option<string>>, sw: seq<TabWidget>,
                                            x: seq<Pair>, x2: seq<Pair>, j: nat, pair: Pair, r: Report)
    requires |pt| == |pw|
    requires app.titles == pt + Idents(x) + st
    requires app.widgets == pw + PairEditors(x) + sw
    requires Moves(x, x2, j, pair, r)
    ensures var res := UpdateTabs(app, |pt| + j, pair, r);
      && res.Success?
      && res.value.app.titles == pt + Idents(x2) + st
      && res.value.app.widgets == pw + PairEditors(x2) + sw
      && res.value.app.pbList == app.pbList && res.value.app.schList == app.schList
  {
    if r.alreadyCreated {
      MirrorUpdate(x, j, pair);
      if r.kind == Identifier {
        UpdateInMiddle(pt, Idents(x), st, j, pair.ident);
        assert PairEditors(x)[j := EditorFor(pair.obj)] == PairEditors(x);
      } else {
        UpdateInMiddle(pw, PairEditors(x), sw, j, EditorFor(pair.obj));
        assert Idents(x)[j := pair.ident] == Idents(x);
      }
    } else if Complete(pair) {
      MirrorInsert(x, j, pair);
      InsertInMiddle(pt, Idents(x), st, j, pair.ident);
      InsertInMiddle(pw, PairEditors(x), sw, j, EditorFor(pair.obj));
    }
  }

  /** Replacing pair `j` replaces title `j` and editor `j`. */
  lemma MirrorUpdate(x: seq<Pair>, j: nat, pair: Pair)
    requires j < |x|
    ensures Idents(x[j := pair]) == Idents(x)[j := pair.ident]
    ensures PairEditors(x[j := pair]) == PairEditors(x)[j := EditorFor(pair.obj)]
  {
  }

  /** Inserting a pair at `j` inserts its title and its editor at `j`. */
  lemma MirrorInsert(x: seq<Pair>, j: nat, pair: Pair)
    requires j <= |x|
    ensures Idents(x[..j] + [pair] + x[j..]) == Idents(x)[..j] + [pair.ident] + Idents(x)[j..]
    ensures PairEditors(x[..j] + [pair] + x[j..]) == PairEditors(x)[..j] + [EditorFor(pair.obj)] + PairEditors(x)[j..]
  {
  }

  /** A problem event keeps the shell in step: it never raises, and titles and editors still mirror the lists. */
  lemma {:induction false} PbEventKeepsSync(app: App, change: Option<Event>, index: nat)
    requires InSync(app)
    requires change.Some? ==> index < |app.pbList|
    ensures PbEvent(app, change, index).Success?
    ensures InSync(PbEvent(app, change, index).value.app)
  {
    if change.Some? {
      var step := UpdateMenu(app.pbList, change, index);
      EventMoves(app.pbList, change.value, index);
      var app1 := app.(pbList := step.list);
      var c := Completes(app.schList);
      var j := CountComplete(app.pbList[..index]);
      assert PbSlot(app1, index) == |[Home]| + j;
      UpdateTabsInSync(app1, [Home], [HomeTab], Idents(c), PairEditors(c),
                       Completes(app.pbList), Completes(step.list), j, step.list[index], step.report.value);
    }
  }

  /** A scheme event keeps the shell in step. */
  lemma {:induction false} SchEventKeepsSync(app: App, change: Option<Event>, index: nat)
    requires InSync(app)
    requires change.Some? ==> index < |app.schList|
    ensures SchEvent(app, change, index).Success?
    ensures InSync(SchEvent(app, change, index).value.app)
  {
    if change.Some? {
      var step := UpdateMenu(app.schList, change, index);
      EventMoves(app.schList, change.value, index);
      var app1 := app.(schList := step.list);
      var a, x, x2 := Completes(app.pbList), Completes(app.schList), Completes(step.list);
      var pt, pw := [Home] + Idents(a), [HomeTab] + PairEditors(a);
      var j := CountComplete(app.schList[..index]);
      AppendNothing(pt + Idents(x));
      AppendNothing(pw + PairEditors(x));
      AppendNothing(pt + Idents(x2));
      AppendNothing(pw + PairEditors(x2));
      assert SchSlot(app1, index) == |pt| + j;
      UpdateTabsInSync(app1, pt, pw, [], [], x, x2, j, step.list[index], step.report.value);
      var res := UpdateTabs(app1, |pt| + j, step.list[index], step.report.value);
      assert SchEvent(app, change, index) == res;
      assert res.value.app.pbList == app.pbList && res.value.app.schList == step.list;
    }
  }

  /** Adding a blank problem or scheme changes no tab. */
  lemma AddKeepsSync(app: App)
    requires InSync(app)
    ensures InSync(AddPbEvent(app))
    ensures InSync(AddSchEvent(app))
  {
    AddKeepsCompletes(app.pbList);
    AddKeepsCompletes(app.schList);
  }

  /** A blank element is never complete, so appending one leaves the complete elements as they were. */
  lemma AddKeepsCompletes(s: seq<Pair>)
    ensures Completes(AddEntity(s)) == Completes(s)
  {
    CompletesAppend(s, [Blank]);
    CompletesSingle(Blank);
    assert AddEntity(s) == s + [Blank];
  }

  lemma InitialInSync()
    ensures InSync(Initial)
  {
    assert Idents([]) == [];
  }

  /**
   * Exactly one dataset call per problem event, chosen by the state of the
   * element before and after it: a rename or retype of a declared problem,
   * the declaration of a problem that just became complete, or nothing.
   */
  lemma {:induction false} PbEventCalls(app: App, change: Event, index: nat)
    requires InSync(app)
    requires index < |app.pbList|
    ensures var p := app.pbList[index];
      var p2 := UpdateMenu(app.pbList, Some(change), index).list[index];
      var o := PbEvent(app, Some(change), index);
      && o.Success?
      && o.value.app.pbList == app.pbList[index := p2]
      && (Complete(p) && change.NameEdit? ==> o.value.calls == [ChangeReadObject(p.ident, NewIdentifier(p2.ident))])
      && (Complete(p) && change.TypeEdit? ==> o.value.calls == [ChangeReadObject(p.ident, NewObject(p2.obj))])
      && (!Complete(p) && Complete(p2) ==> o.value.calls == [AddObject(p2.obj.value, p2.ident.value)])
      && (!Complete(p) && !Complete(p2) ==> o.value.calls == [])
  {
    PbEventKeepsSync(app, Some(change), index);
    var step := UpdateMenu(app.pbList, Some(change), index);
    assert step.list == app.pbList[index := step.list[index]];
  }

  /**
   * The entity lifecycle, end to end: add a blank problem, name it, give it a
   * type, rename it. The dataset sees exactly one declaration and one rename,
   * nothing else, and the shell stays in step throughout.
   */
  lemma {:induction false} ProblemLifecycle(app: App, n1: string, t: string, n2: string)
    requires InSync(app)
    ensures var i := |app.pbList|;
      var a1 := AddPbEvent(app);
      var o2 := PbEvent(a1, Some(NameEdit(n1)), i);
      o2.Success? && o2.value.calls == [] &&
      var o3 := PbEvent(o2.value.app, Some(TypeEdit(t)), i);
      o3.Success? && o3.value.calls == [AddObject(Default(t), n1)] &&
      var o4 := PbEvent(o3.value.app, Some(NameEdit(n2)), i);
      && o4.Success?
      && o4.value.calls == [ChangeReadObject(Some(n1), NewIdentifier(Some(n2)))]
      && InSync(o4.value.app)
      && o4.value.app.pbList == app.pbList + [Pair(Some(n2), Some(Default(t)))]
  {
    var base := app.pbList;
    AddKeepsSync(app);
    var a1 := AddPbEvent(app);
    assert a1.pbList == base + [Blank];
    EventOnLast(a1, base, Blank, NameEdit(n1));
    var o2 := PbEvent(a1, Some(NameEdit(n1)), |base|);
    EventOnLast(o2.value.app, base, Pair(Some(n1), None), TypeEdit(t));
    var o3 := PbEvent(o2.value.app, Some(TypeEdit(t)), |base|);
    EventOnLast(o3.value.app, base, Pair(Some(n1), Some(Default(t))), NameEdit(n2));
  }

  /** One problem event on the last element of the list, in closed form. */
  lemma EventOnLast(app: App, base: seq<Pair>, p: Pair, change: Event)
    requires InSync(app) && app.pbList == base + [p]
    ensures var p2 := match change
        case NameEdit(n) => Pair(Some(n), p.obj)
        case TypeEdit(t) => Pair(p.ident, Some(Retype(p.obj, t)));
      var o := PbEvent(app, Some(change), |base|);
      && o.Success?
      && InSync(o.value.app)
      && o.value.app.pbList == base + [p2]
      && (Complete(p) && change.NameEdit? ==> o.value.calls == [ChangeReadObject(p.ident, NewIdentifier(p2.ident))])
      && (!Complete(p) && Complete(p2) ==> o.value.calls == [AddObject(p2.obj.value, p2.ident.value)])
      && (!Complete(p) && !Complete(p2) ==> o.value.calls == [])
  {
    PbEventCalls(app, change, |base|);
    PbEventKeepsSync(app, Some(change), |base|);
    assert (base + [p])[|base|] == p;
    assert (base + [p])[|base| := UpdateMenu(base + [p], Some(change), |base|).list[|base|]]
        == base + [UpdateMenu(base + [p], Some(change), |base|).list[|base|]];
  }

  /** What the user can do to the shell's lists: edit a problem or a scheme, or press an "Add" button. */
  datatype ShellAction =
    | PbEdit(change: Event, index: nat)
    | SchEdit(change: Event, index: nat)
    | AddPb
    | AddSch

  /**
   * Every edit in the run targets an element that exists when it happens
   * (each panel edits its own element); `nPb` and `nSch` are the list lengths.
   */
  predicate ShellInRange(nPb: nat, nSch: nat, actions: seq<ShellAction>)
    decreases |actions|
  {
    |actions| == 0 ||
      ((actions[0].PbEdit? ==> actions[0].index < nPb)
       && (actions[0].SchEdit? ==> actions[0].index < nSch)
       && ShellInRange(nPb + (if actions[0].AddPb? then 1 else 0), nSch + (if actions[0].AddSch? then 1 else 0), actions[1..]))
  }

  /** One action followed by the corrected callbacks; adding fires a null event, which changes no tab. */
  function ShellStep(app: App, a: ShellAction): (res: Result<Outcome, PyError>)
    requires a.PbEdit? ==> a.index < |app.pbList|
    requires a.SchEdit? ==> a.index < |app.schList|
    ensures res.Success? ==> |res.value.calls| <= 1
    ensures res.Success? ==>
      && |res.value.app.pbList| == |app.pbList| + (if a.AddPb? then 1 else 0)
      && |res.value.app.schList| == |app.schList| + (if a.AddSch? then 1 else 0)
  {
    match a
    case PbEdit(change, index) => PbEvent(app, Some(change), index)
    case SchEdit(change, index) => SchEvent(app, Some(change), index)
    case AddPb => Success(Outcome(AddPbEvent(app), []))
    case AddSch => Success(Outcome(AddSchEvent(app), []))
  }

  /** A run of actions on the corrected shell: the final state and all the calls, up to the first exception. */
  function RunShell(app: App, actions: seq<ShellAction>): (res: Result<Outcome, PyError>)
    requires ShellInRange(|app.pbList|, |app.schList|, actions)
    decreases |actions|
    ensures res.Success? ==> |res.value.calls| <= |actions|
  {
    if |actions| == 0 then Success(Outcome(app, []))
    else
      var s := ShellStep(app, actions[0]);
      if s.Failure? then Failure(s.error)
      else
        var rest := RunShell(s.value.app, actions[1..]);
        if rest.Failure? then rest
        else Success(Outcome(rest.value.app, s.value.calls + rest.value.calls))
  }

  /**
   * With the corrected tab positions, any run of edits and additions from a
   * shell in step never raises and leaves the shell in step: the tabs are
   * "Home", the complete problems, then the complete schemes.
   */
  lemma {:induction false} RunShellKeepsSync(app: App, actions: seq<ShellAction>)
    requires InSync(app)
    requires ShellInRange(|app.pbList|, |app.schList|, actions)
    ensures RunShell(app, actions).Success?
    ensures InSync(RunShell(app, actions).value.app)
    decreases |actions|
  {
    if |actions| > 0 {
      ShellStepKeepsSync(app, actions[0]);
      var next := ShellStep(app, actions[0]).value.app;
      RunShellCons(app, actions);
      RunShellKeepsSync(next, actions[1..]);
    }
  }

  /** A run whose first step succeeds continues as the run of the remaining actions from that step's state. */
  lemma RunShellCons(app: App, actions: seq<ShellAction>)
    requires |actions| > 0
    requires ShellInRange(|app.pbList|, |app.schList|, actions)
    requires ShellStep(app, actions[0]).Success?
    ensures var next := ShellStep(app, actions[0]).value.app;
      && ShellInRange(|next.pbList|, |next.schList|, actions[1..])
      && (RunShell(app, actions).Success? <==> RunShell(next, actions[1..]).Success?)
      && (RunShell(app, actions).Success? ==> RunShell(app, actions).value.app == RunShell(next, actions[1..]).value.app)
  {
  }

  /** A single action of a run: the corrected callbacks never raise and keep the shell in step. */
  lemma ShellStepKeepsSync(app: App, a: ShellAction)
    requires InSync(app)
    requires a.PbEdit? ==> a.index < |app.pbList|
    requires a.SchEdit? ==> a.index < |app.schList|
    ensures ShellStep(app, a).Success?
    ensures InSync(ShellStep(app, a).value.app)
  {
    match a
    case PbEdit(change, index) => PbEventKeepsSync(app, Some(change), index);
    case SchEdit(change, index) => SchEventKeepsSync(app, Some(change), index);
    case AddPb => AddKeepsSync(app);
    case AddSch => AddKeepsSync(app);
  }

  /**
   * A trace on which the as-written callback fails: problem 0 is complete,
   * problem 1 is blank, problem 2 is completed (its tab is appended at
   * position 2, since `insert(3, ..)` on a two-tab list appends), and
   * renaming problem 2 then writes tab 3 of a three-tab list. The corrected
   * callback renames tab 2.
   */
  lemma TitleSlotCounterexample()
    ensures var a0 := App([Home, Some("a")], [HomeTab, EditorFor(Some(Default("T")))],
                          [Pair(Some("a"), Some(Default("T"))), Blank, Blank], []);
      && PbEventAsWritten(a0, Some(NameEdit("c")), 2) == Success(Outcome(a0.(pbList := [Pair(Some("a"), Some(Default("T"))), Blank, Pair(Some("c"), None)]), []))
      && var a1 := a0.(pbList := [Pair(Some("a"), Some(Default("T"))), Blank, Pair(Some("c"), None)]);
      && PbEventAsWritten(a1, Some(TypeEdit("T")), 2).Success?
      && var a2 := PbEventAsWritten(a1, Some(TypeEdit("T")), 2).value.app;
      && a2.titles == [Home, Some("a"), Some("c")]
      && PbEventAsWritten(a2, Some(NameEdit("d")), 2) == Failure(IndexError)
      && PbEvent(a2, Some(NameEdit("d")), 2).Success?
      && PbEvent(a2, Some(NameEdit("d")), 2).value.app.titles == [Home, Some("a"), Some("d")]
  {
    var pa := Pair(Some("a"), Some(Default("T")));
    var a0 := App([Home, Some("a")], [HomeTab, EditorFor(Some(Default("T")))], [pa, Blank, Blank], []);
    assert UpdateMenu(a0.pbList, Some(NameEdit("c")), 2).list == [pa, Blank, Pair(Some("c"), None)];
    var a1 := a0.(pbList := [pa, Blank, Pair(Some("c"), None)]);
    var pc := Pair(Some("c"), Some(Default("T")));
    assert UpdateMenu(a1.pbList, Some(TypeEdit("T")), 2).list == [pa, Blank, pc];
    var a2 := PbEventAsWritten(a1, Some(TypeEdit("T")), 2).value.app;
    assert a2.titles == Insert([Home, Some("a")], 3, Some("c"));
    assert a2.pbList == [pa, Blank, pc];
    var s := [pa, Blank, pc];
    assert s[..2] == [pa, Blank];
    assert [pa, Blank][1..] == [Blank];
    assert [Blank][1..] == [];
    assert Completes([pa, Blank]) == [pa];
  }

  /**
   * The retype half of the same slip: with a blank problem ahead of problems
   * `a` and `b`, retyping `a` rebuilds tab `index + 1 = 2`, which is `b`'s.
   * No exception is raised, but `b`'s title now sits over an editor of `a`'s
   * new object and the shell is out of step. The corrected callback rebuilds
   * tab 1, which is `a`'s.
   */
  lemma RetypeSlotCounterexample()
    ensures var oa, ob := Default("T"), Default("S");
      var a0 := App([Home, Some("a"), Some("b")], [HomeTab, EditorFor(Some(oa)), EditorFor(Some(ob))],
                    [Blank, Pair(Some("a"), Some(oa)), Pair(Some("b"), Some(ob))], []);
      && InSync(a0)
      && PbEventAsWritten(a0, Some(TypeEdit("U")), 1).Success?
      && var w := PbEventAsWritten(a0, Some(TypeEdit("U")), 1).value.app;
      && w.titles[2] == Some("b")
      && w.widgets[2] == EditorFor(Some(Retyped(oa, "U")))
      && !InSync(w)
      && PbEvent(a0, Some(TypeEdit("U")), 1).Success?
      && var c := PbEvent(a0, Some(TypeEdit("U")), 1).value.app;
      && c.widgets[1] == EditorFor(Some(Retyped(oa, "U")))
      && c.widgets[2] == EditorFor(Some(ob))
      && InSync(c)
  {
    var oa, ob := Default("T"), Default("S");
    var pa, pb := Pair(Some("a"), Some(oa)), Pair(Some("b"), Some(ob));
    var a0 := App([Home, Some("a"), Some("b")], [HomeTab, EditorFor(Some(oa)), EditorFor(Some(ob))], [Blank, pa, pb], []);
    var pa2 := Pair(Some("a"), Some(Retyped(oa, "U")));
    BlankThenTwo(pa, pb);
    BlankThenTwo(pa2, pb);
    assert InSync(a0);
    var step := UpdateMenu(a0.pbList, Some(TypeEdit("U")), 1);
    assert step.list == [Blank, pa2, pb];
    var w := PbEventAsWritten(a0, Some(TypeEdit("U")), 1).value.app;
    assert w.widgets[1] == EditorFor(Some(oa));
    assert PairEditors(Completes(w.pbList))[0] == EditorFor(Some(Retyped(oa, "U")));
    PbEventKeepsSync(a0, Some(TypeEdit("U")), 1);
  }

  /** The complete elements behind a single blank one. */
  lemma BlankThenTwo(p: Pair, q: Pair)
    requires Complete(p) && Complete(q)
    ensures Completes([Blank, p, q]) == [p, q]
    ensures Completes([Blank, p, q][..1]) == []
  {
    CompletesAppend([Blank], [p, q]);
    CompletesAppend([p], [q]);
    CompletesSingle(Blank);
    CompletesSingle(p);
    CompletesSingle(q);
    assert [Blank] + [p, q] == [Blank, p, q];
    assert [p] + [q] == [p, q];
    assert [Blank, p, q][..1] == [Blank];
  }

  /** `cancel`: pop one snapshot while more than one remains, and restore the live object from the new top. */
  function Cancel<T>(changeList: seq<T>, live: T): (r: (seq<T>, T))
    ensures |changeList| > 1 ==> r.0 == changeList[..|changeList| - 1] && r.1 == r.0[|r.0| - 1]
    ensures |changeList| <= 1 ==> r == (changeList, live)
    ensures |changeList| >= 1 ==> |r.0| >= 1
    ensures |r.0| <= |changeList|
  {
    if |changeList| > 1 then
      var popped := changeList[..|changeList| - 1];
      (popped, popped[|popped| - 1])
    else (changeList, live)
  }

  /** Undo is the inverse of recording a snapshot: it returns to the previous checkpoint. */
  lemma CancelAfterRecord<T>(history: seq<T>, snapshot: T, live: T)
    requires |history| >= 1
    ensures Cancel(history + [snapshot], live) == (history, history[|history| - 1])
  {
    assert (history + [snapshot])[..|history|] == history;
  }

  /** Pressing cancel `n` times. */
  function CancelTimes<T>(changeList: seq<T>, live: T, n: nat): (seq<T>, T)
  {
    if n == 0 then (changeList, live)
    else var r := Cancel(changeList, live); CancelTimes(r.0, r.1, n - 1)
  }

  /**
   * The history floor: however often cancel is pressed, the history keeps its
   * first `max(1, |h| - n)` snapshots and never empties, and once anything was
   * popped the live object equals the remaining top.
   */
  lemma {:induction false} CancelTimesFloor<T>(h: seq<T>, live: T, n: nat)
    requires |h| >= 1
    ensures var keep := if |h| - n >= 1 then |h| - n else 1;
      && CancelTimes(h, live, n).0 == h[..keep]
      && (n >= 1 && |h| > 1 ==> CancelTimes(h, live, n).1 == h[keep - 1])
      && (n == 0 || |h| == 1 ==> CancelTimes(h, live, n).1 == live)
    decreases n
  {
    if n == 0 {
      assert h[..|h|] == h;
    } else {
      var r := Cancel(h, live);
      CancelTimesFloor(r.0, r.1, n - 1);
      if |h| == 1 {
        assert h[..1] == h;
      }
    }
  }

  /** One object editor per name, each on the object the dataset holds under that name. */
  function Editors(names: seq<Option<string>>, lookup: Option<string> -> Option<Obj>): (r: seq<TabWidget>)
    ensures |r| == |names|
    ensures forall k :: 0 <= k < |names| ==> r[k] == EditorFor(lookup(names[k]))
  {
    seq(|names|, k requires 0 <= k < |names| => EditorFor(lookup(names[k])))
  }

  /**
   * `update_menu_dataset`: keep the first tab, then one tab per problem and
   * per scheme read from the newly loaded dataset, problems first, each
   * editing the object the dataset holds under that name (`lookup` is
   * `dataset.get`). The problem and scheme lists are not touched here.
   */
  function UpdateMenuDataset(app: App, readPb: seq<Pair>, readSch: seq<Pair>, lookup: Option<string> -> Option<Obj>): (r: App)
    ensures var keep := if |app.titles| >= 1 then 1 else 0;
      r.titles == app.titles[..keep] + Idents(readPb) + Idents(readSch)
    ensures var keep := if |app.widgets| >= 1 then 1 else 0;
      r.widgets == app.widgets[..keep] + Editors(Idents(readPb) + Idents(readSch), lookup)
    ensures r.pbList == app.pbList && r.schList == app.schList
  {
    var names := Idents(readPb) + Idents(readSch);
    var titles := (if |app.titles| >= 1 then app.titles[..1] else []) + names;
    var widgets := (if |app.widgets| >= 1 then app.widgets[..1] else []) + Editors(names, lookup);
    app.(titles := titles, widgets := widgets)
  }

  /** Every pair is complete. */
  predicate AllComplete(s: seq<Pair>)
  {
    forall k :: 0 <= k < |s| ==> Complete(s[k])
  }

  lemma {:induction false} CompletesOfAllComplete(s: seq<Pair>)
    requires AllComplete(s)
    ensures Completes(s) == s
    decreases |s|
  {
    if |s| > 0 {
      CompletesOfAllComplete(s[1..]);
    }
  }

  /**
   * Loading a dataset puts the shell back in step: the home page resets the
   * problem and scheme lists to the pairs read from the dataset (all of them
   * complete, each holding the object the dataset stores under its name) and
   * then calls `update_menu_dataset` with the same pairs.
   */
  lemma LoadRestoresSync(app: App, readPb: seq<Pair>, readSch: seq<Pair>, lookup: Option<string> -> Option<Obj>)
    requires |app.titles| >= 1 && app.titles[0] == Home
    requires |app.widgets| >= 1 && app.widgets[0] == HomeTab
    requires AllComplete(readPb) && AllComplete(readSch)
    requires forall k :: 0 <= k < |readPb| ==> lookup(readPb[k].ident) == readPb[k].obj
    requires forall k :: 0 <= k < |readSch| ==> lookup(readSch[k].ident) == readSch[k].obj
    ensures InSync(UpdateMenuDataset(app.(pbList := readPb, schList := readSch), readPb, readSch, lookup))
  {
    CompletesOfAllComplete(readPb);
    CompletesOfAllComplete(readSch);
    assert app.titles[..1] == [Home];
    assert app.widgets[..1] == [HomeTab];
    EditorsOfRead(readPb, readSch, lookup);
  }

  /** When the dataset holds each read object under its read name, the editors built from the names are the pairs' editors. */
  lemma EditorsOfRead(readPb: seq<Pair>, readSch: seq<Pair>, lookup: Option<string> -> Option<Obj>)
    requires forall k :: 0 <= k < |readPb| ==> lookup(readPb[k].ident) == readPb[k].obj
    requires forall k :: 0 <= k < |readSch| ==> lookup(readSch[k].ident) == readSch[k].obj
    ensures Editors(Idents(readPb) + Idents(readSch), lookup) == PairEditors(readPb) + PairEditors(readSch)
  {
    var names := Idents(readPb) + Idents(readSch);
    forall k | 0 <= k < |names|
      ensures Editors(names, lookup)[k] == (PairEditors(readPb) + PairEditors(readSch))[k]
    {
      if k >= |readPb| {
        assert names[k] == readSch[k - |readPb|].ident;
      }
    }
  }
}

=== FILE: object_widget.dfy ===
/**
 * The object editor: `show_widget` picks one editor per (declared type,
 * current value) by the first matching rule, recursing through attribute
 * maps; `ObjectWidget` builds one panel per attribute of an object. What
 * the schema library answers about a class's attributes is the parameter
 * `attrsOf`.
 */
module ObjectWidget {
  import opened Wrappers
  import opened Schema

  /** The editor `show_widget` returns, with the arguments it was built from. */
  datatype Editor =
    | Panels(panels: seq<Panel>)          // expansion panels, one per attribute
    | Selector(declared: string)          // `SelectWidget(widget_type)`, to choose a subclass
    | TextField(v: Value)                 // `StrWidget`
    | Dropdown(options: seq<string>, v: Value) // `DropdownWidget`
    | FloatField(v: Value)
    | BoolField(v: Value)
    | IntField(v: Value)
    | ListEditor(elemType: TypeDesc, v: Value) // `ListWidget(widget_type[0], current_value)`
    | NotDefined                          // the string "not defined"

  /** An expansion panel: its header and its content. */
  datatype Panel = Panel(header: string, content: Editor)

  /** The headers of a panel list, in order. */
  function Headers(panels: seq<Panel>): (hs: seq<string>)
    ensures |hs| == |panels|
    ensures forall j :: 0 <= j < |panels| ==> hs[j] == panels[j].header
  {
    seq(|panels|, j requires 0 <= j < |panels| => panels[j].header)
  }

  /** 1 on the step that trades a class for the attribute map of the object's runtime class. */
  function Phase(t: TypeDesc, v: Value): nat
  {
    if t.ClassType? && v.RecordVal? then 1 else 0
  }

  /**
   * `ObjectWidget.show_widget(widget_type, current_value)`. In order:
   * an attribute map with no value gives one panel per attribute, each
   * editing no value; an attribute map with a value gives one panel per
   * attribute editing `current_value[1][key]` (a missing key raises
   * `KeyError`; a value that is not an object, `TypeError`); an exported
   * class with no value gives the subclass selector; with a value, the
   * attribute map of the value's runtime class is shown instead; `str`,
   * `Literal`, `float`, `bool`, `int` give their field; a list of types with
   * a value gives a list editor over its first type (`IndexError` when the
   * list is empty); anything else is "not defined".
   */
  function ShowWidget(t: TypeDesc, v: Value, attrsOf: string -> seq<Field>): (r: Result<Editor, PyError>)
    decreases v, Phase(t, v), t, 1, 0, 0
    ensures t.DictType? && r.Success? ==>
      r.value.Panels? && Headers(r.value.panels) == FieldKeys(t.fields)
    ensures t.DictType? && v.RecordVal? && r.Success? ==>
      forall j :: 0 <= j < |t.fields| ==> t.fields[j].key in AttrKeys(v.attrs)
    ensures t.DictType? && (v.Absent? || v.RecordVal?) && r.Success? ==>
      forall j :: 0 <= j < |t.fields| ==> FieldPanel(t, j, v, attrsOf) == Success(r.value.panels[j])
    ensures t.DictType? && !v.Absent? && !v.RecordVal? ==> r == Failure(TypeError)
    ensures t.ClassType? && v.Absent? ==> r == Success(Selector(t.name))
    ensures t.ClassType? && v.RecordVal? && r.Success? ==>
      r.value.Panels? && Headers(r.value.panels) == FieldKeys(attrsOf(v.runtime))
    ensures t.ClassType? && v.RecordVal? ==> r == ShowWidget(DictType(attrsOf(v.runtime)), v, attrsOf)
    ensures !t.DictType? && !t.ClassType? && !t.ListType? ==> r.Success?
    ensures t.StrType? ==> r == Success(TextField(v))
    ensures t.FloatType? ==> r == Success(FloatField(v))
    ensures t.BoolType? ==> r == Success(BoolField(v))
    ensures t.IntType? ==> r == Success(IntField(v))
    ensures t.LiteralType? ==> r == Success(Dropdown(t.options, v))
    ensures t.ListType? ==> (r.Failure? <==> !v.Absent? && |t.elems| == 0)
    ensures t.ListType? && !v.Absent? && |t.elems| > 0 ==> r == Success(ListEditor(t.elems[0], v))
    ensures (t.ListType? && v.Absent?) || t.GenericList? || t.OtherType? ==> r == Success(NotDefined)
  {
    match t
    case DictType(fields) =>
      if v.Absent? || v.RecordVal? then
        match ShowFields(t, 0, v, attrsOf)
        case Success(panels) => Success(Panels(panels))
        case Failure(e) => Failure(e)
      else Failure(TypeError)
    case ClassType(name) =>
      if v.Absent? then Success(Selector(name))
      else if v.RecordVal? then ShowWidget(DictType(attrsOf(v.runtime)), v, attrsOf)
      else Failure(TypeError)
    case StrType => Success(TextField(v))
    case LiteralType(options) => Success(Dropdown(options, v))
    case FloatType => Success(FloatField(v))
    case BoolType => Success(BoolField(v))
    case IntType => Success(IntField(v))
    case ListType(elems) =>
      if v.Absent? then Success(NotDefined)
      else if |elems| == 0 then Failure(IndexError)
      else Success(ListEditor(elems[0], v))
    case GenericList(_) => Success(NotDefined)
    case OtherType => Success(NotDefined)
  }

  /**
   * One iteration of the panel loop over the attribute map `t`: the panel
   * for attribute `i`, headed by its name and holding `show_widget(type,
   * value)`, where the value is absent when the whole value is, and
   * otherwise looked up by name (`KeyError` if the object has no such
   * attribute).
   */
  function FieldPanel(t: TypeDesc, i: nat, v: Value, attrsOf: string -> seq<Field>): (r: Result<Panel, PyError>)
    requires t.DictType? && i < |t.fields|
    requires v.Absent? || v.RecordVal?
    decreases v, 0, t, 0, |t.fields| - i, 0
    ensures r.Success? ==> r.value.header == t.fields[i].key
    ensures v.RecordVal? && t.fields[i].key !in AttrKeys(v.attrs) ==> r == Failure(KeyError)
    ensures v.RecordVal? && r.Success? ==> t.fields[i].key in AttrKeys(v.attrs)
    ensures v.Absent? ==> (r.Success? <==> ShowWidget(t.fields[i].ty, Absent, attrsOf).Success?)
    ensures v.Absent? && r.Success? ==> ShowWidget(t.fields[i].ty, Absent, attrsOf) == Success(r.value.content)
    ensures v.RecordVal? && FindAttr(v.attrs, t.fields[i].key).Some? ==>
      var cv := v.attrs[FindAttr(v.attrs, t.fields[i].key).value].val;
      && (r.Success? <==> ShowWidget(t.fields[i].ty, cv, attrsOf).Success?)
      && (r.Success? ==> ShowWidget(t.fields[i].ty, cv, attrsOf) == Success(r.value.content))
  {
    var f := t.fields[i];
    assert f in t.fields;
    var child: Result<Value, PyError> :=
      if v.Absent? then Success(Absent)
      else match FindAttr(v.attrs, f.key)
        case None => Failure(KeyError)
        case Some(k) => Success(v.attrs[k].val);
    match child
    case Failure(e) => Failure(e)
    case Success(cv) =>
      match ShowWidget(f.ty, cv, attrsOf)
      case Failure(e) => Failure(e)
      case Success(ed) => Success(Panel(f.key, ed))
  }

  /**
   * The panels for attributes `i..` of the map `t`, one `FieldPanel` each,
   * in the map's order; the first failing attribute stops the loop.
   */
  function ShowFields(t: TypeDesc, i: nat, v: Value, attrsOf: string -> seq<Field>): (r: Result<seq<Panel>, PyError>)
    requires t.DictType? && i <= |t.fields|
    requires v.Absent? || v.RecordVal?
    decreases v, 0, t, 0, |t.fields| - i, 1
    ensures r.Success? ==> |r.value| == |t.fields| - i
    ensures r.Success? ==> forall j :: 0 <= j < |r.value| ==>
      && FieldPanel(t, i + j, v, attrsOf) == Success(r.value[j])
      && r.value[j].header == t.fields[i + j].key
      && (v.RecordVal? ==> t.fields[i + j].key in AttrKeys(v.attrs))
  {
    if i == |t.fields| then Success([])
    else
      var panel := FieldPanel(t, i, v, attrsOf);
      var tail := ShowFields(t, i + 1, v, attrsOf);
      if panel.Failure? then Failure(panel.error)
      else if tail.Failure? then Failure(tail.error)
      else
        var rest := tail.value;
        var r := [panel.value] + rest;
        forall j | 1 <= j < |r|
          ensures FieldPanel(t, i + j, v, attrsOf) == Success(r[j])
          ensures r[j].header == t.fields[i + j].key
          ensures v.RecordVal? ==> t.fields[i + j].key in AttrKeys(v.attrs)
        {
          assert r[j] == rest[j - 1] && i + j == (i + 1) + (j - 1);
        }
        Success(r)
  }

  /** The panel loop succeeds exactly when every remaining attribute's panel does. */
  lemma {:induction false} ShowFieldsSucceeds(t: TypeDesc, i: nat, v: Value, attrsOf: string -> seq<Field>)
    requires t.DictType? && i <= |t.fields|
    requires v.Absent? || v.RecordVal?
    ensures ShowFields(t, i, v, attrsOf).Success? <==> forall j :: i <= j < |t.fields| ==> FieldPanel(t, j, v, attrsOf).Success?
    decreases |t.fields| - i
  {
    if i < |t.fields| {
      ShowFieldsSucceeds(t, i + 1, v, attrsOf);
      var panel, tail := FieldPanel(t, i, v, attrsOf), ShowFields(t, i + 1, v, attrsOf);
      assert ShowFields(t, i, v, attrsOf).Success? <==> panel.Success? && tail.Success?;
      if panel.Success? && tail.Success? {
        forall j | i <= j < |t.fields|
          ensures FieldPanel(t, j, v, attrsOf).Success?
        {
          if j == i {
            assert FieldPanel(t, j, v, attrsOf) == panel;
          }
        }
      } else if tail.Failure? {
        var j :| i + 1 <= j < |t.fields| && !FieldPanel(t, j, v, attrsOf).Success?;
        assert ShowFields(t, i, v, attrsOf).Failure?;
      } else {
        assert !FieldPanel(t, i, v, attrsOf).Success?;
        assert !(forall j :: i <= j < |t.fields| ==> FieldPanel(t, j, v, attrsOf).Success?);
        assert ShowFields(t, i, v, attrsOf).Failure?;
      }
    }
  }

  /** Attribute `j` of the map `t` can be shown on the object `v`: the object has it, and its editor builds. */
  predicate FieldBuilds(t: TypeDesc, j: nat, v: Value, attrsOf: string -> seq<Field>)
    requires t.DictType? && j < |t.fields| && v.RecordVal?
  {
    && t.fields[j].key in AttrKeys(v.attrs)
    && ShowWidget(t.fields[j].ty, v.attrs[FindAttr(v.attrs, t.fields[j].key).value].val, attrsOf).Success?
  }

  /**
   * When the editor of an attribute map gets built: with no value, exactly
   * when every attribute's own editor (with no value) does; with an object,
   * exactly when the object has every attribute of the map and every
   * attribute's editor builds on the object's value for it.
   */
  lemma ShowDictSucceeds(t: TypeDesc, v: Value, attrsOf: string -> seq<Field>)
    requires t.DictType? && (v.Absent? || v.RecordVal?)
    ensures ShowWidget(t, v, attrsOf).Success? <==> forall j :: 0 <= j < |t.fields| ==> FieldPanel(t, j, v, attrsOf).Success?
    ensures v.Absent? ==>
      (ShowWidget(t, v, attrsOf).Success? <==> forall j :: 0 <= j < |t.fields| ==> ShowWidget(t.fields[j].ty, Absent, attrsOf).Success?)
    ensures v.RecordVal? ==>
      (ShowWidget(t, v, attrsOf).Success? <==> forall j :: 0 <= j < |t.fields| ==> FieldBuilds(t, j, v, attrsOf))
  {
    ShowFieldsSucceeds(t, 0, v, attrsOf);
    forall j | 0 <= j < |t.fields|
      ensures v.Absent? ==> (FieldPanel(t, j, v, attrsOf).Success? <==> ShowWidget(t.fields[j].ty, Absent, attrsOf).Success?)
      ensures v.RecordVal? ==> (FieldPanel(t, j, v, attrsOf).Success? <==> FieldBuilds(t, j, v, attrsOf))
    {
    }
  }

  /** A class with an object value is shown exactly as the runtime class's attribute map is, so it builds under the same condition. */
  lemma ShowClassSucceeds(t: TypeDesc, v: Value, attrsOf: string -> seq<Field>)
    requires t.ClassType? && v.RecordVal?
    ensures var m := DictType(attrsOf(v.runtime));
      ShowWidget(t, v, attrsOf).Success? <==> forall j :: 0 <= j < |m.fields| ==> FieldBuilds(m, j, v, attrsOf)
  {
    ShowDictSucceeds(DictType(attrsOf(v.runtime)), v, attrsOf);
  }

  /**
   * Reference definition of the editor for a value not yet set: it mirrors
   * the declared type alone — nested panels for attribute maps, a selector
   * for classes, empty fields for scalars, nothing for lists.
   */
  function Skeleton(t: TypeDesc): Editor
    decreases t
  {
    match t
    case DictType(fields) =>
      Panels(seq(|fields|, j requires 0 <= j < |fields| => Panel(fields[j].key, Skeleton(fields[j].ty))))
    case ClassType(name) => Selector(name)
    case StrType => TextField(Absent)
    case LiteralType(options) => Dropdown(options, Absent)
    case FloatType => FloatField(Absent)
    case BoolType => BoolField(Absent)
    case IntType => IntField(Absent)
    case _ => NotDefined
  }

  /** The skeleton panels of attributes `i..`. */
  function SkeletonPanels(fields: seq<Field>, i: nat): seq<Panel>
    requires i <= |fields|
  {
    seq(|fields| - i, j requires 0 <= j < |fields| - i => Panel(fields[i + j].key, Skeleton(fields[i + j].ty)))
  }

  /**
   * Building the editor for an absent value never fails and never asks the
   * schema library about a class: the result is the skeleton of the
   * declared type, whatever `attrsOf` answers.
   */
  lemma {:induction false} FreshIsSkeleton(t: TypeDesc, attrsOf: string -> seq<Field>)
    ensures ShowWidget(t, Absent, attrsOf) == Success(Skeleton(t))
    decreases t, 1, 0
  {
    if t.DictType? {
      FreshFieldsAreSkeleton(t, 0, attrsOf);
      assert SkeletonPanels(t.fields, 0) == Skeleton(t).panels;
    }
  }

  lemma {:induction false} FreshFieldsAreSkeleton(t: TypeDesc, i: nat, attrsOf: string -> seq<Field>)
    requires t.DictType? && i <= |t.fields|
    ensures ShowFields(t, i, Absent, attrsOf) == Success(SkeletonPanels(t.fields, i))
    decreases t, 0, |t.fields| - i
  {
    if i < |t.fields| {
      var f := t.fields[i];
      assert f in t.fields;
      FreshIsSkeleton(f.ty, attrsOf);
      FreshFieldsAreSkeleton(t, i + 1, attrsOf);
      assert SkeletonPanels(t.fields, i) == [Panel(f.key, Skeleton(f.ty))] + SkeletonPanels(t.fields, i + 1);
    }
  }

  /**
   * One iteration of the panel loop of `ObjectWidget.__init__`: the panel
   * for attribute `a`, headed by its name and holding
   * `show_widget(dict_type[key], value)`; a name the class's attribute map
   * lacks raises `KeyError`.
   */
  function AttrPanel(declared: seq<Field>, a: Attr, attrsOf: string -> seq<Field>): (r: Result<Panel, PyError>)
    ensures FindField(declared, a.key).None? ==> r == Failure(KeyError)
    ensures r.Success? ==>
      && r.value.header == a.key
      && FindField(declared, a.key).Some?
      && ShowWidget(declared[FindField(declared, a.key).value].ty, a.val, attrsOf) == Success(r.value.content)
  {
    match FindField(declared, a.key)
    case None => Failure(KeyError)
    case Some(k) =>
      match ShowWidget(declared[k].ty, a.val, attrsOf)
      case Failure(e) => Failure(e)
      case Success(ed) => Success(Panel(a.key, ed))
  }

  /**
   * The panel loop of `ObjectWidget.__init__`: one panel per attribute of
   * the object, in the object's order; the first failing attribute stops the
   * loop. An absent and a present value take the same path.
   */
  function ObjectPanels(declared: seq<Field>, attrs: seq<Attr>, attrsOf: string -> seq<Field>): (r: Result<seq<Panel>, PyError>)
    ensures r.Success? ==> |r.value| == |attrs|
    ensures r.Success? ==> forall j :: 0 <= j < |attrs| ==> AttrPanel(declared, attrs[j], attrsOf) == Success(r.value[j])
  {
    if |attrs| == 0 then Success([])
    else
      match AttrPanel(declared, attrs[0], attrsOf)
      case Failure(e) => Failure(e)
      case Success(p) =>
        match ObjectPanels(declared, attrs[1..], attrsOf)
        case Failure(e) => Failure(e)
        case Success(rest) =>
          var r := [p] + rest;
          assert forall j :: 1 <= j < |attrs| ==> r[j] == rest[j - 1] && attrs[j] == attrs[1..][j - 1];
          Success(r)
  }

  /** The class declares attribute `a`, and its editor builds on `a`'s value. */
  predicate AttrBuilds(declared: seq<Field>, a: Attr, attrsOf: string -> seq<Field>)
  {
    && a.key in FieldKeys(declared)
    && ShowWidget(declared[FindField(declared, a.key).value].ty, a.val, attrsOf).Success?
  }

  /** One attribute's panel is built exactly when the class declares it and its editor builds. */
  lemma AttrPanelSucceeds(declared: seq<Field>, a: Attr, attrsOf: string -> seq<Field>)
    ensures AttrPanel(declared, a, attrsOf).Success? <==> AttrBuilds(declared, a, attrsOf)
  {
  }

  /**
   * The panel loop of `ObjectWidget.__init__` succeeds exactly when every
   * attribute of the object is declared by the class and its editor builds.
   */
  lemma ObjectPanelsBuild(declared: seq<Field>, attrs: seq<Attr>, attrsOf: string -> seq<Field>)
    ensures ObjectPanels(declared, attrs, attrsOf).Success? <==> forall a | a in attrs :: AttrBuilds(declared, a, attrsOf)
  {
    ObjectPanelsSucceeds(declared, attrs, attrsOf);
    forall a | a in attrs
      ensures AttrPanel(declared, a, attrsOf).Success? <==> AttrBuilds(declared, a, attrsOf)
    {
      AttrPanelSucceeds(declared, a, attrsOf);
    }
  }

  /** The same loop fails exactly when some attribute's panel does. */
  lemma {:induction false} ObjectPanelsSucceeds(declared: seq<Field>, attrs: seq<Attr>, attrsOf: string -> seq<Field>)
    ensures ObjectPanels(declared, attrs, attrsOf).Success? <==> forall a | a in attrs :: AttrPanel(declared, a, attrsOf).Success?
    decreases |attrs|
  {
    if |attrs| > 0 {
      ObjectPanelsSucceeds(declared, attrs[1..], attrsOf);
      var head, tail := AttrPanel(declared, attrs[0], attrsOf), ObjectPanels(declared, attrs[1..], attrsOf);
      assert ObjectPanels(declared, attrs, attrsOf).Success? <==> head.Success? && tail.Success?;
      if head.Success? && tail.Success? {
        forall a | a in attrs
          ensures AttrPanel(declared, a, attrsOf).Success?
        {
          if a != attrs[0] {
            assert a in attrs[1..];
          }
        }
      } else if head.Failure? {
        assert attrs[0] in attrs;
      } else {
        var a :| a in attrs[1..] && !AttrPanel(declared, a, attrsOf).Success?;
        assert a in attrs;
      }
    }
  }

  /**
   * What the loop promises, panel by panel: the headers are the object's
   * attribute names in order, every name is declared by the class, and each
   * content is the editor for the declared type of that name.
   */
  lemma ObjectPanelsFaithful(declared: seq<Field>, attrs: seq<Attr>, attrsOf: string -> seq<Field>)
    requires ObjectPanels(declared, attrs, attrsOf).Success?
    ensures var ps := ObjectPanels(declared, attrs, attrsOf).value;
      && Headers(ps) == AttrKeys(attrs)
      && (forall j :: 0 <= j < |attrs| ==> attrs[j].key in FieldKeys(declared))
      && forall j :: 0 <= j < |ps| ==>
           var k := FindField(declared, attrs[j].key);
           k.Some? && ShowWidget(declared[k.value].ty, attrs[j].val, attrsOf) == Success(ps[j].content)
  {
  }

  /** An unset attribute's panel holds the skeleton editor of its declared type. */
  lemma FreshAttrPanel(declared: seq<Field>, a: Attr, attrsOf: string -> seq<Field>)
    requires a.val.Absent? && a.key in FieldKeys(declared)
    ensures AttrPanel(declared, a, attrsOf) == Success(Panel(a.key, Skeleton(declared[FindField(declared, a.key).value].ty)))
  {
    FreshIsSkeleton(declared[FindField(declared, a.key).value].ty, attrsOf);
  }

  /**
   * An object whose attributes are all unset and declared gets, for each,
   * the skeleton editor of its declared type, and the loop never fails.
   */
  lemma {:induction false} FreshObjectPanels(declared: seq<Field>, attrs: seq<Attr>, attrsOf: string -> seq<Field>)
    requires forall j :: 0 <= j < |attrs| ==> attrs[j].val.Absent? && attrs[j].key in FieldKeys(declared)
    ensures var r := ObjectPanels(declared, attrs, attrsOf);
      r.Success? && forall j :: 0 <= j < |attrs| ==>
        r.value[j] == Panel(attrs[j].key, Skeleton(declared[FindField(declared, attrs[j].key).value].ty))
  {
    if |attrs| > 0 {
      FreshAttrPanel(declared, attrs[0], attrsOf);
      FreshObjectPanels(declared, attrs[1..], attrsOf);
      forall j | 0 <= j < |attrs|
        ensures AttrPanel(declared, attrs[j], attrsOf) == Success(Panel(attrs[j].key, Skeleton(declared[FindField(declared, attrs[j].key).value].ty)))
      {
        FreshAttrPanel(declared, attrs[j], attrsOf);
      }
    }
  }
}

=== FILE: pair_list.dfy ===
/**
 * Back-reference pair lists: associations (object 1 ↔ object 2) and
 * discretizations (problem ↔ discretization). Both widgets keep a list of
 * `[name, name]` pairs edited through two text fields, and keep one dataset
 * entry per pair once both names are filled in. The two widgets run the same
 * code with a different entry class, so it is modelled once, by `Kind`.
 */
module PairList {
  import opened Wrappers
  import opened Dataset

  /** Which entry class the list stands for. */
  datatype Kind = Association | Discretization

  /** One element of the list, `[first, second]`. */
  datatype Link = Link(first: Option<string>, second: Option<string>)

  /** `None not in pair`. */
  predicate Complete(p: Link)
  {
    p.first.Some? && p.second.Some?
  }

  /** The entry a pair stands for: `Associate(objet_1, objet_2)` or `Discretize(problem_name, dis)`. */
  function EntryOf(kind: Kind, p: Link): (e: Entry)
    ensures kind == Association ==> e == Associate(p.first, p.second)
    ensures kind == Discretization ==> e == Discretize(p.first, p.second)
  {
    match kind
    case Association => Associate(p.first, p.second)
    case Discretization => Discretize(p.first, p.second)
  }

  /** The entry belongs to this list's class. */
  predicate OfKind(kind: Kind, e: Entry)
  {
    match kind
    case Association => e.Associate?
    case Discretization => e.Discretize?
  }

  /** A text field's value: the empty string means "no name". */
  function Input(text: string): (v: Option<string>)
    ensures v.None? <==> text == ""
    ensures v.Some? ==> v.value == text
  {
    if text == "" then None else Some(text)
  }

  /** The list after an action, and the dataset calls the action issued. */
  datatype Step = Step(list: seq<Link>, calls: seq<Call>)

  /** The pair after field `fieldType` (1: first, anything else: second) receives `text`. */
  function Edit(p: Link, fieldType: int, text: string): (q: Link)
    ensures fieldType == 1 ==> q.first == Input(text) && q.second == p.second
    ensures fieldType != 1 ==> q.first == p.first && q.second == Input(text)
  {
    if fieldType == 1 then Link(Input(text), p.second) else Link(p.first, Input(text))
  }

  /**
   * `change_associate_dataset` / `change_discretize_dataset` as written: a
   * pair that was complete has its entry (found by equality with the old
   * pair) overwritten with the new pair, whether or not the new pair is still
   * complete; a pair completed for the first time gets its entry added.
   */
  function Change(kind: Kind, list: seq<Link>, index: nat, fieldType: int, text: string): (r: Step)
    requires index < |list|
    ensures |r.list| == |list|
    ensures r.list[index] == Edit(list[index], fieldType, text)
    ensures forall j :: 0 <= j < |list| && j != index ==> r.list[j] == list[j]
    ensures Complete(list[index]) ==>
      r.calls == [ReplaceEntry(EntryOf(kind, list[index]), EntryOf(kind, r.list[index]))]
    ensures !Complete(list[index]) && Complete(r.list[index]) ==>
      r.calls == [AddReadObject(EntryOf(kind, r.list[index]))]
    ensures !Complete(list[index]) && !Complete(r.list[index]) ==> r.calls == []
  {
    var prior := list[index];
    var next := Edit(prior, fieldType, text);
    var calls :=
      if Complete(prior) then [ReplaceEntry(EntryOf(kind, prior), EntryOf(kind, next))]
      else if Complete(next) then [AddReadObject(EntryOf(kind, next))]
      else [];
    Step(list[index := next], calls)
  }

  /**
   * The same edit with the entry kept only while the pair is complete: a
   * complete pair that loses a name has its entry deleted instead of
   * overwritten with an incomplete one.
   */
  function ChangeCorrected(kind: Kind, list: seq<Link>, index: nat, fieldType: int, text: string): (r: Step)
    requires index < |list|
    ensures r.list == Change(kind, list, index, fieldType, text).list
    ensures Complete(list[index]) && !Complete(r.list[index]) ==>
      r.calls == [DeleteReadObject(EntryOf(kind, list[index]))]
    ensures !(Complete(list[index]) && !Complete(r.list[index])) ==>
      r.calls == Change(kind, list, index, fieldType, text).calls
  {
    var prior := list[index];
    var next := Edit(prior, fieldType, text);
    Step(list[index := next], SyncCalls(kind, prior, next))
  }

  /** The one call (or none) that moves the dataset from `prior`'s entry to `next`'s. */
  function SyncCalls(kind: Kind, prior: Link, next: Link): seq<Call>
  {
    if Complete(prior) && Complete(next) then [ReplaceEntry(EntryOf(kind, prior), EntryOf(kind, next))]
    else if Complete(prior) then [DeleteReadObject(EntryOf(kind, prior))]
    else if Complete(next) then [AddReadObject(EntryOf(kind, next))]
    else []
  }

  /** What a text field shows for a name: the name, or `""` for no name. */
  function Field(v: Option<string>): (t: string)
    ensures t == "" <==> v.None? || v == Some("")
  {
    match v
    case None => ""
    case Some(name) => name
  }

  /** No name in the list is the empty string (text input never stores one). */
  predicate NoEmptyNames(list: seq<Link>)
  {
    forall j :: 0 <= j < |list| ==> list[j].first != Some("") && list[j].second != Some("")
  }

  /**
   * `rebuild_panels`: one panel per pair, in list order, whose two text
   * fields show the pair's names; panel `i` edits and deletes pair `i`.
   */
  function Panels(list: seq<Link>): (panels: seq<(string, string)>)
    ensures |panels| == |list|
    ensures forall j :: 0 <= j < |list| ==> panels[j] == (Field(list[j].first), Field(list[j].second))
  {
    seq(|list|, j requires 0 <= j < |list| => (Field(list[j].first), Field(list[j].second)))
  }

  /** A field read back through `Input` gives the name it shows, when no name is empty. */
  lemma FieldRoundTrip(v: Option<string>)
    requires v != Some("")
    ensures Input(Field(v)) == v
  {
  }

  /**
   * The panels are faithful to the list: reading each panel's two fields back
   * gives the list, and typing a field's own text again leaves the pair as it is.
   */
  lemma PanelsRoundTrip(list: seq<Link>)
    requires NoEmptyNames(list)
    ensures var panels := Panels(list);
      forall j :: 0 <= j < |list| ==>
        && Link(Input(panels[j].0), Input(panels[j].1)) == list[j]
        && Edit(list[j], 1, panels[j].0) == list[j]
        && Edit(list[j], 2, panels[j].1) == list[j]
  {
    forall j | 0 <= j < |list|
      ensures Link(Input(Field(list[j].first)), Input(Field(list[j].second))) == list[j]
    {
      FieldRoundTrip(list[j].first);
      FieldRoundTrip(list[j].second);
    }
  }

  /** Edits never store an empty name, so the panels stay faithful after each one. */
  lemma ChangeKeepsNoEmptyNames(kind: Kind, list: seq<Link>, index: nat, fieldType: int, text: string)
    requires index < |list|
    requires NoEmptyNames(list)
    ensures NoEmptyNames(Change(kind, list, index, fieldType, text).list)
    ensures NoEmptyNames(ChangeCorrected(kind, list, index, fieldType, text).list)
  {
  }

  /** `add_associate` / `add_discretize`: append `[None, None]`; the dataset is not told. */
  function Add(list: seq<Link>): (r: Step)
    ensures r.list == list + [Link(None, None)]
    ensures r.calls == []
  {
    Step(list + [Link(None, None)], [])
  }

  /**
   * `delete_associate` / `delete_discretize`: out-of-range indices are
   * ignored; otherwise the entry for the pair is deleted (complete or not)
   * and the element removed, the rest keeping their order.
   */
  function Delete(kind: Kind, list: seq<Link>, index: int): (r: Step)
    ensures !(0 <= index < |list|) ==> r == Step(list, [])
    ensures 0 <= index < |list| ==>
      && r.calls == [DeleteReadObject(EntryOf(kind, list[index]))]
      && |r.list| == |list| - 1
      && (forall j :: 0 <= j < index ==> r.list[j] == list[j])
      && (forall j :: index <= j < |r.list| ==> r.list[j] == list[j + 1])
  {
    if 0 <= index < |list| then
      Step(list[..index] + list[index + 1..], [DeleteReadObject(EntryOf(kind, list[index]))])
    else Step(list, [])
  }

  /** The entry a complete pair owns, or nothing. */
  function Owned(kind: Kind, p: Link): multiset<Entry>
  {
    if Complete(p) then multiset{EntryOf(kind, p)} else multiset{}
  }

  /** The entries the list's complete pairs stand for, with multiplicity. */
  function PairEntries(kind: Kind, s: seq<Link>): multiset<Entry>
  {
    if |s| == 0 then multiset{} else Owned(kind, s[0]) + PairEntries(kind, s[1..])
  }

  /** An entry whose two names are both present. */
  predicate CompleteEntry(e: Entry)
  {
    match e
    case Associate(a, b) => a.Some? && b.Some?
    case Discretize(a, b) => a.Some? && b.Some?
    case _ => false
  }

  /** The dataset holds no other entry of this class than the ones the list accounts for. */
  predicate NoneOfKind(kind: Kind, base: multiset<Entry>)
  {
    forall e :: e in base ==> !OfKind(kind, e)
  }

  lemma {:induction false} PairEntriesAppend(kind: Kind, a: seq<Link>, b: seq<Link>)
    ensures PairEntries(kind, a + b) == PairEntries(kind, a) + PairEntries(kind, b)
    decreases |a|
  {
    if |a| == 0 {
      assert a + b == b;
    } else {
      assert (a + b)[1..] == a[1..] + b;
      PairEntriesAppend(kind, a[1..], b);
    }
  }

  lemma {:induction false} PairEntriesShape(kind: Kind, s: seq<Link>)
    ensures forall e :: e in PairEntries(kind, s) ==> OfKind(kind, e) && CompleteEntry(e)
    decreases |s|
  {
    if |s| > 0 {
      PairEntriesShape(kind, s[1..]);
    }
  }

  lemma PairEntriesSplit(kind: Kind, s: seq<Link>, i: nat)
    requires i < |s|
    ensures PairEntries(kind, s) == PairEntries(kind, s[..i]) + Owned(kind, s[i]) + PairEntries(kind, s[i+1..])
  {
    assert s == s[..i] + ([s[i]] + s[i+1..]);
    PairEntriesAppend(kind, s[..i], [s[i]] + s[i+1..]);
    assert ([s[i]] + s[i+1..])[1..] == s[i+1..];
  }

  /** Replacing one pair swaps its owned entry. */
  lemma PairEntriesUpdate(kind: Kind, s: seq<Link>, i: nat, x: Link)
    requires i < |s|
    ensures PairEntries(kind, s[i := x]) + Owned(kind, s[i]) == PairEntries(kind, s) + Owned(kind, x)
  {
    var t := s[i := x];
    assert t[..i] == s[..i];
    assert t[i+1..] == s[i+1..];
    PairEntriesSplit(kind, s, i);
    PairEntriesSplit(kind, t, i);
  }

  /** Removing one pair drops its owned entry. */
  lemma PairEntriesRemove(kind: Kind, s: seq<Link>, i: nat)
    requires i < |s|
    ensures PairEntries(kind, s[..i] + s[i+1..]) + Owned(kind, s[i]) == PairEntries(kind, s)
  {
    PairEntriesSplit(kind, s, i);
    PairEntriesAppend(kind, s[..i], s[i+1..]);
  }

  /** Multiset bookkeeping: trading `o` for `n` inside `p` and then adding `b`. */
  lemma Trade(b: multiset<Entry>, p: multiset<Entry>, p2: multiset<Entry>, o: multiset<Entry>, n: multiset<Entry>)
    requires p2 + o == p + n
    requires o <= p
    ensures b + p - o + n == b + p2
  {
    forall x ensures (b + p - o + n)[x] == (b + p2)[x] {
      assert (p2 + o)[x] == (p + n)[x];
    }
  }

  /** Taking away or adding nothing leaves a multiset as it is. */
  lemma NothingTraded(x: multiset<Entry>)
    ensures x - multiset{} == x && x + multiset{} == x
  {
  }

  /** `SyncCalls` trades the entry `prior` owns for the one `next` owns. */
  lemma SyncCallsTrade(kind: Kind, base: multiset<Entry>, p: multiset<Entry>, p2: multiset<Entry>, prior: Link, next: Link)
    requires p2 + Owned(kind, prior) == p + Owned(kind, next)
    requires Owned(kind, prior) <= p
    ensures Replay(base + p, SyncCalls(kind, prior, next)) == Some(base + p2)
  {
    var calls := SyncCalls(kind, prior, next);
    var o, n := Owned(kind, prior), Owned(kind, next);
    var m := base + p;
    Trade(base, p, p2, o, n);
    NothingTraded(m);
    NothingTraded(m - o);
    if calls == [] {
      assert Replay(m, calls) == Some(m);
    } else {
      ReplayOne(m, calls[0]);
      assert calls == [calls[0]];
      if Complete(prior) && Complete(next) {
        assert EntryOf(kind, prior) in p;
        assert Apply(m, calls[0]) == Some(m - o + n);
      } else if Complete(prior) {
        assert Apply(m, calls[0]) == Some(m - o);
      } else {
        assert Apply(m, calls[0]) == Some(m + n);
      }
    }
  }

  /**
   * With the correction, the dataset's entries of this class are exactly the
   * entries of the complete pairs after every edit: nothing stale, nothing
   * doubled, and every overwrite finds the entry it looks up.
   */
  lemma ChangeCorrectedKeepsEntries(kind: Kind, base: multiset<Entry>, list: seq<Link>, index: nat, fieldType: int, text: string)
    requires index < |list|
    requires NoneOfKind(kind, base)
    ensures var r := ChangeCorrected(kind, list, index, fieldType, text);
      Replay(base + PairEntries(kind, list), r.calls) == Some(base + PairEntries(kind, r.list))
  {
    var prior := list[index];
    var next := Edit(prior, fieldType, text);
    var list2 := list[index := next];
    PairEntriesUpdate(kind, list, index, next);
    PairEntriesSplit(kind, list, index);
    SyncCallsTrade(kind, base, PairEntries(kind, list), PairEntries(kind, list2), prior, next);
  }

  /** Appending a blank pair leaves the entries alone. */
  lemma AddKeepsEntries(kind: Kind, base: multiset<Entry>, list: seq<Link>)
    ensures var r := Add(list);
      Replay(base + PairEntries(kind, list), r.calls) == Some(base + PairEntries(kind, r.list))
  {
    var blank := [Link(None, None)];
    PairEntriesAppend(kind, list, blank);
    assert blank[1..] == [];
    assert PairEntries(kind, blank) == multiset{};
    assert PairEntries(kind, list + blank) == PairEntries(kind, list);
  }

  /** Deleting an entry that is not there changes nothing. */
  lemma RemoveAbsent(m: multiset<Entry>, e: Entry)
    requires e !in m
    ensures m - multiset{e} == m
  {
    assert forall x :: (m - multiset{e})[x] == m[x];
  }

  /** The one call of a deletion removes the pair's entry, if it is there. */
  lemma DeleteReplay(kind: Kind, m: multiset<Entry>, list: seq<Link>, index: int)
    requires 0 <= index < |list|
    ensures Replay(m, Delete(kind, list, index).calls) == Some(m - multiset{EntryOf(kind, list[index])})
  {
    ReplayOne(m, DeleteReadObject(EntryOf(kind, list[index])));
  }

  /** An incomplete pair's entry is in neither the rest of the dataset nor the list's entries. */
  lemma IncompleteAbsent(kind: Kind, base: multiset<Entry>, list: seq<Link>, index: int)
    requires 0 <= index < |list| && !Complete(list[index])
    requires NoneOfKind(kind, base)
    ensures EntryOf(kind, list[index]) !in base + PairEntries(kind, list)
  {
    PairEntriesShape(kind, list);
  }

  /**
   * Deleting keeps the entries exact: a complete pair's entry is removed; an
   * incomplete pair has no entry, so its deletion finds nothing to remove.
   */
  lemma DeleteKeepsEntries(kind: Kind, base: multiset<Entry>, list: seq<Link>, index: int)
    requires NoneOfKind(kind, base)
    ensures var r := Delete(kind, list, index);
      Replay(base + PairEntries(kind, list), r.calls) == Some(base + PairEntries(kind, r.list))
  {
    if 0 <= index < |list| {
      var p, p2 := PairEntries(kind, list), PairEntries(kind, list[..index] + list[index + 1..]);
      var e := EntryOf(kind, list[index]);
      var m := base + p;
      DeleteReplay(kind, m, list, index);
      PairEntriesRemove(kind, list, index);
      if Complete(list[index]) {
        Trade(base, p, p2, multiset{e}, multiset{});
        NothingTraded(m - multiset{e});
      } else {
        NothingTraded(p2);
        IncompleteAbsent(kind, base, list, index);
        RemoveAbsent(m, e);
      }
    }
  }

  /** What the user can do to a pair list: type into a field, add a pair, delete a pair. */
  datatype Action =
    | EditAction(index: nat, fieldType: int, text: string)
    | AddAction
    | DeleteAction(position: int)

  /** One action on the corrected widget. */
  function Act(kind: Kind, list: seq<Link>, a: Action): (r: Step)
    requires a.EditAction? ==> a.index < |list|
    ensures |r.calls| <= 1
    ensures a.AddAction? ==> r == Add(list)
    ensures a.DeleteAction? ==> r == Delete(kind, list, a.position)
  {
    match a
    case EditAction(index, fieldType, text) => ChangeCorrected(kind, list, index, fieldType, text)
    case AddAction => Add(list)
    case DeleteAction(position) => Delete(kind, list, position)
  }

  /** Every edit in the run targets a pair that exists when it happens (panels only edit their own pair). */
  predicate InRange(kind: Kind, list: seq<Link>, actions: seq<Action>)
    decreases |actions|
  {
    |actions| == 0 ||
      ((actions[0].EditAction? ==> actions[0].index < |list|)
       && InRange(kind, Act(kind, list, actions[0]).list, actions[1..]))
  }

  /** A run of actions on the corrected widget: the final list and all the calls, in order. */
  function RunActions(kind: Kind, list: seq<Link>, actions: seq<Action>): (r: Step)
    requires InRange(kind, list, actions)
    decreases |actions|
    ensures |r.calls| <= |actions|
  {
    if |actions| == 0 then Step(list, [])
    else
      var s := Act(kind, list, actions[0]);
      var rest := RunActions(kind, s.list, actions[1..]);
      Step(rest.list, s.calls + rest.calls)
  }

  /** One action of the corrected widget keeps the entries exact. */
  lemma ActKeepsEntries(kind: Kind, base: multiset<Entry>, list: seq<Link>, a: Action)
    requires NoneOfKind(kind, base)
    requires a.EditAction? ==> a.index < |list|
    ensures var r := Act(kind, list, a);
      Replay(base + PairEntries(kind, list), r.calls) == Some(base + PairEntries(kind, r.list))
  {
    match a
    case EditAction(index, fieldType, text) => ChangeCorrectedKeepsEntries(kind, base, list, index, fieldType, text);
    case AddAction => AddKeepsEntries(kind, base, list);
    case DeleteAction(position) => DeleteKeepsEntries(kind, base, list, position);
  }

  /**
   * With the correction, after any run of edits, additions and deletions the
   * dataset holds exactly one entry per complete pair and nothing else of
   * this class, and no overwrite misses its entry along the way.
   */
  lemma {:induction false} RunKeepsEntries(kind: Kind, base: multiset<Entry>, list: seq<Link>, actions: seq<Action>)
    requires NoneOfKind(kind, base)
    requires InRange(kind, list, actions)
    ensures var r := RunActions(kind, list, actions);
      Replay(base + PairEntries(kind, list), r.calls) == Some(base + PairEntries(kind, r.list))
    decreases |actions|
  {
    if |actions| > 0 {
      var s := Act(kind, list, actions[0]);
      ActKeepsEntries(kind, base, list, actions[0]);
      RunKeepsEntries(kind, base, s.list, actions[1..]);
      ReplayAppend(base + PairEntries(kind, list), s.calls, RunActions(kind, s.list, actions[1..]).calls);
    }
  }

  lemma PairEntriesSingle(kind: Kind, p: Link)
    ensures PairEntries(kind, [p]) == Owned(kind, p)
  {
    assert [p][1..] == [];
  }

  /**
   * The as-written edit breaks that bookkeeping: clearing the first name of
   * the complete pair `[a, b]` overwrites its entry with `(None, b)`, and
   * filling in `c` then adds `(c, b)` beside it — two entries, one of them
   * incomplete, for a single pair.
   */
  lemma ClearThenRefillCounterexample(kind: Kind)
    ensures var l0 := [Link(Some("a"), Some("b"))];
      var s1 := Change(kind, l0, 0, 1, "");
      var s2 := Change(kind, s1.list, 0, 1, "c");
      && s2.list == [Link(Some("c"), Some("b"))]
      && Replay(PairEntries(kind, l0), s1.calls + s2.calls) ==
           Some(multiset{EntryOf(kind, Link(None, Some("b"))), EntryOf(kind, Link(Some("c"), Some("b")))})
      && PairEntries(kind, s2.list) == multiset{EntryOf(kind, Link(Some("c"), Some("b")))}
  {
    var ab, nb, cb := Link(Some("a"), Some("b")), Link(None, Some("b")), Link(Some("c"), Some("b"));
    var eab, enb, ecb := EntryOf(kind, ab), EntryOf(kind, nb), EntryOf(kind, cb);
    var s1 := ClearStep(kind);
    var s2 := RefillStep(kind);
    PairEntriesSingle(kind, ab);
    PairEntriesSingle(kind, cb);
    var m0, m1 := multiset{eab}, multiset{enb};
    ReplayAppend(m0, s1.calls, s2.calls);
    ReplayOne(m0, s1.calls[0]);
    assert m0 - multiset{eab} + multiset{enb} == m1;
    ReplayOne(m1, s2.calls[0]);
    assert m1 + multiset{ecb} == multiset{enb, ecb};
  }

  /** Clearing the first name of `[a, b]` overwrites its entry with `(None, b)`. */
  lemma ClearStep(kind: Kind) returns (s1: Step)
    ensures s1 == Change(kind, [Link(Some("a"), Some("b"))], 0, 1, "")
    ensures s1.list == [Link(None, Some("b"))]
    ensures s1.calls == [ReplaceEntry(EntryOf(kind, Link(Some("a"), Some("b"))), EntryOf(kind, Link(None, Some("b"))))]
  {
    s1 := Change(kind, [Link(Some("a"), Some("b"))], 0, 1, "");
    assert Input("") == None;
  }

  /** Typing `c` into the cleared field of `[None, b]` adds the entry `(c, b)`. */
  lemma RefillStep(kind: Kind) returns (s2: Step)
    ensures s2 == Change(kind, [Link(None, Some("b"))], 0, 1, "c")
    ensures s2.list == [Link(Some("c"), Some("b"))]
    ensures s2.calls == [AddReadObject(EntryOf(kind, Link(Some("c"), Some("b"))))]
  {
    s2 := Change(kind, [Link(None, Some("b"))], 0, 1, "c");
    assert Input("c") == Some("c");
  }

  /** On the same edits the corrected widget leaves exactly the entry `(c, b)`. */
  lemma ClearThenRefillCorrected(kind: Kind)
    ensures var l0 := [Link(Some("a"), Some("b"))];
      var c1 := ChangeCorrected(kind, l0, 0, 1, "");
      var c2 := ChangeCorrected(kind, c1.list, 0, 1, "c");
      Replay(PairEntries(kind, l0), c1.calls + c2.calls) == Some(multiset{EntryOf(kind, Link(Some("c"), Some("b")))})
  {
    var ab, nb, cb := Link(Some("a"), Some("b")), Link(None, Some("b")), Link(Some("c"), Some("b"));
    var l0 := [ab];
    var c1 := ChangeCorrected(kind, l0, 0, 1, "");
    assert Input("") == None;
    assert c1.list == [nb];
    var c2 := ChangeCorrected(kind, c1.list, 0, 1, "c");
    assert Input("c") == Some("c");
    assert c2.list == [cb];
    var empty: multiset<Entry> := multiset{};
    var m0, m1, m2 := PairEntries(kind, l0), PairEntries(kind, c1.list), PairEntries(kind, c2.list);
    assert empty + m0 == m0;
    ChangeCorrectedKeepsEntries(kind, empty, l0, 0, 1, "");
    assert Replay(m0, c1.calls) == Some(m1);
    assert empty + m1 == m1;
    ChangeCorrectedKeepsEntries(kind, empty, c1.list, 0, 1, "c");
    assert empty + m2 == m2;
    assert Replay(m1, c2.calls) == Some(m2);
    ReplayAppend(m0, c1.calls, c2.calls);
    PairEntriesSingle(kind, cb);
    assert m2 == multiset{EntryOf(kind, cb)};
  }
}

=== FILE: problem_widget.dfy ===
/** `ProblemWidget`: the named-entity list instantiated for problems. */
module ProblemWidget {
  import opened Wrappers
  import opened EntityWidget

  /** `update_menu` on `pb_list`. */
  function UpdateMenu(pbList: seq<Pair>, change: Option<Event>, index: nat): (r: Step)
    requires change.Some? ==> index < |pbList|
    ensures change.None? ==> r.list == pbList && r.report.None?
    ensures change.Some? ==>
      && |r.list| == |pbList|
      && (forall j :: 0 <= j < |pbList| && j != index ==> r.list[j] == pbList[j])
      && r.report == Some(Report(index, if change.value.NameEdit? then Identifier else Object,
                                 Complete(pbList[index]), pbList[index].ident))
    ensures change.Some? && change.value.NameEdit? ==>
      r.list[index] == Pair(Some(change.value.name), pbList[index].obj)
    ensures change.Some? && change.value.TypeEdit? ==>
      r.list[index] == Pair(pbList[index].ident, Some(Retype(pbList[index].obj, change.value.typeName)))
  {
    EntityWidget.UpdateMenu(pbList, change, index)
  }

  /** `add_pb`: the new problem is blank and sits at the old length. */
  function AddPb(pbList: seq<Pair>): (r: seq<Pair>)
    ensures r == pbList + [Blank]
  {
    AddEntity(pbList)
  }
}

=== FILE: schema.dfy ===
/**
 * The shapes the editors work on: type descriptors, as the schema library
 * reports them for a class's attributes, and the values found in a dataset
 * object.
 */
module Schema {
  import opened Wrappers

  /**
   * A declared type. `DictType` is the attribute map of a class (a Python
   * dict of name → type, in declaration order); `ClassType` a class the
   * schema library exports (`hasattr(ta, name)`); `ListType` a Python list
   * of types (the schema's way of saying "list of the first one");
   * `GenericList` a `typing` list such as `List[int]`; `OtherType`
   * everything else.
   */
  datatype TypeDesc =
    | DictType(fields: seq<Field>)
    | ClassType(name: string)
    | StrType
    | LiteralType(options: seq<string>)
    | FloatType
    | BoolType
    | IntType
    | ListType(elems: seq<TypeDesc>)
    | GenericList(elem: TypeDesc)
    | OtherType

  /** One entry of an attribute map. */
  datatype Field = Field(key: string, ty: TypeDesc)

  /**
   * A value held by an attribute. Floats are kept as the text Python prints
   * for them (no arithmetic is done on them). `RecordVal` is an object: its
   * runtime class name and its attribute values in order (a Python dict when
   * converted by `obj_to_dict`).
   */
  datatype Value =
    | Absent
    | StrVal(s: string)
    | FloatVal(repr: string)
    | BoolVal(b: bool)
    | IntVal(i: int)
    | ListVal(items: seq<Value>)
    | RecordVal(runtime: string, attrs: seq<Attr>)

  /** One attribute value. */
  datatype Attr = Attr(key: string, val: Value)

  /** One step of a path from the edited root object: an attribute name or a list index. */
  datatype PathStep = Key(name: string) | Index(i: nat)

  /** The keys of an attribute map, in order. */
  function FieldKeys(fields: seq<Field>): (keys: seq<string>)
    ensures |keys| == |fields|
    ensures forall j :: 0 <= j < |fields| ==> keys[j] == fields[j].key
  {
    seq(|fields|, j requires 0 <= j < |fields| => fields[j].key)
  }

  /** The keys of an object's attributes, in order. */
  function AttrKeys(attrs: seq<Attr>): (keys: seq<string>)
    ensures |keys| == |attrs|
    ensures forall j :: 0 <= j < |attrs| ==> keys[j] == attrs[j].key
  {
    seq(|attrs|, j requires 0 <= j < |attrs| => attrs[j].key)
  }

  /** Python's `d[key]` on an attribute dict: the first entry with that key, or `None` (a `KeyError`). */
  function FindAttr(attrs: seq<Attr>, key: string): (k: Option<nat>)
    ensures k.None? <==> key !in AttrKeys(attrs)
    ensures k.Some? ==> k.value < |attrs| && attrs[k.value].key == key && key !in AttrKeys(attrs[..k.value])
  {
    if |attrs| == 0 then None
    else if attrs[0].key == key then Some(0)
    else
      match FindAttr(attrs[1..], key)
      case None =>
        assert AttrKeys(attrs) == [attrs[0].key] + AttrKeys(attrs[1..]);
        None
      case Some(k) =>
        assert AttrKeys(attrs[..k + 1]) == [attrs[0].key] + AttrKeys(attrs[1..][..k]);
        Some(k + 1)
  }

  /** The same lookup in an attribute map of types. */
  function FindField(fields: seq<Field>, key: string): (k: Option<nat>)
    ensures k.None? <==> key !in FieldKeys(fields)
    ensures k.Some? ==> k.value < |fields| && fields[k.value].key == key && key !in FieldKeys(fields[..k.value])
  {
    if |fields| == 0 then None
    else if fields[0].key == key then Some(0)
    else
      match FindField(fields[1..], key)
      case None =>
        assert FieldKeys(fields) == [fields[0].key] + FieldKeys(fields[1..]);
        None
      case Some(k) =>
        assert FieldKeys(fields[..k + 1]) == [fields[0].key] + FieldKeys(fields[1..][..k]);
        Some(k + 1)
  }
}

=== FILE: scheme_widget.dfy ===
/** `SchemeWidget`: the named-entity list instantiated for time schemes. */
module SchemeWidget {
  import opened Wrappers
  import opened EntityWidget

  /** `update_menu` on `sch_list`. */
  function UpdateMenu(schList: seq<Pair>, change: Option<Event>, index: nat): (r: Step)
    requires change.Some? ==> index < |schList|
    ensures change.None? ==> r.list == schList && r.report.None?
    ensures change.Some? ==>
      && |r.list| == |schList|
      && (forall j :: 0 <= j < |schList| && j != index ==> r.list[j] == schList[j])
      && r.report == Some(Report(index, if change.value.NameEdit? then Identifier else Object,
                                 Complete(schList[index]), schList[index].ident))
    ensures change.Some? && change.value.NameEdit? ==>
      r.list[index] == Pair(Some(change.value.name), schList[index].obj)
    ensures change.Some? && change.value.TypeEdit? ==>
      r.list[index] == Pair(schList[index].ident, Some(Retype(schList[index].obj, change.value.typeName)))
  {
    EntityWidget.UpdateMenu(schList, change, index)
  }

  /** `add_sch`: the new scheme is blank and sits at the old length. */
  function AddSch(schList: seq<Pair>): (r: seq<Pair>)
    ensures r == schList + [Blank]
  {
    AddEntity(schList)
  }
}

=== FILE: select_widget.dfy ===
/**
 * The subclass selector: a drop-down of the subclasses of a declared class
 * and a container holding the editor of the chosen class.
 */
module SelectWidget {
  import opened Wrappers
  import opened Dataset
  import opened Schema

  /**
   * The editor placed in the container, with the arguments it is built
   * from: the object, its class (marked as not a list), and the root object,
   * path and undo history passed down unchanged.
   */
  datatype ChildEditor = ChildEditor(obj: Obj, declared: string, isList: bool,
                                     readObject: Obj, keyPath: seq<PathStep>, changeList: seq<Obj>)

  /** The selector's value, the container's editors, and what is passed down to them. */
  datatype Selector = Selector(selected: Option<string>, children: seq<ChildEditor>,
                               readObject: Obj, keyPath: seq<PathStep>, changeList: seq<Obj>)

  /** The editor for `o` shown as an object of class `cls`. */
  function EditorOf(o: Obj, cls: string, readObject: Obj, keyPath: seq<PathStep>, changeList: seq<Obj>): (c: ChildEditor)
    ensures c.obj == o && c.declared == cls && !c.isList
    ensures c.readObject == readObject && c.keyPath == keyPath && c.changeList == changeList
  {
    ChildEditor(o, cls, false, readObject, keyPath, changeList)
  }

  /**
   * `SelectWidget.__init__`, ending with its own `change_class(skip=True)`:
   * the selector shows the runtime class of the current object, or nothing
   * without one; the container holds an editor for the object only when
   * there is one and its class is not the declared class itself.
   */
  function SelectInit(current: Option<Obj>, initialType: string,
                      readObject: Obj, keyPath: seq<PathStep>, changeList: seq<Obj>): (s: Selector)
    ensures s.selected == (if current.Some? then Some(TypeName(current.value)) else None)
    ensures |s.children| <= 1
    ensures |s.children| == 1 <==> current.Some? && TypeName(current.value) != initialType
    ensures |s.children| == 1 ==>
      s.children[0] == EditorOf(current.value, TypeName(current.value), readObject, keyPath, changeList)
    ensures s.readObject == readObject && s.keyPath == keyPath && s.changeList == changeList
  {
    var selected := if current.Some? then Some(TypeName(current.value)) else None;
    var children :=
      if current.Some? && initialType != TypeName(current.value) then
        [EditorOf(current.value, TypeName(current.value), readObject, keyPath, changeList)]
      else [];
    var built := Selector(selected, children, readObject, keyPath, changeList);
    match ChangeClass(built, {}, true)
    case Success(s) => s
    case Failure(_) => built
  }

  /**
   * `change_class(event, skip)`: with `skip` nothing happens; otherwise the
   * class named by the selector is looked up among the classes the schema
   * module defines (`known`) — no selection, or an unknown name, raises
   * `KeyError` — and the container is replaced by exactly one editor, for a
   * freshly built object of that class.
   */
  function ChangeClass(s: Selector, known: set<string>, skip: bool): (r: Result<Selector, PyError>)
    ensures skip ==> r == Success(s)
    ensures !skip ==> (r.Failure? <==> s.selected.None? || s.selected.value !in known)
    ensures !skip && r.Success? ==>
      && r.value.children == [EditorOf(Default(s.selected.value), s.selected.value, s.readObject, s.keyPath, s.changeList)]
      && r.value.selected == s.selected
      && r.value.readObject == s.readObject && r.value.keyPath == s.keyPath && r.value.changeList == s.changeList
  {
    if skip then Success(s)
    else if s.selected.None? || s.selected.value !in known then Failure(KeyError)
    else
      var cls := s.selected.value;
      Success(s.(children := [EditorOf(Default(cls), cls, s.readObject, s.keyPath, s.changeList)]))
  }

  /** The user picks `cls` in the drop-down, which sets its value and fires `change_class`. */
  function Choose(s: Selector, cls: string, known: set<string>): (r: Result<Selector, PyError>)
    ensures r.Failure? <==> cls !in known
    ensures r.Success? ==> r.value.selected == Some(cls) && |r.value.children| == 1
  {
    ChangeClass(s.(selected := Some(cls)), known, false)
  }

  /**
   * Choosing is idempotent, and it discards what the container held: two
   * selectors that differ only in their children end up equal after the
   * same choice.
   */
  lemma ChooseForgetsContent(s: Selector, other: seq<ChildEditor>, cls: string, known: set<string>)
    requires cls in known
    ensures Choose(s, cls, known).Success?
    ensures Choose(Choose(s, cls, known).value, cls, known) == Choose(s, cls, known)
    ensures Choose(s.(children := other), cls, known) == Choose(s, cls, known)
  {
  }

  /**
   * The selection and the editor it builds agree: the new editor's object
   * has the chosen class as its runtime class, and a selector opened on
   * that object with the chosen class as declared type shows the same
   * choice and needs no nested editor.
   */
  lemma ChoiceRoundTrip(s: Selector, cls: string, known: set<string>)
    requires cls in known
    ensures var r := Choose(s, cls, known).value;
      && TypeName(r.children[0].obj) == cls
      && var reopened := SelectInit(Some(r.children[0].obj), cls, s.readObject, s.keyPath, s.changeList);
         reopened.selected == r.selected && reopened.children == []
  {
  }
}

=== FILE: solve_widget.dfy ===
/**
 * The solve widget: one switch per complete problem, saying whether the
 * dataset asks for that problem to be solved. `solveList` is the list of
 * problem names the dataset solves.
 */
module SolveWidget {
  import opened Wrappers
  import opened Dataset
  import opened EntityWidget

  /** A switch: the problem it stands for, and whether it starts on. */
  datatype Switch = Switch(pbName: string, on: bool)

  /** The switch `rebuild_panels` builds for a complete problem pair. */
  function SwitchFor(p: Pair, solveList: seq<string>): (s: Switch)
    requires Complete(p)
    ensures s.pbName == p.ident.value
    ensures s.on <==> p.ident.value in solveList
  {
    Switch(p.ident.value, p.ident.value in solveList)
  }

  /** Reference definition: the switches of the complete pairs, in list order. */
  function Switches(pbs: seq<Pair>, solveList: seq<string>): seq<Switch>
    requires forall k :: 0 <= k < |pbs| ==> Complete(pbs[k])
  {
    seq(|pbs|, k requires 0 <= k < |pbs| => SwitchFor(pbs[k], solveList))
  }

  /**
   * `rebuild_panels`: walks `pbList`, skips every pair with a missing side,
   * and builds a switch for each other pair, on exactly when its name is in
   * `solveList`.
   */
  method RebuildPanels(pbList: seq<Pair>, solveList: seq<string>) returns (switches: seq<Switch>)
    ensures |switches| == CountComplete(pbList)
    ensures switches == Switches(Completes(pbList), solveList)
    ensures forall k :: 0 <= k < |switches| ==>
      && Some(switches[k].pbName) == Completes(pbList)[k].ident
      && (switches[k].on <==> switches[k].pbName in solveList)
  {
    switches := [];
    var i := 0;
    while i < |pbList|
      invariant 0 <= i <= |pbList|
      invariant switches == Switches(Completes(pbList[..i]), solveList)
    {
      var pb := pbList[i];
      assert pbList[..i + 1] == pbList[..i] + [pb];
      CompletesAppend(pbList[..i], [pb]);
      CompletesSingle(pb);
      if pb.ident.Some? && pb.obj.Some? {
        switches := switches + [SwitchFor(pb, solveList)];
      }
      i := i + 1;
    }
    assert pbList[..i] == pbList;
  }

  /** After a switch event: the new `solveList`, the calls issued, and the exception raised, if any. */
  datatype Toggle = Toggle(solveList: seq<string>, calls: seq<Call>, error: Option<PyError>)

  /** Where `list.remove(x)` looks: the first position holding `x`. */
  function FirstIndex(s: seq<string>, x: string): (k: nat)
    requires x in s
    ensures k < |s| && s[k] == x
    ensures x !in s[..k]
  {
    if s[0] == x then 0
    else
      var k := 1 + FirstIndex(s[1..], x);
      assert s[..k] == [s[0]] + s[1..][..k - 1];
      k
  }

  /** `list.remove(x)`: drop the first occurrence of `x`, keeping the rest in order. */
  function RemoveFirst(s: seq<string>, x: string): (r: seq<string>)
    requires x in s
    ensures |r| == |s| - 1
    ensures multiset(r) == multiset(s) - multiset{x}
    ensures var k := FirstIndex(s, x);
      (forall j :: 0 <= j < k ==> r[j] == s[j]) && (forall j :: k <= j < |r| ==> r[j] == s[j + 1])
  {
    var k := FirstIndex(s, x);
    assert s == s[..k] + [s[k]] + s[k + 1..];
    s[..k] + s[k + 1..]
  }

  /**
   * `change_solve_dataset` for the switch of problem `ident`, now `on`:
   * turning on asks the dataset to solve the problem and leaves `solveList`
   * alone; turning off deletes the `Solve` entry and then removes the name
   * from `solveList`, which raises `ValueError` (after the delete was issued)
   * when the name is not there.
   */
  function ChangeSolve(solveList: seq<string>, ident: string, on: bool): (r: Toggle)
    ensures on ==> r == Toggle(solveList, [SolveProblem(ident)], None)
    ensures !on ==> r.calls == [DeleteReadObject(Solve(ident))]
    ensures !on ==> (r.error.None? <==> ident in solveList)
    ensures !on && ident in solveList ==> multiset(r.solveList) == multiset(solveList) - multiset{ident}
    ensures !on && ident !in solveList ==> r == Toggle(solveList, [DeleteReadObject(Solve(ident))], Some(ValueError))
  {
    if on then Toggle(solveList, [SolveProblem(ident)], None)
    else if ident in solveList then Toggle(RemoveFirst(solveList, ident), [DeleteReadObject(Solve(ident))], None)
    else Toggle(solveList, [DeleteReadObject(Solve(ident))], Some(ValueError))
  }

  /**
   * A switch that starts off and is turned on, then off again, raises
   * `ValueError`: turning it on never put the name into `solveList`.
   */
  lemma OnThenOffCounterexample(ident: string)
    ensures var t1 := ChangeSolve([], ident, true);
      var t2 := ChangeSolve(t1.solveList, ident, false);
      SwitchFor(Pair(Some(ident), Some(Default("Pb_base"))), []).on == false
      && t1.error.None? && t2.error == Some(ValueError)
  {
  }

  /** Turning a switch on records the name, so that the list keeps following the switches. */
  function ChangeSolveCorrected(solveList: seq<string>, ident: string, on: bool): (r: Toggle)
    ensures r.calls == ChangeSolve(solveList, ident, on).calls
    ensures on ==> r.error.None? && ident in r.solveList
    ensures on && ident in solveList ==> r.solveList == solveList
    ensures on && ident !in solveList ==> r.solveList == solveList + [ident]
    ensures !on ==> r == ChangeSolve(solveList, ident, on)
  {
    if on then Toggle(if ident in solveList then solveList else solveList + [ident], [SolveProblem(ident)], None)
    else ChangeSolve(solveList, ident, on)
  }

  /** On the same events the corrected widget raises nothing and ends where it started. */
  lemma OnThenOffCorrected(ident: string)
    ensures var t1 := ChangeSolveCorrected([], ident, true);
      var t2 := ChangeSolveCorrected(t1.solveList, ident, false);
      t1.solveList == [ident] && t2.error.None? && t2.solveList == []
  {
    assert [ident][1..] == [];
  }

  /** Each name occurs at most once in the list. */
  predicate Distinct(s: seq<string>)
  {
    forall j, k :: 0 <= j < k < |s| ==> s[j] != s[k]
  }

  /** Appending a name the list lacks keeps it free of duplicates. */
  lemma AppendDistinct(s: seq<string>, x: string)
    requires Distinct(s) && x !in s
    ensures Distinct(s + [x])
  {
    forall j, k | 0 <= j < k < |s| + 1 ensures (s + [x])[j] != (s + [x])[k] {
      if k == |s| {
        assert (s + [x])[j] == s[j];
      }
    }
  }

  /** Removing a name from a list without duplicates removes it altogether and touches no other name. */
  lemma RemoveFirstDistinct(s: seq<string>, x: string)
    requires Distinct(s) && x in s
    ensures Distinct(RemoveFirst(s, x)) && x !in RemoveFirst(s, x)
    ensures forall y :: y != x ==> (y in RemoveFirst(s, x) <==> y in s)
  {
    var r, k := RemoveFirst(s, x), FirstIndex(s, x);
    forall a, b | 0 <= a < b < |r| ensures r[a] != r[b] {
      var a', b' := if a < k then a else a + 1, if b < k then b else b + 1;
      assert r[a] == s[a'] && r[b] == s[b'];
    }
    forall j | 0 <= j < |r| ensures r[j] != x {
      var j' := if j < k then j else j + 1;
      assert r[j] == s[j'];
    }
    forall y | y != x ensures y in r <==> y in s {
      assert multiset(r)[y] == multiset(s)[y];
    }
  }

  /**
   * With the correction a switch and the list agree after every event: the
   * switch is on exactly when its name is in the list, the other names keep
   * their membership, and no event raises — provided the list starts
   * without duplicates and in agreement with the switch.
   */
  lemma {:induction false} CorrectedKeepsAgreement(solveList: seq<string>, ident: string, on: bool)
    requires Distinct(solveList)
    ensures var r := ChangeSolveCorrected(solveList, ident, on);
      r.error.None? <==> on || ident in solveList
    ensures var r := ChangeSolveCorrected(solveList, ident, on);
      (r.error.None? ==> Distinct(r.solveList) && (ident in r.solveList <==> on))
    ensures var r := ChangeSolveCorrected(solveList, ident, on);
      forall x :: x != ident ==> (x in r.solveList <==> x in solveList)
  {
    if on && ident !in solveList {
      AppendDistinct(solveList, ident);
    } else if !on && ident in solveList {
      RemoveFirstDistinct(solveList, ident);
    }
  }

  /** The switch states after one flip: the problem's switch is now `on`. */
  function Flipped(switchesOn: set<string>, ident: string, on: bool): (r: set<string>)
    ensures ident in r <==> on
    ensures forall x :: x != ident ==> (x in r <==> x in switchesOn)
  {
    if on then switchesOn + {ident} else switchesOn - {ident}
  }

  /**
   * Events a switch can produce: each one flips a switch, turning it on when
   * it is off and off when it is on.
   */
  predicate Flips(switchesOn: set<string>, events: seq<(string, bool)>)
    decreases |events|
  {
    |events| == 0 ||
      (events[0].1 == (events[0].0 !in switchesOn)
       && Flips(Flipped(switchesOn, events[0].0, events[0].1), events[1..]))
  }

  /** The switch states after a run of flips. */
  function SwitchesAfter(switchesOn: set<string>, events: seq<(string, bool)>): set<string>
    decreases |events|
  {
    if |events| == 0 then switchesOn
    else SwitchesAfter(Flipped(switchesOn, events[0].0, events[0].1), events[1..])
  }

  /**
   * The corrected callback over a run of events, in order: the calls of
   * every event, concatenated, up to the first event that raises.
   */
  function RunCorrected(solveList: seq<string>, events: seq<(string, bool)>): (r: Toggle)
    decreases |events|
    ensures r.error.None? ==> |r.calls| == |events|
    ensures |events| > 0 ==> 1 <= |r.calls| && [r.calls[0]] == ChangeSolveCorrected(solveList, events[0].0, events[0].1).calls
  {
    if |events| == 0 then Toggle(solveList, [], None)
    else
      var t := ChangeSolveCorrected(solveList, events[0].0, events[0].1);
      if t.error.Some? then t
      else
        var rest := RunCorrected(t.solveList, events[1..]);
        Toggle(rest.solveList, t.calls + rest.calls, rest.error)
  }

  /**
   * With the correction, any run of switch flips from a list that has no
   * duplicates and agrees with the switches raises nothing, and afterwards
   * the list still has no duplicates and holds exactly the problems whose
   * switch is on.
   */
  lemma {:induction false} CorrectedRunAgrees(solveList: seq<string>, switchesOn: set<string>, events: seq<(string, bool)>)
    requires Distinct(solveList)
    requires forall x :: x in solveList <==> x in switchesOn
    requires Flips(switchesOn, events)
    ensures var r := RunCorrected(solveList, events);
      && r.error.None?
      && Distinct(r.solveList)
      && forall x :: x in r.solveList <==> x in SwitchesAfter(switchesOn, events)
    decreases |events|
  {
    if |events| > 0 {
      var ident, on := events[0].0, events[0].1;
      var t := ChangeSolveCorrected(solveList, ident, on);
      CorrectedKeepsAgreement(solveList, ident, on);
      var next := Flipped(switchesOn, ident, on);
      assert forall x :: x in t.solveList <==> x in next;
      CorrectedRunAgrees(t.solveList, next, events[1..]);
    }
  }
}

=== FILE: widget_dict2.dfy ===
/**
 * The dict-based widget prototype: widgets for a class's attribute map of
 * types, widgets for an object's attribute values, and the merge that fills
 * the holes of the second from the first.
 */
module WidgetDict {
  import opened Wrappers
  import opened Schema

  /** A form widget: its caption (the `label` argument) and, when built from a value, that value. */
  datatype Widget =
    | TextInput(caption: string, text: Option<string>)
    | Checkbox(caption: string, checked: Option<bool>)
    | NumberInput(caption: string, number: Option<int>)
    | DropdownInput(caption: string, options: seq<string>, choice: Option<string>)

  /**
   * What a dict slot holds after the widget pass: `None`, one widget, a
   * list of slots, or a nested dict.
   */
  datatype UiNode = Null | W(widget: Widget) | Many(nodes: seq<UiNode>) | Nested(entries: seq<UiEntry>)

  /** One key of a dict of slots. */
  datatype UiEntry = UiEntry(key: string, node: UiNode)

  /** The keys of a dict of slots, in order. */
  function EntryKeys(entries: seq<UiEntry>): (keys: seq<string>)
    ensures |keys| == |entries|
    ensures forall j :: 0 <= j < |entries| ==> keys[j] == entries[j].key
  {
    seq(|entries|, j requires 0 <= j < |entries| => entries[j].key)
  }

  /** The first position at or after `i` whose slot has key `key`. */
  function FindEntryFrom(entries: seq<UiEntry>, key: string, i: nat): (k: Option<nat>)
    requires i <= |entries|
    decreases |entries| - i
    ensures k.None? <==> forall j :: i <= j < |entries| ==> entries[j].key != key
    ensures k.Some? ==> && i <= k.value < |entries| && entries[k.value].key == key
                        && forall j :: i <= j < k.value ==> entries[j].key != key
  {
    if i == |entries| then None
    else if entries[i].key == key then Some(i)
    else FindEntryFrom(entries, key, i + 1)
  }

  /** `d[key]` on a dict of slots: the position of `key`, or `None` for a `KeyError`. */
  function FindEntry(entries: seq<UiEntry>, key: string): (k: Option<nat>)
    ensures k.None? <==> key !in EntryKeys(entries)
    ensures k.Some? ==> k.value < |entries| && entries[k.value].key == key && key !in EntryKeys(entries[..k.value])
  {
    var k := FindEntryFrom(entries, key, 0);
    assert k.Some? ==> forall j :: 0 <= j < k.value ==> EntryKeys(entries[..k.value])[j] == entries[j].key;
    k
  }

  /**
   * `create_widgets(key, value)` for a declared type: a text input for
   * `str` and for `float`, a checkbox for `bool`, a number input for `int`,
   * a drop-down of the literal's options, a list of widgets for the
   * attributes of the first element of a list of types (`IndexError` when it
   * is empty, `AttributeError` when that element is not an attribute map), a
   * drop-down of the subclasses of an exported class, and `None` otherwise.
   */
  function CreateWidgets(key: string, t: TypeDesc, subclasses: string -> seq<string>): (r: Result<UiNode, PyError>)
    decreases t, 1, 0
    ensures t.StrType? || t.FloatType? ==> r == Success(W(TextInput(key, None)))
    ensures t.BoolType? ==> r == Success(W(Checkbox(key, None)))
    ensures t.IntType? ==> r == Success(W(NumberInput(key, None)))
    ensures t.LiteralType? ==> r == Success(W(DropdownInput(key, t.options, None)))
    ensures t.ClassType? ==> r == Success(W(DropdownInput(key, subclasses(t.name), None)))
    ensures t.DictType? || t.GenericList? || t.OtherType? ==> r == Success(Null)
    ensures t.ListType? && |t.elems| == 0 ==> r == Failure(IndexError)
    ensures t.ListType? && |t.elems| > 0 && !t.elems[0].DictType? ==> r == Failure(AttributeError)
    ensures t.ListType? && r.Success? ==>
      && r.value.Many? && |r.value.nodes| == |t.elems[0].fields|
      && forall j :: 0 <= j < |r.value.nodes| ==>
           CreateWidgets(t.elems[0].fields[j].key, t.elems[0].fields[j].ty, subclasses) == Success(r.value.nodes[j])
  {
    match t
    case StrType => Success(W(TextInput(key, None)))
    case FloatType => Success(W(TextInput(key, None)))
    case BoolType => Success(W(Checkbox(key, None)))
    case IntType => Success(W(NumberInput(key, None)))
    case LiteralType(options) => Success(W(DropdownInput(key, options, None)))
    case ListType(elems) =>
      if |elems| == 0 then Failure(IndexError)
      else if !elems[0].DictType? then Failure(AttributeError)
      else
        (match CreateElementWidgets(t, 0, subclasses)
         case Success(nodes) => Success(Many(nodes))
         case Failure(e) => Failure(e))
    case GenericList(_) => Success(Null)
    case ClassType(name) => Success(W(DropdownInput(key, subclasses(name), None)))
    case DictType(_) => Success(Null)
    case OtherType => Success(Null)
  }

  /** The widgets for attributes `i..` of the first element of the list of types `t`. */
  function CreateElementWidgets(t: TypeDesc, i: nat, subclasses: string -> seq<string>): (r: Result<seq<UiNode>, PyError>)
    requires t.ListType? && |t.elems| > 0 && t.elems[0].DictType? && i <= |t.elems[0].fields|
    decreases t, 0, |t.elems[0].fields| - i
    ensures r.Success? ==> |r.value| == |t.elems[0].fields| - i
    ensures r.Success? ==> forall j :: 0 <= j < |r.value| ==>
      CreateWidgets(t.elems[0].fields[i + j].key, t.elems[0].fields[i + j].ty, subclasses) == Success(r.value[j])
  {
    var fields := t.elems[0].fields;
    if i == |fields| then Success([])
    else
      assert t.elems[0] in t.elems;
      assert fields[i] in fields;
      var n := CreateWidgets(fields[i].key, fields[i].ty, subclasses);
      var tail := CreateElementWidgets(t, i + 1, subclasses);
      if n.Failure? then Failure(n.error)
      else if tail.Failure? then Failure(tail.error)
      else
        var rest := tail.value;
        var r := [n.value] + rest;
        assert forall j :: 1 <= j < |r| ==> r[j] == rest[j - 1] && i + j == (i + 1) + (j - 1);
        Success(r)
  }

  /** The list-element pass succeeds exactly when every remaining attribute's `create_widgets` does. */
  lemma {:induction false} CreateElementWidgetsSucceeds(t: TypeDesc, i: nat, subclasses: string -> seq<string>)
    requires t.ListType? && |t.elems| > 0 && t.elems[0].DictType? && i <= |t.elems[0].fields|
    ensures CreateElementWidgets(t, i, subclasses).Success? <==> forall j :: i <= j < |t.elems[0].fields| ==> CreateWidgets(t.elems[0].fields[j].key, t.elems[0].fields[j].ty, subclasses).Success?
    decreases |t.elems[0].fields| - i
  {
    if i < |t.elems[0].fields| {
      CreateElementWidgetsSucceeds(t, i + 1, subclasses);
      var head, tail := CreateWidgets(t.elems[0].fields[i].key, t.elems[0].fields[i].ty, subclasses), CreateElementWidgets(t, i + 1, subclasses);
      assert CreateElementWidgets(t, i, subclasses).Success? <==> head.Success? && tail.Success?;
      if head.Success? && tail.Success? {
        forall j | i <= j < |t.elems[0].fields|
          ensures CreateWidgets(t.elems[0].fields[j].key, t.elems[0].fields[j].ty, subclasses).Success?
        {
          if j == i {
            assert CreateWidgets(t.elems[0].fields[j].key, t.elems[0].fields[j].ty, subclasses) == head;
          }
        }
      } else if tail.Failure? {
        var j :| i + 1 <= j < |t.elems[0].fields| && !CreateWidgets(t.elems[0].fields[j].key, t.elems[0].fields[j].ty, subclasses).Success?;
        assert CreateElementWidgets(t, i, subclasses).Failure?;
      } else {
        assert !CreateWidgets(t.elems[0].fields[i].key, t.elems[0].fields[i].ty, subclasses).Success?;
        assert !(forall j :: i <= j < |t.elems[0].fields| ==> CreateWidgets(t.elems[0].fields[j].key, t.elems[0].fields[j].ty, subclasses).Success?);
        assert CreateElementWidgets(t, i, subclasses).Failure?;
      }
    }
  }

  /**
   * A list of attribute maps gets its widgets exactly when every attribute
   * of the first map gets its own.
   */
  lemma CreateWidgetsListSucceeds(key: string, t: TypeDesc, subclasses: string -> seq<string>)
    requires t.ListType? && |t.elems| > 0 && t.elems[0].DictType?
    ensures CreateWidgets(key, t, subclasses).Success? <==>
      forall j :: 0 <= j < |t.elems[0].fields| ==> CreateWidgets(t.elems[0].fields[j].key, t.elems[0].fields[j].ty, subclasses).Success?
  {
    CreateElementWidgetsSucceeds(t, 0, subclasses);
  }

  /**
   * One iteration of `show_widgets` on attribute `i` of the map `t`: a
   * nested attribute map is processed in place and stays a dict of slots,
   * every other type is replaced by `create_widgets(key, type)`.
   */
  function FieldSlot(t: TypeDesc, i: nat, subclasses: string -> seq<string>): (r: Result<UiNode, PyError>)
    requires t.DictType? && i < |t.fields|
    decreases t, |t.fields| - i, 0
    ensures r.Success? ==> (r.value.Nested? <==> t.fields[i].ty.DictType?)
    ensures !t.fields[i].ty.DictType? ==> r == CreateWidgets(t.fields[i].key, t.fields[i].ty, subclasses)
  {
    var f := t.fields[i];
    assert f in t.fields;
    if f.ty.DictType? then
      match ShowWidgets(f.ty, 0, subclasses)
      case Success(entries) => Success(Nested(entries))
      case Failure(e) => Failure(e)
    else CreateWidgets(f.key, f.ty, subclasses)
  }

  /**
   * `show_widgets(dict_elem)` on the attribute map `t`, from attribute `i`:
   * every attribute, in order and under its own key, goes through
   * `FieldSlot`; the first failure stops the loop.
   */
  function ShowWidgets(t: TypeDesc, i: nat, subclasses: string -> seq<string>): (r: Result<seq<UiEntry>, PyError>)
    requires t.DictType? && i <= |t.fields|
    decreases t, |t.fields| - i, 1
    ensures r.Success? ==> |r.value| == |t.fields| - i
    ensures r.Success? ==> forall j :: 0 <= j < |r.value| ==>
      r.value[j].key == t.fields[i + j].key && FieldSlot(t, i + j, subclasses) == Success(r.value[j].node)
  {
    if i == |t.fields| then Success([])
    else
      var slot := FieldSlot(t, i, subclasses);
      var tail := ShowWidgets(t, i + 1, subclasses);
      if slot.Failure? then Failure(slot.error)
      else if tail.Failure? then Failure(tail.error)
      else
        var rest := tail.value;
        var r := [UiEntry(t.fields[i].key, slot.value)] + rest;
        assert forall j :: 1 <= j < |r| ==> r[j] == rest[j - 1] && i + j == (i + 1) + (j - 1);
        Success(r)
  }

  /** A nested attribute map is processed in place: its slot is the dict the pass gives on it, or that pass's exception. */
  lemma FieldSlotNested(t: TypeDesc, i: nat, subclasses: string -> seq<string>)
    requires t.DictType? && i < |t.fields| && t.fields[i].ty.DictType?
    ensures var sub := ShowWidgets(t.fields[i].ty, 0, subclasses);
      && (sub.Success? ==> FieldSlot(t, i, subclasses) == Success(Nested(sub.value)))
      && (sub.Failure? ==> FieldSlot(t, i, subclasses) == Failure(sub.error))
  {
  }

  /** The attribute-map pass succeeds exactly when every remaining attribute's slot does. */
  lemma {:induction false} ShowWidgetsSucceeds(t: TypeDesc, i: nat, subclasses: string -> seq<string>)
    requires t.DictType? && i <= |t.fields|
    ensures ShowWidgets(t, i, subclasses).Success? <==> forall j :: i <= j < |t.fields| ==> FieldSlot(t, j, subclasses).Success?
    decreases |t.fields| - i
  {
    if i < |t.fields| {
      ShowWidgetsSucceeds(t, i + 1, subclasses);
      var head, tail := FieldSlot(t, i, subclasses), ShowWidgets(t, i + 1, subclasses);
      assert ShowWidgets(t, i, subclasses).Success? <==> head.Success? && tail.Success?;
      if head.Success? && tail.Success? {
        forall j | i <= j < |t.fields|
          ensures FieldSlot(t, j, subclasses).Success?
        {
          if j == i {
            assert FieldSlot(t, j, subclasses) == head;
          }
        }
      } else if tail.Failure? {
        var j :| i + 1 <= j < |t.fields| && !FieldSlot(t, j, subclasses).Success?;
        assert ShowWidgets(t, i, subclasses).Failure?;
      } else {
        assert !FieldSlot(t, i, subclasses).Success?;
        assert !(forall j :: i <= j < |t.fields| ==> FieldSlot(t, j, subclasses).Success?);
        assert ShowWidgets(t, i, subclasses).Failure?;
      }
    }
  }

  /**
   * `create_widgets_existing(key, value)` for a value: a text input holding
   * a string, or a float's printed form; a checkbox or number input holding
   * a boolean or integer; for a list, `IndexError` when it is empty, and
   * otherwise one entry per item — the widgets of each item's attributes
   * when the first item is an object (`AttributeError` if a later item is
   * not), the widget of each item otherwise; `None` for anything else.
   */
  function CreateWidgetsExisting(key: string, v: Value): (r: Result<UiNode, PyError>)
    decreases v, 2, 0
    ensures v.StrVal? ==> r == Success(W(TextInput(key, Some(v.s))))
    ensures v.FloatVal? ==> r == Success(W(TextInput(key, Some(v.repr))))
    ensures v.BoolVal? ==> r == Success(W(Checkbox(key, Some(v.b))))
    ensures v.IntVal? ==> r == Success(W(NumberInput(key, Some(v.i))))
    ensures v.Absent? || v.RecordVal? ==> r == Success(Null)
    ensures v.ListVal? ==> (|v.items| == 0 ==> r == Failure(IndexError))
    ensures v.ListVal? && r.Success? ==> r.value.Many? && |r.value.nodes| == |v.items|
    ensures v.ListVal? && r.Success? ==> forall j :: 0 <= j < |v.items| ==>
      ItemNode(key, v.items[j], v.items[0].RecordVal?) == Success(r.value.nodes[j])
  {
    match v
    case StrVal(s) => Success(W(TextInput(key, Some(s))))
    case FloatVal(repr) => Success(W(TextInput(key, Some(repr))))
    case BoolVal(b) => Success(W(Checkbox(key, Some(b))))
    case IntVal(n) => Success(W(NumberInput(key, Some(n))))
    case ListVal(items) =>
      if |items| == 0 then Failure(IndexError)
      else
        (match CreateItems(key, v, 0, items[0].RecordVal?)
         case Success(nodes) => Success(Many(nodes))
         case Failure(e) => Failure(e))
    case Absent => Success(Null)
    case RecordVal(_, _) => Success(Null)
  }

  /**
   * The entry for one item of a list value: the widgets of its attributes
   * when the list's first item is an object (`AttributeError` if this one is
   * not), `create_widgets_existing(key, item)` otherwise.
   */
  function ItemNode(key: string, item: Value, records: bool): (r: Result<UiNode, PyError>)
    decreases item, 2, 1
    ensures records && !item.RecordVal? ==> r == Failure(AttributeError)
    ensures records && r.Success? ==> r.value.Nested?
    ensures records && item.RecordVal? && r.Success? ==>
      r.value.Nested? && ShowWidgetsExisting(item, 0) == Success(r.value.entries)
    ensures !records ==> r == CreateWidgetsExisting(key, item)
  {
    if records then
      if item.RecordVal? then
        (match ShowWidgetsExisting(item, 0)
         case Success(entries) => Success(Nested(entries))
         case Failure(e) => Failure(e))
      else Failure(AttributeError)
    else CreateWidgetsExisting(key, item)
  }

  /** An object item of a list of objects is the dict the value pass gives on it, or that pass's exception. */
  lemma ItemNodeRecord(key: string, item: Value)
    requires item.RecordVal?
    ensures var sub := ShowWidgetsExisting(item, 0);
      && (sub.Success? ==> ItemNode(key, item, true) == Success(Nested(sub.value)))
      && (sub.Failure? ==> ItemNode(key, item, true) == Failure(sub.error))
  {
  }

  /** The entries for items `i..` of the list `v`; `records` says whether its first item is an object. */
  function CreateItems(key: string, v: Value, i: nat, records: bool): (r: Result<seq<UiNode>, PyError>)
    requires v.ListVal? && i <= |v.items|
    decreases v, 1, |v.items| - i
    ensures r.Success? ==> |r.value| == |v.items| - i
    ensures r.Success? ==> forall j :: 0 <= j < |r.value| ==>
      ItemNode(key, v.items[i + j], records) == Success(r.value[j])
  {
    if i == |v.items| then Success([])
    else
      var item := v.items[i];
      assert item in v.items;
      var n := ItemNode(key, item, records);
      var tail := CreateItems(key, v, i + 1, records);
      if n.Failure? then Failure(n.error)
      else if tail.Failure? then Failure(tail.error)
      else
        var rest := tail.value;
        var r := [n.value] + rest;
        assert forall j :: 1 <= j < |r| ==> r[j] == rest[j - 1] && i + j == (i + 1) + (j - 1);
        Success(r)
  }

  /** The item loop succeeds exactly when every remaining item's entry does. */
  lemma {:induction false} CreateItemsSucceeds(key: string, v: Value, i: nat, records: bool)
    requires v.ListVal? && i <= |v.items|
    ensures CreateItems(key, v, i, records).Success? <==> forall j :: i <= j < |v.items| ==> ItemNode(key, v.items[j], records).Success?
    decreases |v.items| - i
  {
    if i < |v.items| {
      CreateItemsSucceeds(key, v, i + 1, records);
      var head, tail := ItemNode(key, v.items[i], records), CreateItems(key, v, i + 1, records);
      assert CreateItems(key, v, i, records).Success? <==> head.Success? && tail.Success?;
      if head.Success? && tail.Success? {
        forall j | i <= j < |v.items|
          ensures ItemNode(key, v.items[j], records).Success?
        {
          if j == i {
            assert ItemNode(key, v.items[j], records) == head;
          }
        }
      } else if tail.Failure? {
        var j :| i + 1 <= j < |v.items| && !ItemNode(key, v.items[j], records).Success?;
        assert CreateItems(key, v, i, records).Failure?;
      } else {
        assert !ItemNode(key, v.items[i], records).Success?;
        assert !(forall j :: i <= j < |v.items| ==> ItemNode(key, v.items[j], records).Success?);
        assert CreateItems(key, v, i, records).Failure?;
      }
    }
  }

  /** A non-empty list value gets its entries exactly when every item gets its own. */
  lemma CreateWidgetsExistingListSucceeds(key: string, v: Value)
    requires v.ListVal? && |v.items| > 0
    ensures CreateWidgetsExisting(key, v).Success? <==>
      forall j :: 0 <= j < |v.items| ==> ItemNode(key, v.items[j], v.items[0].RecordVal?).Success?
  {
    CreateItemsSucceeds(key, v, 0, v.items[0].RecordVal?);
  }

  /**
   * One iteration of `show_widgets_existing` on attribute `i` of the object
   * `v`: an unset attribute stays `None`, a nested object is processed in
   * place and stays a dict of slots, every other value is replaced by
   * `create_widgets_existing(key, value)`.
   */
  function AttrSlot(v: Value, i: nat): (r: Result<UiNode, PyError>)
    requires v.RecordVal? && i < |v.attrs|
    decreases v, 1, |v.attrs| - i, 0
    ensures r.Success? ==> (r.value.Nested? <==> v.attrs[i].val.RecordVal?)
    ensures v.attrs[i].val.Absent? ==> r == Success(Null)
    ensures !v.attrs[i].val.Absent? && !v.attrs[i].val.RecordVal? ==>
      r == CreateWidgetsExisting(v.attrs[i].key, v.attrs[i].val)
  {
    var a := v.attrs[i];
    assert a in v.attrs;
    if a.val.Absent? then Success(Null)
    else if a.val.RecordVal? then
      match ShowWidgetsExisting(a.val, 0)
      case Success(entries) => Success(Nested(entries))
      case Failure(e) => Failure(e)
    else CreateWidgetsExisting(a.key, a.val)
  }

  /**
   * `show_widgets_existing(dict_elem)` on the object `v`, from attribute
   * `i`: every attribute, in order and under its own key, goes through
   * `AttrSlot`; the first failure stops the loop.
   */
  function ShowWidgetsExisting(v: Value, i: nat): (r: Result<seq<UiEntry>, PyError>)
    requires v.RecordVal? && i <= |v.attrs|
    decreases v, 1, |v.attrs| - i, 1
    ensures r.Success? ==> |r.value| == |v.attrs| - i
    ensures r.Success? ==> forall j :: 0 <= j < |r.value| ==>
      r.value[j].key == v.attrs[i + j].key && AttrSlot(v, i + j) == Success(r.value[j].node)
  {
    if i == |v.attrs| then Success([])
    else
      var slot := AttrSlot(v, i);
      var tail := ShowWidgetsExisting(v, i + 1);
      if slot.Failure? then Failure(slot.error)
      else if tail.Failure? then Failure(tail.error)
      else
        var rest := tail.value;
        var r := [UiEntry(v.attrs[i].key, slot.value)] + rest;
        assert forall j :: 1 <= j < |r| ==> r[j] == rest[j - 1] && i + j == (i + 1) + (j - 1);
        Success(r)
  }

  /** A nested object is processed in place: its slot is the dict the pass gives on it, or that pass's exception. */
  lemma AttrSlotNested(v: Value, i: nat)
    requires v.RecordVal? && i < |v.attrs| && v.attrs[i].val.RecordVal?
    ensures var sub := ShowWidgetsExisting(v.attrs[i].val, 0);
      && (sub.Success? ==> AttrSlot(v, i) == Success(Nested(sub.value)))
      && (sub.Failure? ==> AttrSlot(v, i) == Failure(sub.error))
  {
  }

  /** The value pass succeeds exactly when every remaining attribute's slot does. */
  lemma {:induction false} ShowWidgetsExistingSucceeds(v: Value, i: nat)
    requires v.RecordVal? && i <= |v.attrs|
    ensures ShowWidgetsExisting(v, i).Success? <==> forall j :: i <= j < |v.attrs| ==> AttrSlot(v, j).Success?
    decreases |v.attrs| - i
  {
    if i < |v.attrs| {
      ShowWidgetsExistingSucceeds(v, i + 1);
      var head, tail := AttrSlot(v, i), ShowWidgetsExisting(v, i + 1);
      assert ShowWidgetsExisting(v, i).Success? <==> head.Success? && tail.Success?;
      if head.Success? && tail.Success? {
        forall j | i <= j < |v.attrs|
          ensures AttrSlot(v, j).Success?
        {
          if j == i {
            assert AttrSlot(v, j) == head;
          }
        }
      } else if tail.Failure? {
        var j :| i + 1 <= j < |v.attrs| && !AttrSlot(v, j).Success?;
        assert ShowWidgetsExisting(v, i).Failure?;
      } else {
        assert !AttrSlot(v, i).Success?;
        assert !(forall j :: i <= j < |v.attrs| ==> AttrSlot(v, j).Success?);
        assert ShowWidgetsExisting(v, i).Failure?;
      }
    }
  }

  /**
   * One iteration of `final_widget` when the type side is a dict: an unset
   * slot takes the type side's slot of the same key, a nested dict is merged
   * recursively with it (a key the type side lacks raises `KeyError` in both
   * cases), and any other slot stays.
   */
  function MergeSlot(attr: UiNode, obj: seq<UiEntry>, i: nat): (r: Result<UiNode, PyError>)
    requires attr.Nested? && i < |obj|
    decreases obj, |obj| - i, 0
    ensures (obj[i].node.Null? || obj[i].node.Nested?) && FindEntry(attr.entries, obj[i].key).None? ==>
      r == Failure(KeyError)
    ensures obj[i].node.Null? && FindEntry(attr.entries, obj[i].key).Some? ==>
      r == Success(attr.entries[FindEntry(attr.entries, obj[i].key).value].node)
    ensures obj[i].node.Nested? && r.Success? ==> r.value.Nested?
    ensures !obj[i].node.Null? && !obj[i].node.Nested? ==> r == Success(obj[i].node)
  {
    var e := obj[i];
    assert e in obj;
    match e.node
    case Null =>
      (match FindEntry(attr.entries, e.key)
       case None => Failure(KeyError)
       case Some(k) => Success(attr.entries[k].node))
    case Nested(sub) =>
      (match FindEntry(attr.entries, e.key)
       case None => Failure(KeyError)
       case Some(k) =>
         match FinalWidget(attr.entries[k].node, sub, 0)
         case Success(merged) => Success(Nested(merged))
         case Failure(err) => Failure(err))
    case _ => Success(e.node)
  }

  /**
   * A nested slot whose key the type side has is the recursive merge of the
   * two sub-dicts, or that merge's exception.
   */
  lemma MergeSlotNested(attr: UiNode, obj: seq<UiEntry>, i: nat)
    requires attr.Nested? && i < |obj|
    requires obj[i].node.Nested? && FindEntry(attr.entries, obj[i].key).Some?
    ensures var sub := FinalWidget(attr.entries[FindEntry(attr.entries, obj[i].key).value].node, obj[i].node.entries, 0);
      && (sub.Success? ==> MergeSlot(attr, obj, i) == Success(Nested(sub.value)))
      && (sub.Failure? ==> MergeSlot(attr, obj, i) == Failure(sub.error))
  {
  }

  /**
   * `final_widget(dict_ui_attr, dict_ui_obj)` from entry `i` of the object
   * side: when the type side is a dict every slot goes through `MergeSlot`,
   * in order, and the first failure stops the loop; when it is not a dict
   * nothing changes. Keys and their order are kept.
   */
  function FinalWidget(attr: UiNode, obj: seq<UiEntry>, i: nat): (r: Result<seq<UiEntry>, PyError>)
    requires i <= |obj|
    decreases obj, |obj| - i, 1
    ensures !attr.Nested? ==> r == Success(obj[i..])
    ensures r.Success? ==> |r.value| == |obj| - i
    ensures r.Success? ==> forall j :: 0 <= j < |r.value| ==> r.value[j].key == obj[i + j].key
    ensures attr.Nested? && r.Success? ==>
      forall j :: 0 <= j < |r.value| ==> MergeSlot(attr, obj, i + j) == Success(r.value[j].node)
  {
    if i == |obj| then
      assert obj[i..] == [];
      Success([])
    else if !attr.Nested? then Success(obj[i..])
    else
      var slot := MergeSlot(attr, obj, i);
      var tail := FinalWidget(attr, obj, i + 1);
      if slot.Failure? then Failure(slot.error)
      else if tail.Failure? then Failure(tail.error)
      else
        var rest := tail.value;
        var r := [UiEntry(obj[i].key, slot.value)] + rest;
        assert forall j :: 1 <= j < |r| ==> r[j] == rest[j - 1] && i + j == (i + 1) + (j - 1);
        Success(r)
  }

  /**
   * `widgets_obj(obj)`: the widgets of the class's attribute map, the
   * widgets of the object's values, then the merge; `typeMap` and `v` are
   * what the schema library returns for the object's class and the object.
   * The result has the object's keys, in order.
   */
  function WidgetsObj(typeMap: TypeDesc, v: Value, subclasses: string -> seq<string>): (r: Result<seq<UiEntry>, PyError>)
    requires typeMap.DictType? && v.RecordVal?
    ensures r.Success? ==> |r.value| == |v.attrs|
    ensures r.Success? ==> forall j :: 0 <= j < |r.value| ==> r.value[j].key == v.attrs[j].key
  {
    var attrUi := ShowWidgets(typeMap, 0, subclasses);
    var objUi := ShowWidgetsExisting(v, 0);
    if attrUi.Failure? then Failure(attrUi.error)
    else if objUi.Failure? then Failure(objUi.error)
    else FinalWidget(Nested(attrUi.value), objUi.value, 0)
  }

  /**
   * What the merged form shows for attribute `j`: a string, boolean or
   * integer attribute shows its value in the matching widget, and an unset
   * attribute is one the class declares (its slot came from the type side).
   */
  lemma WidgetsObjShowsValues(typeMap: TypeDesc, v: Value, subclasses: string -> seq<string>, j: nat)
    requires typeMap.DictType? && v.RecordVal? && j < |v.attrs|
    requires WidgetsObj(typeMap, v, subclasses).Success?
    ensures var n := WidgetsObj(typeMap, v, subclasses).value[j].node;
      var a := v.attrs[j];
      && (a.val.StrVal? ==> n == W(TextInput(a.key, Some(a.val.s))))
      && (a.val.BoolVal? ==> n == W(Checkbox(a.key, Some(a.val.b))))
      && (a.val.IntVal? ==> n == W(NumberInput(a.key, Some(a.val.i))))
      && (a.val.Absent? ==> a.key in FieldKeys(typeMap.fields))
  {
    var attrUi := ShowWidgets(typeMap, 0, subclasses).value;
    var objUi := ShowWidgetsExisting(v, 0).value;
    var r := FinalWidget(Nested(attrUi), objUi, 0).value;
    assert WidgetsObj(typeMap, v, subclasses) == Success(r);
    assert objUi[j].key == v.attrs[j].key && AttrSlot(v, 0 + j) == Success(objUi[j].node);
    assert MergeSlot(Nested(attrUi), objUi, 0 + j) == Success(r[j].node);
    if v.attrs[j].val.Absent? {
      var k := FindEntry(attrUi, objUi[j].key).value;
      assert attrUi[k].key == typeMap.fields[0 + k].key;
      assert FieldKeys(typeMap.fields)[k] == v.attrs[j].key;
    }
  }

  /** The merge fails exactly when one of its slots does. */
  lemma {:induction false} FinalWidgetSucceeds(attr: UiNode, obj: seq<UiEntry>, i: nat)
    requires attr.Nested? && i <= |obj|
    ensures FinalWidget(attr, obj, i).Success? <==> forall j :: i <= j < |obj| ==> MergeSlot(attr, obj, j).Success?
    decreases |obj| - i
  {
    if i < |obj| {
      FinalWidgetSucceeds(attr, obj, i + 1);
      if MergeSlot(attr, obj, i).Success? && FinalWidget(attr, obj, i + 1).Success? {
        assert FinalWidget(attr, obj, i).Success?;
      } else {
        assert FinalWidget(attr, obj, i).Failure?;
        assert !MergeSlot(attr, obj, i).Success? || exists j :: i + 1 <= j < |obj| && !MergeSlot(attr, obj, j).Success?;
      }
    }
  }

  /**
   * When `widgets_obj` builds the form: exactly when the type pass and the
   * value pass both succeed and the merge succeeds on every slot of the
   * value side. Each pass in turn succeeds exactly when all its slots do.
   */
  lemma WidgetsObjSucceeds(typeMap: TypeDesc, v: Value, subclasses: string -> seq<string>)
    requires typeMap.DictType? && v.RecordVal?
    ensures var attrUi, objUi := ShowWidgets(typeMap, 0, subclasses), ShowWidgetsExisting(v, 0);
      WidgetsObj(typeMap, v, subclasses).Success? <==>
        && attrUi.Success? && objUi.Success?
        && forall j :: 0 <= j < |objUi.value| ==> MergeSlot(Nested(attrUi.value), objUi.value, j).Success?
    ensures ShowWidgets(typeMap, 0, subclasses).Success? <==> forall j :: 0 <= j < |typeMap.fields| ==> FieldSlot(typeMap, j, subclasses).Success?
    ensures ShowWidgetsExisting(v, 0).Success? <==> forall j :: 0 <= j < |v.attrs| ==> AttrSlot(v, j).Success?
  {
    ShowWidgetsSucceeds(typeMap, 0, subclasses);
    ShowWidgetsExistingSucceeds(v, 0);
    var attrUi, objUi := ShowWidgets(typeMap, 0, subclasses), ShowWidgetsExisting(v, 0);
    if attrUi.Success? && objUi.Success? {
      FinalWidgetSucceeds(Nested(attrUi.value), objUi.value, 0);
    }
  }

  /** Every dict of slots in the tree has distinct keys. */
  predicate WellKeyed(n: UiNode)
    decreases n
  {
    match n
    case Nested(entries) =>
      && (forall j, k :: 0 <= j < k < |entries| ==> entries[j].key != entries[k].key)
      && (forall j :: 0 <= j < |entries| ==> WellKeyed(entries[j].node))
    case Many(nodes) => forall j :: 0 <= j < |nodes| ==> WellKeyed(nodes[j])
    case _ => true
  }

  /** With distinct keys, a key is found where it stands. */
  lemma FindDistinct(entries: seq<UiEntry>, i: nat)
    requires i < |entries|
    requires forall j, k :: 0 <= j < k < |entries| ==> entries[j].key != entries[k].key
    ensures FindEntry(entries, entries[i].key) == Some(i)
  {
    var k := FindEntry(entries, entries[i].key).value;
    assert entries[k].key == entries[i].key;
  }

  /** Slot `j` of `s` is left as it is by a merge with `attr`. */
  predicate Stable(attr: UiNode, s: seq<UiEntry>, j: nat)
    requires attr.Nested? && j < |s|
  {
    MergeSlot(attr, s, j) == Success(s[j].node)
  }

  /** A merge whose every slot is stable changes nothing. */
  lemma {:induction false} StableMerge(attr: UiNode, s: seq<UiEntry>, i: nat)
    requires attr.Nested? && i <= |s|
    requires forall j :: i <= j < |s| ==> Stable(attr, s, j)
    ensures FinalWidget(attr, s, i) == Success(s[i..])
    decreases |s| - i
  {
    if i < |s| {
      StableMerge(attr, s, i + 1);
      assert Stable(attr, s, i);
      var slot, tail := MergeSlot(attr, s, i), FinalWidget(attr, s, i + 1);
      assert slot == Success(s[i].node) && tail == Success(s[i + 1..]);
      assert s[i..] == [UiEntry(s[i].key, s[i].node)] + s[i + 1..];
    }
  }

  /** Merging a well-keyed dict of slots into itself changes nothing. */
  lemma {:induction false} SelfMerge(e: seq<UiEntry>)
    requires WellKeyed(Nested(e))
    ensures FinalWidget(Nested(e), e, 0) == Success(e)
    decreases e
  {
    forall j | 0 <= j < |e|
      ensures Stable(Nested(e), e, j)
    {
      assert e[j] in e;
      FindDistinct(e, j);
      if e[j].node.Nested? {
        SelfMerge(e[j].node.entries);
      }
    }
    StableMerge(Nested(e), e, 0);
    assert e[0..] == e;
  }

  /** A slot produced by a merge is stable under a second merge with the same type side. */
  lemma {:induction false} SlotStable(attr: UiNode, obj: seq<UiEntry>, m: nat, r: seq<UiEntry>, j: nat)
    requires attr.Nested? && WellKeyed(attr) && m < |obj| && j < |r|
    requires r[j].key == obj[m].key && MergeSlot(attr, obj, m) == Success(r[j].node)
    ensures Stable(attr, r, j)
    decreases obj, 1
  {
    var x := obj[m];
    assert x in obj;
    if x.node.Null? || x.node.Nested? {
      var k := FindEntry(attr.entries, x.key).value;
      var t := attr.entries[k].node;
      assert WellKeyed(t);
      if x.node.Null? && t.Nested? {
        SelfMerge(t.entries);
      } else if x.node.Nested? {
        MergeIdempotent(t, x.node.entries, 0);
      }
    }
  }

  /** Every slot of a merge's result is stable under a second merge with the same type side. */
  lemma {:induction false} MergedIsStable(attr: UiNode, obj: seq<UiEntry>, i: nat)
    requires attr.Nested? && WellKeyed(attr) && i <= |obj|
    requires FinalWidget(attr, obj, i).Success?
    ensures var r := FinalWidget(attr, obj, i).value;
      forall j :: 0 <= j < |r| ==> Stable(attr, r, j)
    decreases obj, 2
  {
    var r := FinalWidget(attr, obj, i).value;
    forall j | 0 <= j < |r|
      ensures Stable(attr, r, j)
    {
      SlotStable(attr, obj, i + j, r, j);
    }
  }

  /**
   * `final_widget` is idempotent on a well-keyed type side: merging its
   * result again with the same type side returns that result.
   */
  lemma {:induction false} MergeIdempotent(attr: UiNode, obj: seq<UiEntry>, i: nat)
    requires WellKeyed(attr) && i <= |obj|
    requires FinalWidget(attr, obj, i).Success?
    ensures var r := FinalWidget(attr, obj, i).value;
      FinalWidget(attr, r, 0) == Success(r)
    decreases obj, 3
  {
    var r := FinalWidget(attr, obj, i).value;
    if attr.Nested? {
      MergedIsStable(attr, obj, i);
      StableMerge(attr, r, 0);
    }
    assert r[0..] == r;
  }
}

=== FILE: wrappers.dfy ===
/** Option and Result, the two failure-carrying shapes the model needs. */
module Wrappers {

  /** Python's `x or None`: a value that may be absent. */
  datatype Option<+T> = None | Some(value: T)

  /** The outcome of an operation that may raise. */
  datatype Result<+T, +E> = Success(value: T) | Failure(error: E)

  /** The Python exceptions the modelled code can raise. */
  datatype PyError =
    | IndexError   // a list read or write out of range
    | KeyError     // a dict lookup with a missing key
    | ValueError   // `list.remove` of an absent element
    | AttributeError // `.items()` on something that is not a dict
    | TypeError    // subscripting a value that is not a record
}
